=== FILE: README.md ===
# A verified model of the distributed tag-based system's core

This project models, in Dafny, the core logic of a distributed tag-based file
system. It covers five parts:

- **The Chord ring node**: node identifiers from SHA-1, the `_in_between`
  interval test, `notify`, `closest_preceding_finger`, the
  `find_predecessor` / `find_successor` walk over a snapshot of the ring, the
  ZeroMQ multipart encoding of a node reference, and one step of the
  `start_server` request dispatch.
- **Service discovery**: the `ServiceAnnouncement` record and its JSON pair,
  `Peer` equality and expiry, the per-service FIFO lists of `PeerRegistry`,
  and the discovery agent's peer table. The table changes on pings and on
  sweeps of dead peers, and every change is reported as a JOINED or LEFT
  message.
- **File chunking** in the client: the `FileMetadata` size bound, plus
  `get_chunk`, `get_chunks` and `get_index_chunk` on a file given as a byte
  sequence.
- **The client CLI validators**: the tag length check, the file checks, and
  the order in which each command runs them.
- **Podman bindings**:
  - the path and `host:container` binding grammar;
  - `@{…}` / `${…}` variable substitution, as both `my_validators.py` and
    `borrar.py` do it;
  - binding validation and container name generation;
  - `ContainerTemplate` / `ContainerInstance`;
  - the mount records built by `get_mounts` and `transform_bindings`.

The program's behaviour is modelled as written, including its rough edges,
with the exceptions listed under "## Left out". Each of these is proved:

- `_in_between` has no wrap-around.
- A port above 255 cannot be encoded by `int.to_bytes()` with its defaults. The
  default port 8001 is one of them.
- The NOTIFY request never succeeds, because it asserts two body parts and then
  reads the third.
- `get_chunks` yields a trailing empty chunk when a chunk boundary falls
  exactly on the end of the file.
- `get_peers(service, 0)` returns the whole list.
- `validate_binding` leaves `@{…}` references in the returned paths.

Layout, one module per source component:

| file | module | models |
|---|---|---|
| wrappers.dfy | Wrappers | `Option` / `Result` |
| pyseq.dfy | PySeq, OrderedDict | Python slicing; a `dict` with insertion order |
| encoding.dfy | Encoding | UTF-8 encoding of any text and decoding of ASCII bytes, decimal and fixed-width hex text, `int.to_bytes` / `int.from_bytes` |
| chord.dfy | Chord | `chord_dht/chord_subsystem.py` |
| chord_dispatch.dfy | ChordDispatch | one step of `start_server` |
| announcement.dfy | ServiceAnnouncement | `service_discovery/service_announcement.py` |
| registry.dfy | DnsRegistry | `service_discovery/dns_registry.py` |
| discovery.dfy | DiscoveryAgent | `service_discovery/discovery_agent.py` |
| file_helper.dfy | FileHelper | `client_cli/utils/file_helper.py` |
| cli.dfy | CliApp | `client_cli/cli_app.py` |
| path_grammar.dfy | PathGrammar | the path regular expression and `match_binding` |
| substitution.dfy | Substitution | the `re.sub` callback substitution shared by all expansions |
| validators.dfy | Validators | `podman_utils/v2/validation/my_validators.py` |
| borrar.dfy | Borrar | `podman_utils/v2/borrar.py` |
| services.dfy | ServicesUtilities | `podman_utils/v2/services_utilities.py` |
| mounts.dfy | PodmanActions | `get_mounts` / `transform_bindings` |

The following become parameters:

- SHA-1 is a function parameter whose results lie below 2^160.
- The ring of remote nodes is a snapshot map from node id to the state that
  node would report.
- The clock is an integer count of microseconds.
- IP address parsing (`IPvAnyAddress`) is a function parameter `parseIp`; it
  answers the canonical text of the parsed address, or nothing when the text
  is no address.
- A peer's JSON encoder is a function parameter.
- `os.getenv` is a map from variable names to values.
- `os.path.exists` / `os.path.isfile` are two sets.
- A uuid4 is a natural number below 16^32.

## Model

| member | source | states |
|---|---|---|
| Chord.GetShaRepr | chord_dht/chord_subsystem.py:21-23 | The integer value of a SHA-1 hex digest lies below 2^160. |
| Chord.GetIdOfNode | chord_dht/chord_subsystem.py:26-28 | A node's id is the hash of `ip:port`, and it lies below 2^160. |
| Chord.ToZmqMultipart | chord_dht/chord_subsystem.py:40-42 | The two frames are the UTF-8 ip and the one-byte port, the second frame being exactly the byte `[port]`. Encoding succeeds exactly when 0 <= port < 256, and `from_bytes` of the second frame gives the port back. |
| Chord.NewNode | chord_dht/chord_subsystem.py:79-109 | A fresh node has its own reference as successor and no predecessor. It has exactly m fingers, each equal to its own reference. Its id is the unreduced hash, below 2^160. |
| Chord.InBetween | chord_dht/chord_subsystem.py:118-120 | The plain comparison `start < k <= end` holds only when start < end, so no interval that wraps around the ring ever contains a key (partners InBetweenAgreesWithoutWrap and InBetweenMissesWrap). |
| Chord.InBetweenAgreesWithoutWrap | chord_dht/chord_subsystem.py:118-120 | When start < end, `_in_between` agrees with the ring interval (start, end] mod 2^m. |
| Chord.InBetweenMissesWrap | chord_dht/chord_subsystem.py:118-120 | `_in_between` is false whenever end <= start. So it misses intervals that wrap past zero, for example 0 in (7, 1] on a ring of 8. |
| Chord.Notify | chord_dht/chord_subsystem.py:136-139 | The predecessor becomes c exactly when there is none or pred.id < c.id <= self.id. Otherwise the node is unchanged. Successor, id and fingers are never touched. |
| Chord.NotifyIdempotent | chord_dht/chord_subsystem.py:136-139 | Notifying twice with the same reference equals notifying once. |
| Chord.NotifyStuckAfterWrap | chord_dht/chord_subsystem.py:136-139 | Once the predecessor's id is not below the node's own id, no notify changes the node. |
| Chord.ScanFingers | chord_dht/chord_subsystem.py:141-145 | The downward scan finds the highest index below i whose finger lies in (self.id, target]. It finds nothing exactly when no such finger exists. |
| Chord.ClosestPrecedingFinger | chord_dht/chord_subsystem.py:141-145 | The result is the highest-index finger with self.id < id <= target. There is none exactly when no finger qualifies. |
| Chord.Walk | chord_dht/chord_subsystem.py:122-130 | Every hop goes to a node whose id is strictly larger than the previous one and at most the target. The loop exits only when target lies in (node.id, successor.id]. |
| Chord.FindPredecessor | chord_dht/chord_subsystem.py:122-134 | It succeeds exactly when the walk does. The result is a fresh reference with the final node's ip and port, and therefore its id. |
| Chord.FindSuccessor | chord_dht/chord_subsystem.py:112-116 | A success is the successor reported by the node that `find_predecessor` found. When `find_predecessor` fails, `find_successor` fails with the same error. When it succeeds, the answer is that node's successor if the node is in the snapshot, and an unreachable-peer failure if it is not. |
| Chord.FindPredecessorBrackets | chord_dht/chord_subsystem.py:126-134 | On success, the final node satisfies node.id < target <= node.successor.id. |
| Chord.WalkHopsOk | chord_dht/chord_subsystem.py:126-130 | When every finger table holds well-formed references, every node the walk moves to is well-formed: its id is the hash of its address. |
| Chord.FindSuccessorBrackets | chord_dht/chord_subsystem.py:112-134 | With well-formed finger tables and a snapshot that agrees with the local node, the answer lies at or after the target, and the predecessor found lies before it: pred.id < target <= succ.id. |
| Chord.LookupBelowSelfFails | chord_dht/chord_subsystem.py:112-145 | A lookup of a target at or below the node's own id fails, with no closest preceding finger. |
| Chord.SingleNodeRingFails | chord_dht/chord_subsystem.py:91-145 | On a fresh node, every lookup fails and `closest_preceding_finger` finds nothing. |
| Chord.StubsAsWritten | chord_dht/chord_subsystem.py:44-69 | With remote stubs that answer nothing, `find_successor` always fails. `find_predecessor` succeeds only when the local successor already brackets the target. |
| Chord.IdNotReducedModRing | chord_dht/chord_subsystem.py:26-28 | With m = 8 and a hash giving 2^160 - 1, the fresh node's id is at least 2^m: ids are never reduced modulo the ring size. |
| ChordDispatch.OpcodesDistinct | chord_dht/chord_subsystem.py:10-16 | The seven opcodes are pairwise distinct. |
| ChordDispatch.Encode | chord_dht/chord_subsystem.py:40-42 | Encoding fails with a port overflow exactly when port is outside 0..255. On success it returns the ip's UTF-8 bytes and the single byte `[port]`. |
| ChordDispatch.EncodeDecodes | chord_dht/chord_subsystem.py:40-42 | The receiver can read an encoded reference back: an ASCII ip decodes from the first frame and the port from the second. |
| ChordDispatch.EncodeInjective | chord_dht/chord_subsystem.py:40-42 | Two references with ASCII ips and the same encoding have the same ip and port. |
| ChordDispatch.Respond | chord_dht/chord_subsystem.py:163-207 | A missing frame, a wrong subsystem tag and an unknown opcode each fail. PING answers `[b""]`. GET_S and GET_P encode the successor, or the predecessor falling back to the node itself. NOTIFY always fails. FIND_S, FIND_P and CLOSEST_PF without an argument fail. With one, FIND_S and FIND_P answer the encoding of what the lookup finds, or the lookup's own error; CLOSEST_PF encodes the finger found, or fails when there is none. |
| ChordDispatch.HandleNotify | chord_dht/chord_subsystem.py:192-199 | The NOTIFY branch in source order: it fails the arity assertion unless the body has two parts, and with two parts it fails reading the third, so it never reaches `notify` and the node is unchanged. |
| ChordDispatch.Dispatch | chord_dht/chord_subsystem.py:159-219 | The step's response is the computed response or caught exception. Every request other than NOTIFY leaves the node as it was. |
| ChordDispatch.DispatchKeepsState | chord_dht/chord_subsystem.py:176-205 | No request changes the node's state: NOTIFY, the only branch that would, raises before `notify`. |
| ChordDispatch.DefaultPortCannotAnswer | chord_dht/chord_subsystem.py:177-191 | A fresh node on the default port 8001 cannot answer GET_S or GET_P, because its port does not fit in one byte. |
| ChordDispatch.FreshNodeHasNoClosestFinger | chord_dht/chord_subsystem.py:202-205 | A fresh node's CLOSEST_PF reply always fails. |
| ServiceAnnouncement.Validate | service_discovery/service_announcement.py:8-20 | An announcement is accepted exactly when the name has at most 50 characters, the ip parses as an address and 0 < port < 65536. The accepted value carries the parsed address's canonical text and is otherwise unchanged. |
| ServiceAnnouncement.ValidateIdempotent | service_discovery/service_announcement.py:8-20 | Validating an accepted announcement again gives the same result, when canonical address text parses back to itself. |
| ServiceAnnouncement.ToJson | service_discovery/service_announcement.py:23-25 | The compact pydantic layout `{"service":…,"ip":…,"port":…}`: it starts with the service key, and `Parse` reads it back to the same announcement for every positive port; `from_json` inverts it (JsonRoundTrip). |
| ServiceAnnouncement.Parse | service_discovery/service_announcement.py:28-30 | The parsing step of `from_json`: whatever it reads starts with the service key and has a port without sign; it inverts ToJson. |
| ServiceAnnouncement.FromJson | service_discovery/service_announcement.py:27-30 | Text that does not parse is rejected as invalid JSON. Parsed text is then validated field by field, so every result is a valid announcement with its address in canonical text. |
| ServiceAnnouncement.EscapeRoundTrip | service_discovery/service_announcement.py:23-30 | A JSON-escaped string followed by a closing quote parses back to the original string and the remaining text. |
| ServiceAnnouncement.JsonRoundTrip | service_discovery/service_announcement.py:23-30 | `from_json(to_json(a)) == a` for every valid announcement whose ip is already canonical text. |
| ServiceAnnouncement.AcceptedRoundTrip | service_discovery/service_announcement.py:8-30 | Whatever validation accepts comes back from its JSON text unchanged, when canonical address text parses back to itself. |
| DnsRegistry.PeerEqualityIsUuidEquality | service_discovery/dns_registry.py:27-30 | Peers are equal exactly when their uuids are, and a peer never equals a non-peer. The relation is symmetric and transitive and ignores service and expiry. |
| DnsRegistry.PeerEquals | service_discovery/dns_registry.py:27-30 | `__eq__`: only a peer can be equal, and a peer is equal exactly when its uuid is (partner PeerEqualityIsUuidEquality). |
| DnsRegistry.IsExpired | service_discovery/dns_registry.py:32-35 | A peer is expired exactly when the time is strictly after its expiry (partner ExpiryAfterUpdate). |
| DnsRegistry.NewPeer | service_discovery/dns_registry.py:10-25 | A peer takes the given uuid, or else the class-wide default. Its expiry is the creation time. |
| DnsRegistry.DefaultUuidShared | service_discovery/dns_registry.py:13 | Any two peers created without a uuid compare equal. |
| DnsRegistry.UpdateExpirationTime | service_discovery/dns_registry.py:37-39 | Only the expiry changes, and it becomes the given time. |
| DnsRegistry.ExpiryAfterUpdate | service_discovery/dns_registry.py:32-39 | After an update to t, a peer is expired exactly when now > t. |
| DnsRegistry.NewRegistry | service_discovery/dns_registry.py:57-70 | A registry is accepted exactly when 0 < max < 50. It starts with every service list empty. |
| DnsRegistry.DefaultRegistryValid | service_discovery/dns_registry.py:65-70 | The default bound 10 is accepted. |
| DnsRegistry.Replace | service_discovery/dns_registry.py:79-90 | Storing one service's list changes that service only. |
| DnsRegistry.AddPeer | service_discovery/dns_registry.py:79-90 | The peer is appended to its service's list, which is created when missing. When the list then exceeds the bound, its oldest entry is dropped. Other services are unchanged. |
| DnsRegistry.AddPeerKeepsValid | service_discovery/dns_registry.py:79-90 | Adding keeps every list within the bound and the keys distinct. |
| DnsRegistry.AddPeerAppends | service_discovery/dns_registry.py:79-90 | After an add, the peer is the last entry, with no deduplication. The length grows by one, or stays at the bound when the list was full. |
| DnsRegistry.FirstMatch | service_discovery/dns_registry.py:96-101 | This is the index of the first uuid-equal entry, and there is none exactly when no entry is uuid-equal. |
| DnsRegistry.RemoveFirst | service_discovery/dns_registry.py:96-101 | The first uuid-equal entry is removed, which shortens the list by one. It fails exactly when there is no such entry. |
| DnsRegistry.RemovePeer | service_discovery/dns_registry.py:92-103 | Removal fails for an unknown service or an absent peer, and succeeds whenever the service is known and holds a uuid-equal entry. A success removes the first such entry, keeps the key even when its list becomes empty, and leaves other services unchanged. |
| DnsRegistry.AddThenRemove | service_discovery/dns_registry.py:79-103 | A peer just added can always be removed. When its list had room and no uuid-equal entry, removing it gives the list back as it was. |
| DnsRegistry.RemovePeerKeepsValid | service_discovery/dns_registry.py:92-103 | A successful removal keeps the registry valid. |
| DnsRegistry.GetPeers | service_discovery/dns_registry.py:105-115 | The result is the last max_amount entries, as the slice `[-max_amount:]` gives them: all of them for 0 or too large a count. A negative count drops that many from the front. An unknown service gives the empty list. |
| DnsRegistry.GetAllPeers | service_discovery/dns_registry.py:117-125 | The result is the services' peer lists back to back, in registry order: list k sits, unchanged, right after the peers of the lists before it. Its length is the sum of the list lengths, and it holds exactly the peers of some service's list. |
| DnsRegistry.FlattenLength | service_discovery/dns_registry.py:117-125 | The length of a concatenation is the sum of the lengths. |
| DnsRegistry.FlattenMembers | service_discovery/dns_registry.py:117-125 | An element of a concatenation is exactly an element of one of the parts. |
| DiscoveryAgent.OnPing | service_discovery/discovery_agent.py:148-178 | An unknown uuid is inserted with expiry now + window and announced once as JOINED. A known uuid only has its stored peer's expiry refreshed, and nothing is sent. A failed parse changes nothing. Other uuids are never touched. |
| DiscoveryAgent.CheckPings | service_discovery/discovery_agent.py:122-146 | Only a pydantic validation error is absorbed. Any other error escapes, and every other datagram is handled as a ping. |
| DiscoveryAgent.OnPingKeepsTableOk | service_discovery/discovery_agent.py:162-173 | After any ping, the table still holds each peer under its own uuid, once. |
| DiscoveryAgent.SameUuidPingsCollapse | service_discovery/discovery_agent.py:162-173 | Any run of pings carrying one uuid leaves at most one entry, filed under that uuid. |
| DiscoveryAgent.Alive | service_discovery/discovery_agent.py:190-197 | The peers kept are exactly the unexpired entries. |
| DiscoveryAgent.Departures | service_discovery/discovery_agent.py:190-197 | There is a LEFT message for each expired entry and no other message; their number is the table size minus the number of live entries. |
| DiscoveryAgent.RemoveDeadPeers | service_discovery/discovery_agent.py:187-197 | On a well-formed table, the sweep keeps exactly the unexpired peers in order and reports exactly the expired ones. |
| DiscoveryAgent.SweepFiltersWellFormed | service_discovery/discovery_agent.py:187-197 | The sweep over a snapshot of the table equals the filter. |
| DiscoveryAgent.SweepMatchesFilter | service_discovery/discovery_agent.py:190-197 | Deleting while iterating over the snapshot of values keeps every untouched prefix entry and filters the rest. |
| DiscoveryAgent.RemoveDeadPeersKeepsTableOk | service_discovery/discovery_agent.py:187-197 | After a sweep, the table is still well formed and holds no expired peer. |
| DiscoveryAgent.CreatePeers | service_discovery/discovery_agent.py:64-69 | There is one peer per announcement, in order, each with the shared default uuid and the creation time as expiry. |
| DiscoveryAgent.SendPingInfo | service_discovery/discovery_agent.py:180-185 | Each own peer's JSON is sent exactly once per call, in list order. |
| DiscoveryAgent.OwnAnnouncementsCollapse | service_discovery/discovery_agent.py:27-69 | Because every created peer shares the default uuid, a node's own announcements occupy at most one table entry. |
| FileHelper.NewMetadata | client_cli/utils/file_helper.py:19-27 | Metadata is accepted exactly when 0 <= size < 1024^6. |
| FileHelper.Read | client_cli/utils/file_helper.py:85-94 | A read length below -1 fails, and only it. Reading n >= 0 bytes at pos gives the slice file[pos..min(size, pos+n)]; n == -1 gives the rest of the file; a read at or past the end gives nothing. |
| FileHelper.GetChunk | client_cli/utils/file_helper.py:60-94 | The call fails exactly when offset > size, on a negative seek, or on a chunk size below -1. Otherwise it gives file[offset..min(size, offset+chunk_size)], the rest of the file for a chunk size of -1, and nothing at offset == size. |
| FileHelper.IsRunIndex | client_cli/utils/file_helper.py:128-135 | In a run of chunks, chunk i starts at offset + i*chunk_size and is the slice of at most chunk_size bytes there. |
| FileHelper.IsRunConcat | client_cli/utils/file_helper.py:128-135 | A run of chunks concatenates to the contiguous slice of the file it covers. |
| FileHelper.GetChunks | client_cli/utils/file_helper.py:96-136 | The call fails exactly when offset > size, on a negative seek, or when n_chunks*chunk_size is below -1; it succeeds in every other case. On success: there are at most n_chunks chunks; chunk i is the slice at offset + i*chunk_size; the count stops only past the end, which leaves a trailing empty chunk at an exact boundary; the chunks concatenate to file[offset..min(size, offset + n_chunks*chunk_size)]. |
| FileHelper.LoopExitConcat | client_cli/utils/file_helper.py:130-135 | When the loop exits, the chunks read concatenate to the covered slice. |
| FileHelper.RunChunkSizes | client_cli/utils/file_helper.py:130-135 | Every chunk of a run holds at most chunk_size bytes. |
| FileHelper.ChunkCount | client_cli/utils/file_helper.py:132-135 | With a positive chunk size, the loop reads min(n_chunks, (size - offset) / chunk_size + 1) chunks. |
| FileHelper.CeilDiv | client_cli/utils/file_helper.py:165 | The ceiling of a/b satisfies (q-1)*b < a <= q*b for b > 0, and the mirrored bounds for b < 0. |
| FileHelper.GetIndexChunk | client_cli/utils/file_helper.py:138-172 | A chunk size of 0 fails. Otherwise the call fails as out of range exactly when index >= ceil(size/chunk_size), so an empty file always fails, and with a positive chunk size a negative index fails its seek. A success is file[chunk_size*index..] cut to chunk_size bytes. A chunk size below -1 fails its read, and -1 reads nothing. |
| FileHelper.OnlyLastChunkShort | client_cli/utils/file_helper.py:159-172 | Every chunk before the last has exactly chunk_size bytes. |
| FileHelper.IndexChunkIsOffsetChunk | client_cli/utils/file_helper.py:159-172 | Chunk index i is the chunk `get_chunk` reads at offset chunk_size*i. |
| CliApp.TagErrors | client_cli/cli_app.py:43-53 | Each error names an input tag longer than 20 characters, and every such tag gets an error. |
| CliApp.ValidateTags | client_cli/cli_app.py:43-53 | `validate_tags` holds exactly when every tag has at most 20 characters (proved by ValidateTagsIff). |
| CliApp.ValidateTagsIff | client_cli/cli_app.py:43-53 | No error is collected exactly when every tag has at most 20 characters, and the empty list collects none. |
| CliApp.TagErrorsAppend | client_cli/cli_app.py:45-49 | There is one error per over-long tag, in input order: the errors of a concatenation are the concatenated errors. |
| CliApp.PathError | client_cli/cli_app.py:30-36 | A missing path gets one "does not exist" error and no file check. An existing non-file gets one "not a file" error. A file gets none. |
| CliApp.FileErrors | client_cli/cli_app.py:28-40 | Every missing path and every existing non-file is reported, and nothing else is. A missing path never also gets a "not a file" error. |
| CliApp.ValidateFiles | client_cli/cli_app.py:37-40 | `validate_files` holds exactly when every path exists and is a file (proved by ValidateFilesIff). |
| CliApp.ValidateFilesIff | client_cli/cli_app.py:37-40 | No error is collected exactly when every path exists and is a file. |
| CliApp.FileErrorsAppend | client_cli/cli_app.py:30-36 | Errors come one group per path, in input order. |
| CliApp.RunChecks | client_cli/cli_app.py:74-172 | A command proceeds exactly when every check passes. Otherwise it stops at the first failing check, with that check's errors. |
| CliApp.RunTwo | client_cli/cli_app.py:74-94 | With two checks, the second runs only when the first passes. |
| CliApp.FilesBeforeTags | client_cli/cli_app.py:74-94 | `add` and `add-file` validate the files first and stop there on failure. Only then are the tags validated. |
| CliApp.QueryBeforeList | client_cli/cli_app.py:129-172 | `delete-tags` and `add-tags` validate the query before the list, and either list can block the command. |
| CliApp.SingleQueryCommands | client_cli/cli_app.py:108-149 | `delete` and `list` proceed exactly when the query's tags are valid. |
| PathGrammar.SegmentsIffShape | podman_utils/v2/validation/my_validators.py:11 | The segment grammar accepts exactly the strings that are one or more `/` + a non-empty run without `/` or `\`. |
| PathGrammar.PathIffShape | podman_utils/v2/validation/my_validators.py:11 | A path is exactly an optional `.` or `~` followed by one or more such segments. |
| PathGrammar.MatchBinding | podman_utils/v2/validation/my_validators.py:9-15 | There is no match exactly when no `:` splits the input into two paths. A match gives a host and a container that are both paths and that rejoin with `:` to the input, and no later `:` is a valid split: group 1 is greedy and takes the longest host. |
| PathGrammar.MatchBindingComplete | podman_utils/v2/validation/my_validators.py:9-15 | Whenever the input splits at some colon into two paths, the match succeeds. |
| PathGrammar.MatchBindingExact | podman_utils/v2/validation/my_validators.py:9-15 | When host and container are paths and the container has no `:`, the match of host + ":" + container is exactly that pair. |
| PathGrammar.LongestHostWins | podman_utils/v2/validation/my_validators.py:11-13 | One instance of the greedy group 1: `/a:/b:/c` binds host `/a:/b` to container `/c`, not `/a` to `/b:/c`. |
| PathGrammar.OneColonBinding | podman_utils/v2/validation/my_validators.py:9-15 | With a single colon, the match is that split when both halves are paths, and nothing otherwise. |
| PathGrammar.WordsBinding | podman_utils/v2/validation/my_validators.py:9-15 | A host of `.` or `~` followed by `/`-prefixed segments and a container of `/`-prefixed segments, none holding `:`, match as exactly that host and container. |
| Substitution.IsNameIffRegexName | podman_utils/v2/validation/my_validators.py:49 | The name grammar accepts exactly the texts of `[a-zA-Z_-]+\w*`: a non-empty run of letters, `_` and `-`, then letters, digits and `_`. |
| Substitution.DashAfterDigitNoName | podman_utils/v2/validation/my_validators.py:49 | `a1-b` is no name, since `-` cannot follow a digit, while `a-1b` is one. |
| Substitution.Tokenize | podman_utils/v2/validation/my_validators.py:44-52 | Every variable token found is a name of `[a-zA-Z_-]+\w*`. |
| Substitution.RenderTokenize | podman_utils/v2/validation/my_validators.py:44-52 | Scanning loses and invents nothing: rendering the tokens back gives the input. |
| Substitution.MatchAtComplete | podman_utils/v2/validation/my_validators.py:44-52 | Every complete reference `<sigil>{NAME}` at a position is matched there, with exactly that name. |
| Substitution.Expand | podman_utils/v2/validation/my_validators.py:44-64 | Expansion fails exactly when some variable has no value, and it then names the first such variable. |
| Substitution.Substitute | podman_utils/v2/validation/my_validators.py:44-64 | A failure names a well-formed variable without a value. A rule defined on every name always succeeds. |
| Substitution.NoOpenerFixed | podman_utils/v2/validation/my_validators.py:44-52 | A string without `<sigil>{` comes back unchanged. |
| Substitution.SubstituteLiteralPrefix | podman_utils/v2/validation/my_validators.py:44-52 | Text free of the sigil passes through verbatim ahead of the substituted rest. |
| Substitution.SubstituteReferencePrefix | podman_utils/v2/validation/my_validators.py:44-52 | A leading reference is replaced by its value, and substitution continues after it. Replacement text is not rescanned. An unknown variable aborts with its name. |
| Substitution.UnclosedReferenceKept | podman_utils/v2/validation/my_validators.py:44-52 | A reference with no closing brace is left as it is. |
| Substitution.SubstituteUnmatched | podman_utils/v2/validation/my_validators.py:44-52 | Where no reference starts, the first character is copied and substitution goes on after it. |
| Substitution.NotANameKept | podman_utils/v2/validation/my_validators.py:44-52 | A closed `<sigil>{…}` around name characters outside the grammar, such as `@{a1-b}`, is no reference and is kept as it is, whatever the rule. |
| Substitution.SubstituteOneReference | podman_utils/v2/validation/my_validators.py:44-52 | One reference between sigil-free text and text without `<sigil>{` is replaced by its value, and the rest is kept. |
| Substitution.SubstituteIdentity | podman_utils/v2/validation/my_validators.py:44-52 | The rule that maps each name back to its own reference is the identity. |
| Validators.VariableRule | podman_utils/v2/validation/my_validators.py:18-21 | `name` maps to `container_1`, and every other name has no value. |
| Validators.EnvironmentRule | podman_utils/v2/validation/my_validators.py:24-27 | A variable has a value exactly when it is set to a non-empty string. |
| Validators.ExpandVariables | podman_utils/v2/validation/my_validators.py:44-52 | Expansion succeeds exactly when the rule knows every `@{…}` reference of the text. A failure is an unknown, well-formed variable. A rule defined everywhere always succeeds. |
| Validators.ExpandEnvironment | podman_utils/v2/validation/my_validators.py:55-64 | Expansion succeeds exactly when every `${…}` reference of the text names a variable that is set and not empty. A failure names a variable that is unset or empty. |
| Validators.Substitute | podman_utils/v2/validation/my_validators.py:30-41 | `@{…}` expands first, and only its output is then expanded for `${…}`. The first error stops everything. |
| Validators.ExpandVariablesFixed | podman_utils/v2/validation/my_validators.py:44-52 | Text without `@{` is a fixed point. |
| Validators.ExpandEnvironmentFixed | podman_utils/v2/validation/my_validators.py:55-64 | Text without `${` is a fixed point. |
| Validators.VariablesBeforeEnvironment | podman_utils/v2/validation/my_validators.py:30-41 | An `@{x}` whose value is `${v}` ends as the environment value of `v`, or fails naming `v` when it is unset or empty: the variable pass runs first and the environment pass expands its output. |
| Validators.EnvironmentNotRescanned | podman_utils/v2/validation/my_validators.py:30-41 | A set, non-empty `${v}` ends as `v`'s value verbatim, whatever `@{…}` that value holds: the environment pass runs last and its output is not scanned again. |
| Validators.ValidateBinding | podman_utils/v2/validation/my_validators.py:67-78 | A non-string is rejected, and an environment failure is passed on. On success, host + ":" + container is the environment-expanded input and both are paths. It fails exactly when no such split exists. |
| Validators.ValidateBindingKeepsVariables | podman_utils/v2/validation/my_validators.py:74-78 | Without `${`, validation is exactly the grammar match of the raw text, so any `@{…}` stays in the returned paths. |
| Validators.PathsReturnedVerbatim | podman_utils/v2/validation/my_validators.py:67-78 | Two paths without `$`, joined at a colon that is the container's only one, are returned unchanged. |
| Validators.GenerateName | podman_utils/v2/validation/my_validators.py:81-84 | The name is base + "-" + 32 lowercase hex digits. |
| Validators.GenerateNameRecoversId | podman_utils/v2/validation/my_validators.py:81-84 | The hex suffix decodes back to the id. |
| Validators.GenerateNameInjective | podman_utils/v2/validation/my_validators.py:81-84 | Two names from one base are equal exactly when the ids are. |
| Borrar.MatchPath | podman_utils/v2/borrar.py:7-9 | A string is accepted exactly when it is an optional `.` or `~` followed by one or more `/segment`. |
| Borrar.Substitute | podman_utils/v2/borrar.py:24-37 | Substitution fails only on an `@{…}` variable other than `name` or on a `${…}` environment variable that is unset or empty. |
| Borrar.SubstituteFixed | podman_utils/v2/borrar.py:24-37 | Text without `@{` or `${` is returned unchanged. |
| Borrar.NameReplaced | podman_utils/v2/borrar.py:12-15 | `@{name}` becomes `container_1`, and the text around it is kept. |
| Borrar.UnknownVariableFails | podman_utils/v2/borrar.py:12-15 | Any other variable makes substitution fail with its name. |
| Borrar.NameSubstituted | podman_utils/v2/borrar.py:24-37 | `@{name}` between texts holding neither `@` nor `$` comes out of both passes as `container_1`, the texts kept. |
| Borrar.NameThenEnvironment | podman_utils/v2/borrar.py:24-37 | `@{name}`, text, then `${v}`: the name becomes `container_1` and `v` its environment value; an unset or empty `v` fails naming `v`. |
| Borrar.EnvironmentSuffix | podman_utils/v2/borrar.py:18-21 | A trailing `${v}` after text without `$` takes `v`'s value from the environment, and fails naming `v` when it is unset or empty. |
| Borrar.UnclosedKept | podman_utils/v2/borrar.py:24-37 | An `@{NAME` never closed at the end of the text is no reference: both passes keep the text as it is. |
| Borrar.Line49Rejected | podman_utils/v2/borrar.py:49 | The line-49 binding has no colon and is rejected. |
| Borrar.Line50Rejected | podman_utils/v2/borrar.py:50 | The line-50 binding is rejected. |
| Borrar.Line50Kept | podman_utils/v2/borrar.py:50 | Its unclosed `@{name` survives substitution. |
| Borrar.Line51Rejected | podman_utils/v2/borrar.py:51 | The line-51 binding is rejected. |
| Borrar.Line52Accepted | podman_utils/v2/borrar.py:52 | The line-52 binding matches, with its two paths. |
| Borrar.Line52Substituted | podman_utils/v2/borrar.py:52 | After substitution, `@{name}` has become `container_1`. |
| Borrar.Line53Accepted | podman_utils/v2/borrar.py:53 | The line-53 binding matches. |
| Borrar.Line53Substituted | podman_utils/v2/borrar.py:53 | Substitution inserts `container_1` and the value of `USER`. It fails with `USER` named when that variable is unset or empty. |
| Borrar.Line54Rejected | podman_utils/v2/borrar.py:54 | A relative host path is rejected. |
| Borrar.Line55Rejected | podman_utils/v2/borrar.py:55 | A relative container path is rejected. |
| Borrar.Line56Accepted | podman_utils/v2/borrar.py:56 | A `~`-prefixed host path is accepted. |
| ServicesUtilities.ValidateAll | podman_utils/v2/services_utilities.py:24-36 | Either every entry validates, with the i-th result from the i-th entry, or the result is the first failing entry with its index. |
| ServicesUtilities.NewTemplate | podman_utils/v2/services_utilities.py:24-36 | A base name outside 1 to 10 characters fails with its length, and only such a name gives that error. Networks, ports and volumes default to empty lists. With a valid base name the template is accepted exactly when every volume validates; each binding is its entry's validated form, and a failure reports an invalid entry with all entries before it valid. |
| ServicesUtilities.NewTemplateFirstInvalid | podman_utils/v2/services_utilities.py:24-36 | With a valid base name, the error is exactly the first invalid volume entry, with its index and its own validation error, whatever follows it. |
| ServicesUtilities.VolumeRule | podman_utils/v2/services_utilities.py:120-132 | The callback of `expand_volume` never fails: `name` gives the container's name and any other variable gives itself (partners PlainPathKept and ReferenceExpanded). |
| ServicesUtilities.ExpandVolume | podman_utils/v2/services_utilities.py:112-134 | There is one binding out per binding in, in order, each path expanded with the volume rule. |
| ServicesUtilities.PlainPathKept | podman_utils/v2/services_utilities.py:112-134 | A path without `@{` is kept. |
| ServicesUtilities.ReferenceExpanded | podman_utils/v2/services_utilities.py:120-132 | `@{name}` becomes the container name, any other `@{v}` becomes `v`, and the surrounding text is kept. |
| ServicesUtilities.FromTemplate | podman_utils/v2/services_utilities.py:98-110 | The name is base + "-" + the id's 32 hex digits. Image, networks and ports are copied. There is one bind mount per volume, with expanded source and target. |
| ServicesUtilities.MountNamesInstance | podman_utils/v2/services_utilities.py:98-134 | A volume whose host path is text `a`, one `@{name}`, then text `b` (with no other `@` reference) mounts from `a`, the instance's own name, then `b`; that name starts with the base name and `-`. |
| PodmanActions.GetMounts | podman_utils/v2/podman_actions.py:19-35 | There is one mount per dict entry, in order. Each is a bind mount, read-write with relabel `Z`, with source the value (host path) and target the key (container path). |
| PodmanActions.TransformBindings | podman_utils/v2/podman_actions.py:38-53 | There is one mount per `(host, container)` tuple, in order, with source the host and target the container and the same fixed fields. |
| PodmanActions.GetMountsIsSwappedTransform | podman_utils/v2/podman_actions.py:19-53 | `get_mounts` of a dict is `transform_bindings` of its entries with each pair swapped. |
| PodmanActions.GetMountsAppend | podman_utils/v1/podman_actions.py:83-99 | A mount list is built entry by entry: the mounts of a concatenation are the concatenated mounts. The v1 function is the same as the v2 one. |
| Encoding.ToBytesDefault | chord_dht/chord_subsystem.py:40-42 | `to_bytes()` with the defaults succeeds exactly for 0..255, gives one byte, and `from_bytes` reads that byte back as the value (partner ToBytesRoundTrip). |
| Encoding.ToBytesRoundTrip | chord_dht/chord_subsystem.py:40-42 | `int.from_bytes` of `to_bytes()` gives back every value it accepts. |
| Encoding.HexFixedRoundTrip | podman_utils/v2/validation/my_validators.py:81-84 | Fixed-width hex text decodes back to its value. |

## Left out

- ZeroMQ sockets, `recv_multipart` and the `while True` server loop (chord_dht/chord_subsystem.py:159-219): one dispatch step is modelled. The unsent response is returned as a value, and a caught exception is a failure that leaves the state unchanged.
- SHA-1 itself: the hash is a function parameter whose results lie below 2^160.
- The `ChordNodeReference` RPC stubs and the empty `join`, `stabilize` and `fix_fingers`: there is no behaviour beyond the stubs' `None`. A remote node's answers come from a ring snapshot. A node missing from the snapshot answers as the stubs do, and the lookup fails.
- Chord.NewNode: the field `m` and the finger list length are kept apart, as in the source; nothing reduces ids modulo 2^m.
- DiscoveryAgent.RemoveDeadPeers: the sweep reads one clock value for the whole loop, while `is_expired` reads the clock again for each peer, so a peer that expires during the sweep is not modelled.
- ChordDispatch.HandleNotify: the address of the reference NOTIFY would build is the body's bytes read one character per byte; the branch cannot reach that point, so the choice has no effect.
- asyncio, the `Scheduler`, UDP multicast and `service_discovery/udp_multicast.py`: pings arrive as parameters, and pipe sends are a message list.
- An exception raised by the pipe send after the table was updated: the update is modelled, and the failing send is not.
- pydantic's JSON machinery: `to_json` / `from_json` are modelled for the compact layout pydantic emits, with JSON string escapes. Other layouts of the same object are rejected as invalid JSON.
- The `Peer` JSON encoder is a function parameter. IP address parsing (`IPvAnyAddress`) is a parameter too: it answers the canonical text of the parsed address, or nothing.
- ServiceAnnouncement.JsonRoundTrip and ServiceAnnouncement.AcceptedRoundTrip: they assume that canonical address text parses back to itself, which `ipaddress` guarantees but the parameter does not.
- The shared mutable defaults (the class-level `peers` dict and `default={}`): each table and registry is a value of its own.
- Python's `uuid4` randomness: a uuid is a number below 16^32. Its version bits are not modelled.
- Time: an integer count of microseconds. `timedelta(seconds=3)` is 3,000,000.
- File I/O in `client_cli/utils/file_helper.py` (`stat`, `open`, `seek`, timestamps), `get_file_size`, `get_metadata`, `get_formatted_size` and `get_size`: the file is a byte sequence.
- FileHelper.GetIndexChunk: `math.ceil` of a float division is taken as the exact ceiling, so rounding for sizes above 2^53 is not modelled.
- CLI plumbing and rich printing in `client_cli/cli_app.py`: `os.path.exists` and `os.path.isfile` are two sets. A command is modelled up to its decision to proceed or stop.
- The Python `re` engine: the path grammar and the name pattern are encoded directly, and `\w` is taken as ASCII letters, digits and `_` only (Python's `str` patterns also accept non-ASCII letters and digits there).
- `borrar.py`'s module-level print loop and `match_binding`'s print: the example bindings are stated as lemmas.
- `os.getenv`: a map from variable names to values.
- `pathlib` normalisation (`Path("./a")` becoming `a`, and `str(Path(…))` in `expand_volume`): paths are plain strings.
- YAML loading in `Deployment.deployment_from_yaml`, `podman_utils/v2/podman_compose.py`, `podman_utils/v1/podman_service.py`, and every Podman client call: these are orchestration without logic of their own.
- The `mkdir` in `transform_bindings`: a file-system side effect.
- ServicesUtilities.NewTemplate: pydantic collects every invalid field, and the model reports the first failure only.
- Python `assert` under `-O`: the model keeps the asserts.
- Mutation: every operation is a pure function. The default mount template is copied per entry, and nothing is shared.

=== FILE: announcement.dfy ===
/** `ServiceAnnouncement`: a named service at an ip and port, its field
    constraints, and its JSON text in the compact layout pydantic writes:
    `{"service":"<name>","ip":"<address>","port":<port>}`. */
module ServiceAnnouncement {
  import opened Wrappers
  import opened Encoding

  const MaxServiceLength: int := 50

  datatype Announcement = Announcement(service: string, ip: string, port: int)

  /** Why pydantic rejects an announcement. */
  datatype ValidationError = InvalidJson | ServiceTooLong | InvalidIp | PortOutOfRange

  /** The field constraints: at most 50 characters of name, an address that
      `parseIp` reads (IPvAnyAddress), and a port strictly between 0 and 65536.
      `parseIp` answers the address in its canonical text, or `None` for text
      that is no IPv4 or IPv6 address. */
  predicate Valid(a: Announcement, parseIp: string -> Option<string>) {
    |a.service| <= MaxServiceLength && parseIp(a.ip).Some? && 0 < a.port < 65536
  }

  /** Model validation: the first violated constraint, or the announcement
      with its address replaced by the canonical text of the parsed address. */
  function Validate(a: Announcement, parseIp: string -> Option<string>): (r: Result<Announcement, ValidationError>)
    ensures r.Success? <==> Valid(a, parseIp)
    ensures r.Success? ==> r.value == a.(ip := parseIp(a.ip).value)
    ensures r.Failure? ==> r.error != InvalidJson
  {
    if |a.service| > MaxServiceLength then Failure(ServiceTooLong)
    else
      match parseIp(a.ip)
      case None => Failure(InvalidIp)
      case Some(canonical) =>
        if !(0 < a.port < 65536) then Failure(PortOutOfRange)
        else Success(a.(ip := canonical))
  }

  /** An address in canonical text parses to itself. */
  predicate CanonicalAt(parseIp: string -> Option<string>, ip: string) {
    parseIp(ip).Some? ==> parseIp(parseIp(ip).value) == parseIp(ip)
  }

  /** Validating an accepted announcement again changes nothing, provided the
      canonical text of its address is read back as itself. */
  lemma ValidateIdempotent(a: Announcement, parseIp: string -> Option<string>)
    requires Validate(a, parseIp).Success? && CanonicalAt(parseIp, a.ip)
    ensures Validate(Validate(a, parseIp).value, parseIp) == Validate(a, parseIp)
  {
  }

  // --------------------------------------------------------- JSON string text

  /** A JSON string character as the serializer writes it: quote, backslash and
      the five control characters with short forms escaped by name, every other
      control character as `\u00XX`, anything else verbatim. */
  function EscapeChar(c: char): string {
    if c == '"' then "\\\""
    else if c == '\\' then "\\\\"
    else if c == '\U{8}' then "\\b"
    else if c == '\U{C}' then "\\f"
    else if c == '\n' then "\\n"
    else if c == '\r' then "\\r"
    else if c == '\t' then "\\t"
    else if (c as int) < 0x20 then "\\u00" + [HexDigit(c as int / 16), HexDigit(c as int % 16)]
    else [c]
  }

  function Escape(s: string): string {
    if s == [] then "" else EscapeChar(s[0]) + Escape(s[1..])
  }

  /** The character a two-character escape `\x` stands for. */
  function ShortEscape(x: char): Option<char> {
    if x == '"' then Some('"')
    else if x == '\\' then Some('\\')
    else if x == '/' then Some('/')
    else if x == 'b' then Some('\U{8}')
    else if x == 'f' then Some('\U{C}')
    else if x == 'n' then Some('\n')
    else if x == 'r' then Some('\r')
    else if x == 't' then Some('\t')
    else None
  }

  /** Reads JSON string contents up to the closing quote; answers the decoded
      text and what follows the quote. Surrogate escapes are not accepted. */
  function ParseString(s: string): (r: Option<(string, string)>)
    ensures r.Some? ==> |r.value.1| < |s|
    decreases |s|
  {
    if s == [] then None
    else if s[0] == '"' then Some(([], s[1..]))
    else if s[0] == '\\' then
      if |s| < 2 then None
      else if s[1] == 'u' then
        if |s| < 6 || !(IsHex(s[2]) && IsHex(s[3]) && IsHex(s[4]) && IsHex(s[5])) then None
        else
          var v := 4096 * HexValue(s[2]) + 256 * HexValue(s[3]) + 16 * HexValue(s[4]) + HexValue(s[5]);
          if 0xD800 <= v < 0xE000 then None
          else Prepend(v as char, ParseString(s[6..]))
      else
        match ShortEscape(s[1])
        case None => None
        case Some(c) => Prepend(c, ParseString(s[2..]))
    else if (s[0] as int) < 0x20 then None
    else Prepend(s[0], ParseString(s[1..]))
  }

  function Prepend(c: char, r: Option<(string, string)>): Option<(string, string)> {
    match r
    case None => None
    case Some((t, rest)) => Some(([c] + t, rest))
  }

  lemma EscapeCharStep(c: char, tail: string)
    ensures ParseString(EscapeChar(c) + tail) == Prepend(c, ParseString(tail))
  {
    if c == '"' || c == '\\' || c == '\U{8}' || c == '\U{C}' || c == '\n' || c == '\r' || c == '\t' {
      ShortEscapeStep(c, tail);
    } else if (c as int) < 0x20 {
      ControlEscapeStep(c, tail);
    } else {
      var s := EscapeChar(c) + tail;
      assert s[1..] == tail;
    }
  }

  /** A character escaped by name is read back. */
  lemma ShortEscapeStep(c: char, tail: string)
    requires c == '"' || c == '\\' || c == '\U{8}' || c == '\U{C}' || c == '\n' || c == '\r' || c == '\t'
    ensures ParseString(EscapeChar(c) + tail) == Prepend(c, ParseString(tail))
  {
    var s := EscapeChar(c) + tail;
    assert |EscapeChar(c)| == 2 && EscapeChar(c)[0] == '\\';
    assert s[2..] == tail;
  }

  /** A control character written as `\u00XX` is read back. */
  lemma ControlEscapeStep(c: char, tail: string)
    requires (c as int) < 0x20 && c != '\U{8}' && c != '\U{C}' && c != '\n' && c != '\r' && c != '\t'
    ensures ParseString(EscapeChar(c) + tail) == Prepend(c, ParseString(tail))
  {
    var s := EscapeChar(c) + tail;
    HexDigitValue(c as int / 16);
    HexDigitValue(c as int % 16);
    assert s[6..] == tail;
  }

  /** The serializer's escaping is undone by the parser, which stops exactly at
      the closing quote. */
  lemma {:induction false} EscapeRoundTrip(x: string, rest: string)
    ensures ParseString(Escape(x) + ("\"" + rest)) == Some((x, rest))
  {
    if x == [] {
      assert Escape(x) + ("\"" + rest) == "\"" + rest;
    } else {
      var tail := Escape(x[1..]) + ("\"" + rest);
      assert Escape(x) + ("\"" + rest) == EscapeChar(x[0]) + tail;
      EscapeCharStep(x[0], tail);
      EscapeRoundTrip(x[1..], rest);
      assert [x[0]] + x[1..] == x;
    }
  }

  // ------------------------------------------------------ the announcement text

  const ServiceKey: string := "{\"service\":\""
  const IpKey: string := ",\"ip\":\""
  const PortKey: string := ",\"port\":"

  function PortText(port: int): string {
    PortKey + (IntToDecimal(port) + "}")
  }

  function IpText(ip: string, port: int): string {
    IpKey + (Escape(ip) + ("\"" + PortText(port)))
  }

  /** `to_json`: the compact layout, which `Parse` reads back for every
      positive port. */
  function ToJson(a: Announcement): (r: string)
    ensures ServiceKey <= r
    ensures a.port > 0 ==> Parse(r) == Some(a)
  {
    var tail := IpText(a.ip, a.port);
    PrefixSplit(ServiceKey, Escape(a.service) + ("\"" + tail));
    EscapeRoundTrip(a.service, tail);
    if a.port > 0 then
      AfterServiceRoundTrip(a.service, a.ip, a.port);
      ServiceKey + (Escape(a.service) + ("\"" + tail))
    else
      ServiceKey + (Escape(a.service) + ("\"" + tail))
  }

  /** A JSON integer without sign: digits, and no leading zero. */
  function ParseNat(t: string): (r: Option<nat>)
    ensures r.Some? ==> AllDigits(t) && r.value == DecimalValue(t)
  {
    if t != [] && AllDigits(t) && (|t| == 1 || t[0] != '0') then Some(DecimalValue(t)) else None
  }

  /** Reads `,"port":<digits>}` to the end of the text. */
  function ParsePort(r2: string): Option<nat> {
    if PortKey <= r2 && |PortKey| < |r2| && r2[|r2| - 1] == '}' then ParseNat(r2[|PortKey|..|r2| - 1])
    else None
  }

  /** Reads `,"ip":"<address>"` and the port, the service name already read. */
  function ParseAfterService(service: string, r1: string): Option<Announcement> {
    if !(IpKey <= r1) then None
    else
      match ParseString(r1[|IpKey|..])
      case None => None
      case Some((ip, r2)) =>
        match ParsePort(r2)
        case None => None
        case Some(port) => Some(Announcement(service, ip, port))
  }

  /** Reads `text` as the layout `to_json` writes: the service key first,
      and a port without sign. */
  function Parse(text: string): (r: Option<Announcement>)
    ensures r.Some? ==> ServiceKey <= text
    ensures r.Some? ==> r.value.port >= 0
  {
    if !(ServiceKey <= text) then None
    else
      match ParseString(text[|ServiceKey|..])
      case None => None
      case Some((service, r1)) => ParseAfterService(service, r1)
  }

  /** `from_json`: parsing, then the field constraints. Whatever it accepts is valid. */
  function FromJson(text: string, parseIp: string -> Option<string>): (r: Result<Announcement, ValidationError>)
    ensures r.Success? ==> exists a :: Valid(a, parseIp) && r.value == a.(ip := parseIp(a.ip).value)
    ensures Parse(text).None? ==> r == Failure(InvalidJson)
    ensures Parse(text).Some? ==> r == Validate(Parse(text).value, parseIp)
  {
    match Parse(text)
    case None => Failure(InvalidJson)
    case Some(a) => Validate(a, parseIp)
  }

  lemma PrefixSplit(p: string, rest: string)
    ensures p <= p + rest && (p + rest)[|p|..] == rest
  {
    assert (p + rest)[..|p|] == p;
  }

  lemma PortRoundTrip(port: int)
    requires port > 0
    ensures ParsePort(PortText(port)) == Some(port)
  {
    var t := PortText(port);
    PrefixSplit(PortKey, IntToDecimal(port) + "}");
    assert t[|PortKey|..|t| - 1] == IntToDecimal(port);
    DecimalRoundTrip(port);
  }

  lemma AfterServiceRoundTrip(service: string, ip: string, port: int)
    requires port > 0
    ensures ParseAfterService(service, IpText(ip, port)) == Some(Announcement(service, ip, port))
  {
    PrefixSplit(IpKey, Escape(ip) + ("\"" + PortText(port)));
    EscapeRoundTrip(ip, PortText(port));
    PortRoundTrip(port);
  }

  /** Every valid announcement whose address is already in canonical text
      survives `from_json(to_json(a))`. */
  lemma JsonRoundTrip(a: Announcement, parseIp: string -> Option<string>)
    requires Valid(a, parseIp) && parseIp(a.ip) == Some(a.ip)
    ensures FromJson(ToJson(a), parseIp) == Success(a)
  {
    PrefixSplit(ServiceKey, Escape(a.service) + ("\"" + IpText(a.ip, a.port)));
    EscapeRoundTrip(a.service, IpText(a.ip, a.port));
    AfterServiceRoundTrip(a.service, a.ip, a.port);
  }

  /** What validation accepted comes back from its JSON text unchanged: the
      text carries the canonical address, which reads back as itself. */
  lemma AcceptedRoundTrip(a: Announcement, parseIp: string -> Option<string>)
    requires Validate(a, parseIp).Success? && CanonicalAt(parseIp, a.ip)
    ensures FromJson(ToJson(Validate(a, parseIp).value), parseIp) == Validate(a, parseIp)
  {
    JsonRoundTrip(Validate(a, parseIp).value, parseIp);
  }
}

=== FILE: borrar.dfy ===
/** The binding experiments of the container tooling: the path check, the
    substitution with the built-in variable rule, and the labelled example
    bindings with the verdicts the binding grammar gives them. Each example
    is stated for its host and container text, joined by `:`. */
module Borrar {
  import opened Wrappers
  import PathGrammar
  import Substitution
  import Validators

  /** `match_path`: the path grammar, here in its non-recursive shape. */
  function MatchPath(content: string): (r: bool)
    ensures r <==> (PathGrammar.SegmentsShape(content) ||
      (|content| >= 1 && (content[0] == '.' || content[0] == '~') && PathGrammar.SegmentsShape(content[1..])))
  {
    PathGrammar.PathIffShape(content);
    PathGrammar.IsPath(content)
  }

  /** `substitute`: `@{name}` first, with the built-in rule, then `${…}`. A
      failure is an unknown variable other than `name`, or a missing
      environment variable. */
  function Substitute(content: string, env: Validators.Environment): (r: Result<string, Validators.ValidatorError>)
    ensures r.Failure? ==> (
      || (r.error.UnknownVariable? && r.error.name != "name")
      || (r.error.MissingEnvironment? && (r.error.name !in env || env[r.error.name] == "")))
  {
    Validators.Substitute(content, Validators.VariableRule, env)
  }

  /** Text without `@{` and `${` comes back unchanged. */
  lemma SubstituteFixed(content: string, env: Validators.Environment)
    requires Substitution.NoOpener(content, '@') && Substitution.NoOpener(content, '$')
    ensures Substitute(content, env) == Success(content)
  {
    Validators.ExpandVariablesFixed(content, Validators.VariableRule);
    Validators.ExpandEnvironmentFixed(content, env);
  }

  /** `@{name}` becomes `container_1`, the text around it is kept. */
  lemma NameReplaced(a: string, b: string)
    requires '@' !in a && Substitution.NoOpener(b, '@')
    ensures Validators.ExpandVariables(a + "@{name}" + b, Validators.VariableRule) == Success(a + "container_1" + b)
  {
    var rule := Validators.VariableRule;
    assert Substitution.IsName("name");
    assert a + "@{name}" + b == a + (Substitution.Reference('@', "name") + b);
    Substitution.SubstituteLiteralPrefix(a, Substitution.Reference('@', "name") + b, '@', rule);
    Substitution.SubstituteReferencePrefix("name", b, '@', rule);
    Substitution.NoOpenerFixed(b, '@', rule);
    assert a + ("container_1" + b) == a + "container_1" + b;
  }

  /** Any other variable aborts the substitution. */
  lemma UnknownVariableFails(a: string, name: string, b: string, env: Validators.Environment)
    requires '@' !in a && Substitution.IsName(name) && name != "name"
    ensures Substitute(a + Substitution.Reference('@', name) + b, env) == Failure(Validators.UnknownVariable(name))
  {
    var rule := Validators.VariableRule;
    assert a + Substitution.Reference('@', name) + b == a + (Substitution.Reference('@', name) + b);
    Substitution.SubstituteLiteralPrefix(a, Substitution.Reference('@', name) + b, '@', rule);
    Substitution.SubstituteReferencePrefix(name, b, '@', rule);
  }

  /** `@{name}` between texts without sigils: the whole substitution gives `container_1`. */
  lemma NameSubstituted(a: string, b: string, env: Validators.Environment)
    requires '@' !in a && '$' !in a && '@' !in b && '$' !in b
    ensures Substitute(a + "@{name}" + b, env) == Success(a + "container_1" + b)
  {
    Substitution.WithoutSigil(b, '@');
    NameReplaced(a, b);
    assert '$' !in "container_1";
    Substitution.WithoutSigil(a + "container_1" + b, '$');
    Validators.ExpandEnvironmentFixed(a + "container_1" + b, env);
  }

  /** `@{name}`, then text, then a trailing `${v}`: the name is replaced and `v`
      is looked up, which fails when it is unset or empty. */
  lemma NameThenEnvironment(a: string, b: string, v: string, env: Validators.Environment)
    requires '@' !in a && '$' !in a && '@' !in b && '$' !in b && Substitution.IsName(v)
    ensures Substitute(a + "@{name}" + b + Substitution.Reference('$', v), env) ==
      if v in env && env[v] != "" then Success(a + "container_1" + b + env[v])
      else Failure(Validators.MissingEnvironment(v))
  {
    var t := b + Substitution.Reference('$', v);
    assert '@' !in Substitution.Reference('$', v) by {
      assert Substitution.Reference('$', v) == ['$', '{'] + v + "}";
      NameHasNoSigil(v);
    }
    Substitution.WithoutSigil(t, '@');
    assert a + "@{name}" + b + Substitution.Reference('$', v) == a + "@{name}" + t;
    NameReplaced(a, t);
    var p := a + "container_1" + b;
    assert '$' !in "container_1";
    assert a + "container_1" + t == p + (Substitution.Reference('$', v) + "");
    EnvironmentSuffix(p, v, env);
  }

  /** A variable name holds neither sigil. */
  lemma NameHasNoSigil(v: string)
    requires Substitution.IsName(v)
    ensures '@' !in v && '$' !in v
  {
    forall i | 0 <= i < |v| ensures v[i] != '@' && v[i] != '$' {
      assert Substitution.NameChar(v[i]);
    }
  }

  /** A trailing `${v}` after text without `$` takes the environment's value for `v`. */
  lemma EnvironmentSuffix(p: string, v: string, env: Validators.Environment)
    requires '$' !in p && Substitution.IsName(v)
    ensures Validators.ExpandEnvironment(p + (Substitution.Reference('$', v) + ""), env) ==
      if v in env && env[v] != "" then Success(p + env[v])
      else Failure(Validators.MissingEnvironment(v))
  {
    var rule := Validators.Lookup(env);
    Substitution.SubstituteLiteralPrefix(p, Substitution.Reference('$', v) + "", '$', rule);
    Substitution.SubstituteReferencePrefix(v, "", '$', rule);
    Substitution.NoOpenerFixed("", '$', rule);
    if v in env && env[v] != "" {
      assert p + (env[v] + "") == p + env[v];
    }
  }

  /** An unclosed reference at the end is kept by both passes. */
  lemma UnclosedKept(a: string, name: string, env: Validators.Environment)
    requires '@' !in a && '$' !in a && Substitution.IsName(name)
    ensures Substitute(a + (['@', '{'] + name), env) == Success(a + (['@', '{'] + name))
  {
    var s := a + (['@', '{'] + name);
    Substitution.SubstituteLiteralPrefix(a, ['@', '{'] + name, '@', Validators.VariableRule);
    Substitution.UnclosedReferenceKept(name, '@', Validators.VariableRule);
    assert '$' !in ['@', '{'] + name by {
      NameHasNoSigil(name);
    }
    Substitution.WithoutSigil(s, '$');
    Validators.ExpandEnvironmentFixed(s, env);
  }

  // ------------------------------------------------------------ the examples

  // Each example path is written as its optional `.` or `~` followed by the
  // `/`-joined words of its segments: `"." + Join(["downloaded", "clients"])`
  // is `./downloaded/clients`.

  /** Line 49, `./downloaded/clients/@{name}`: no `:`, so no binding. */
  lemma Line49Rejected(h: string)
    requires h == "." + PathGrammar.Join(["downloaded", "clients", "@{name}"])
    ensures PathGrammar.MatchBinding(h) == None
  {
    PathGrammar.JoinAvoids(["downloaded", "clients", "@{name}"], ':');
    PathGrammar.NoColonNoBinding(h);
  }

  /** Line 50, `./downloaded/clients/@{name`: no `:`, so no binding. */
  lemma Line50Rejected(h: string)
    requires h == "." + PathGrammar.Join(["downloaded", "clients", "@{name"])
    ensures PathGrammar.MatchBinding(h) == None
  {
    PathGrammar.JoinAvoids(["downloaded", "clients", "@{name"], ':');
    PathGrammar.NoColonNoBinding(h);
  }

  /** Line 50 under substitution: the unclosed `@{name` is kept. */
  lemma Line50Kept(h: string, env: Validators.Environment)
    requires h == "." + PathGrammar.Join(["downloaded", "clients", "@{name"])
    ensures Substitute(h, env) == Success(h)
  {
    var a := "." + PathGrammar.Join(["downloaded", "clients"]) + "/";
    ExampleHostSplit("@{name", h);
    assert "@{name" == ['@', '{'] + "name";
    assert Substitution.IsName("name");
    UnclosedKept(a, "name", env);
  }

  /** Line 51, `downloaded/clients/@{name}`: no `:`, so no binding. */
  lemma Line51Rejected(h: string)
    requires h == "downloaded" + PathGrammar.Join(["clients", "@{name}"])
    ensures PathGrammar.MatchBinding(h) == None
  {
    PathGrammar.JoinAvoids(["clients", "@{name}"], ':');
    PathGrammar.NoColonNoBinding(h);
  }

  /** The example host `./downloaded/clients/<last>`, split before its last
      word: the prefix holds no sigil. */
  lemma ExampleHostSplit(last: string, h: string)
    requires h == "." + PathGrammar.Join(["downloaded", "clients", last])
    ensures h == "." + PathGrammar.Join(["downloaded", "clients"]) + "/" + last
    ensures var a := "." + PathGrammar.Join(["downloaded", "clients"]) + "/";
      '@' !in a && '$' !in a && h == a + last
  {
    assert ["downloaded", "clients"] + [last] == ["downloaded", "clients", last];
    PathGrammar.JoinSnoc(["downloaded", "clients"], last);
    PathGrammar.JoinAvoids(["downloaded", "clients"], '@');
    PathGrammar.JoinAvoids(["downloaded", "clients"], '$');
  }

  /** Line 52, `./downloaded/clients/@{name}:/app/downloaded`: a binding of
      its two paths. */
  lemma Line52Accepted(h: string, c: string)
    requires h == "." + PathGrammar.Join(["downloaded", "clients", "@{name}"])
    requires c == PathGrammar.Join(["app", "downloaded"])
    ensures PathGrammar.MatchBinding(h + ":" + c) == Some((h, c))
  {
    PathGrammar.WordsBinding('.', ["downloaded", "clients", "@{name}"], ["app", "downloaded"], h, c);
  }

  /** Line 52 under substitution: the host path names the container. */
  lemma Line52Substituted(h: string, c: string, env: Validators.Environment)
    requires h == "." + PathGrammar.Join(["downloaded", "clients", "@{name}"])
    requires c == PathGrammar.Join(["app", "downloaded"])
    ensures Substitute(h + ":" + c, env) ==
      Success("." + PathGrammar.Join(["downloaded", "clients", "container_1"]) + ":" + c)
  {
    var a := "." + PathGrammar.Join(["downloaded", "clients"]) + "/";
    ExampleHostSplit("@{name}", h);
    ExampleHostSplit("container_1", "." + PathGrammar.Join(["downloaded", "clients", "container_1"]));
    PathGrammar.JoinAvoids(["app", "downloaded"], '@');
    PathGrammar.JoinAvoids(["app", "downloaded"], '$');
    assert h + ":" + c == a + "@{name}" + (":" + c);
    NameSubstituted(a, ":" + c, env);
    assert a + "container_1" + (":" + c) == (a + "container_1") + ":" + c;
  }

  /** Line 53, `./downloaded/clients/@{name}:/app/downloaded-${USER}`: a
      binding of its two paths. */
  lemma Line53Accepted(h: string, c: string)
    requires h == "." + PathGrammar.Join(["downloaded", "clients", "@{name}"])
    requires c == PathGrammar.Join(["app", "downloaded-${USER}"])
    ensures PathGrammar.MatchBinding(h + ":" + c) == Some((h, c))
  {
    PathGrammar.WordsBinding('.', ["downloaded", "clients", "@{name}"], ["app", "downloaded-${USER}"], h, c);
  }

  /** Line 53 under substitution: the container is named and `USER` is filled
      in; the substitution fails when `USER` is unset or empty. */
  lemma Line53Substituted(h: string, c: string, env: Validators.Environment)
    requires h == "." + PathGrammar.Join(["downloaded", "clients", "@{name}"])
    requires c == PathGrammar.Join(["app", "downloaded-${USER}"])
    ensures Substitute(h + ":" + c, env) ==
      if "USER" in env && env["USER"] != "" then
        Success("." + PathGrammar.Join(["downloaded", "clients", "container_1"]) + ":" +
          PathGrammar.Join(["app", "downloaded-" + env["USER"]]))
      else Failure(Validators.MissingEnvironment("USER"))
  {
    var a := "." + PathGrammar.Join(["downloaded", "clients"]) + "/";
    var b := ":" + PathGrammar.Join(["app"]) + "/downloaded-";
    var r := Substitution.Reference('$', "USER");
    ExampleHostSplit("@{name}", h);
    ContainerSplit(c, b);
    assert h + ":" + c == a + "@{name}" + b + r by {
      assert h + ":" + c == a + "@{name}" + (":" + c);
    }
    assert Substitution.IsName("USER");
    NameThenEnvironment(a, b, "USER", env);
    if "USER" in env && env["USER"] != "" {
      Line53Value(a, b, env["USER"]);
    }
  }

  /** Line 53's result once `USER` holds `u`. */
  lemma Line53Value(a: string, b: string, u: string)
    requires a == "." + PathGrammar.Join(["downloaded", "clients"]) + "/"
    requires b == ":" + PathGrammar.Join(["app"]) + "/downloaded-"
    ensures a + "container_1" + b + u ==
      "." + PathGrammar.Join(["downloaded", "clients", "container_1"]) + ":" + PathGrammar.Join(["app", "downloaded-" + u])
  {
    ExampleHostSplit("container_1", "." + PathGrammar.Join(["downloaded", "clients", "container_1"]));
    ContainerValue(u, b);
    assert a + "container_1" + b + u == (a + "container_1") + (b + u);
  }

  /** Line 53's container path, split before its `${USER}`. */
  lemma ContainerSplit(c: string, b: string)
    requires c == PathGrammar.Join(["app", "downloaded-${USER}"]) && b == ":" + PathGrammar.Join(["app"]) + "/downloaded-"
    ensures '@' !in b && '$' !in b
    ensures ":" + c == b + Substitution.Reference('$', "USER")
  {
    var w := "downloaded-${USER}";
    var r := Substitution.Reference('$', "USER");
    ContainerWords("downloaded-${USER}");
    UserWord(w);
    DashSplit();
    PathGrammar.JoinAvoids(["app"], '@');
    PathGrammar.JoinAvoids(["app"], '$');
    Regroup(":", PathGrammar.Join(["app"]), "/", "downloaded-", r);
  }

  /** The container words `app` and `w`, joined. */
  lemma ContainerWords(w: string)
    ensures PathGrammar.Join(["app", w]) == PathGrammar.Join(["app"]) + "/" + w
  {
    assert ["app"] + [w] == ["app", w];
    PathGrammar.JoinSnoc(["app"], w);
  }

  lemma DashSplit()
    ensures "/downloaded-" == "/" + "downloaded-"
    ensures '@' !in "/downloaded-" && '$' !in "/downloaded-"
  {
  }

  /** Concatenation regrouped. */
  lemma Regroup(p: string, q: string, r: string, s: string, t: string)
    ensures p + q + (r + s) + t == p + (q + r + (s + t))
  {
  }

  /** `downloaded-${USER}` is `downloaded-` and a reference to `USER`. */
  lemma UserWord(w: string)
    requires w == "downloaded-${USER}"
    ensures w == "downloaded-" + Substitution.Reference('$', "USER")
  {
    assert Substitution.Reference('$', "USER") == "${USER}";
  }

  /** Line 53's container path with `USER` filled in. */
  lemma ContainerValue(u: string, b: string)
    requires b == ":" + PathGrammar.Join(["app"]) + "/downloaded-"
    ensures b + u == ":" + PathGrammar.Join(["app", "downloaded-" + u])
  {
    ContainerWords("downloaded-" + u);
    DashSplit();
    Regroup(":", PathGrammar.Join(["app"]), "/", "downloaded-", u);
  }

  /** Line 54, `downloaded/clients/@{name}:/app/downloaded`: rejected, the
      host path is relative. */
  lemma Line54Rejected(h: string, c: string)
    requires h == "downloaded" + PathGrammar.Join(["clients", "@{name}"])
    requires c == PathGrammar.Join(["app", "downloaded"])
    ensures PathGrammar.MatchBinding(h + ":" + c) == None
  {
    PathGrammar.JoinAvoids(["clients", "@{name}"], ':');
    PathGrammar.JoinAvoids(["app", "downloaded"], ':');
    PathGrammar.PathIffShape(h);
    assert h[0] == 'd' && h[1] == 'o';
    PathGrammar.OneColonBinding(h, c);
  }

  /** Line 55, `~/downloaded/clients/@{name}:app/downloaded`: rejected, the
      container path is relative. */
  lemma Line55Rejected(h: string, c: string)
    requires h == "~" + PathGrammar.Join(["downloaded", "clients", "@{name}"])
    requires c == "app" + PathGrammar.Join(["downloaded"])
    ensures PathGrammar.MatchBinding(h + ":" + c) == None
  {
    PathGrammar.JoinAvoids(["downloaded", "clients", "@{name}"], ':');
    PathGrammar.JoinAvoids(["downloaded"], ':');
    PathGrammar.PathIffShape(c);
    assert c[0] == 'a' && c[1] == 'p';
    PathGrammar.OneColonBinding(h, c);
  }

  /** Line 56, `~/downloaded/clients:/app/downloaded`: a binding of its two
      paths, the host marked with `~`. */
  lemma Line56Accepted(h: string, c: string)
    requires h == "~" + PathGrammar.Join(["downloaded", "clients"])
    requires c == PathGrammar.Join(["app", "downloaded"])
    ensures PathGrammar.MatchBinding(h + ":" + c) == Some((h, c))
  {
    PathGrammar.WordsBinding('~', ["downloaded", "clients"], ["app", "downloaded"], h, c);
  }
}

=== FILE: chord.dfy ===
/** The local Chord ring node: identifiers, peer references, the interval test,
    `notify`, `closest_preceding_finger` and the iterative `find_predecessor` walk.

    Remote peers are read from a `Ring` snapshot: the state each remote node
    would report about itself. A peer missing from the snapshot answers the way
    the source's reference stubs do, with `None`, and the caller then fails on
    the `None`. The empty snapshot is therefore the program exactly as written. */
module Chord {
  import opened Wrappers
  import opened Encoding

  /** 2^160: SHA-1 digests (FIPS 180-4) are 160 bits wide. */
  const DigestBound: nat := 0x1_0000_0000_0000_0000_0000_0000_0000_0000_0000_0000

  /** SHA-1 of a byte string read as a big-endian integer. Only the range of the
      digest is modelled; every function into `[0, 2^160)` is a possible SHA-1. */
  type Sha1 = f: seq<byte> -> nat | forall data :: f(data) < DigestBound
    witness (data: seq<byte>) => 0

  const DefaultPort: int := 8001
  const DefaultBits: int := 160

  /** `getShaRepr`: the digest of the UTF-8 bytes of `data`. */
  function GetShaRepr(h: Sha1, data: string): (r: nat)
    ensures r < DigestBound
  {
    h(Utf8Encode(data))
  }

  /** The text `"<ip>:<port>"` that identifies a node. */
  function NodeKey(ip: string, port: int): string {
    ip + ":" + IntToDecimal(port)
  }

  /** `get_id_of_node`: the id is the raw digest, never reduced modulo 2^m. */
  function GetIdOfNode(h: Sha1, ip: string, port: int): (id: nat)
    ensures id < DigestBound
  {
    GetShaRepr(h, NodeKey(ip, port))
  }

  /** `ChordNodeReference`: the id is computed once, at construction. */
  datatype Ref = Ref(id: nat, ip: string, port: int)

  function MakeRef(h: Sha1, ip: string, port: int): Ref {
    Ref(GetIdOfNode(h, ip, port), ip, port)
  }

  /** A reference whose id is the hash of its own address. */
  predicate RefOk(h: Sha1, r: Ref) {
    r.id == GetIdOfNode(h, r.ip, r.port)
  }

  /** `to_zmq_multipart`: `[ip.encode(), port.to_bytes()]`. `to_bytes()` writes one
      byte, so any port outside `[0, 256)` raises; `None` stands for that error. */
  function ToZmqMultipart(r: Ref): (parts: Option<seq<seq<byte>>>)
    ensures parts.Some? <==> 0 <= r.port < 256
    ensures parts.Some? ==> |parts.value| == 2 && parts.value[0] == Utf8Encode(r.ip)
    ensures parts.Some? ==> FromBytesBE(parts.value[1]) == r.port && parts.value[1] == [r.port as byte]
  {
    match ToBytesDefault(r.port)
    case None => None
    case Some(portBytes) =>
      ToBytesRoundTrip(r.port);
      Some([Utf8Encode(r.ip), portBytes])
  }

  // ------------------------------------------------------------------ node state

  /** `ChordNode`: the fields the ring logic reads and writes. */
  datatype Node = Node(
    id: nat,
    ip: string,
    port: int,
    ref: Ref,
    successor: Ref,
    predecessor: Option<Ref>,
    m: int,
    finger: seq<Ref>)

  /** A node whose own reference and id agree with its address. */
  predicate NodeOk(h: Sha1, n: Node) {
    n.ref == Ref(n.id, n.ip, n.port) && RefOk(h, n.ref)
  }

  /** `ChordNode.__init__`. `[ref] * m` is empty for `m <= 0`. */
  function NewNode(h: Sha1, ip: string, port: int, m: int): (n: Node)
    ensures NodeOk(h, n) && n.ip == ip && n.port == port && n.m == m
    ensures n.id < DigestBound
    ensures n.successor == n.ref && n.predecessor.None?
    ensures |n.finger| == (if m < 0 then 0 else m)
    ensures forall i :: 0 <= i < |n.finger| ==> n.finger[i] == n.ref
  {
    var ref := MakeRef(h, ip, port);
    Node(ref.id, ip, port, ref, ref, None, m, seq(if m < 0 then 0 else m, _ => ref))
  }

  // ------------------------------------------------------------ the interval test

  /** `_in_between(k, start, end)`: `start < k <= end` on plain integers, so
      it never holds of an interval that wraps around the ring. */
  function InBetween(k: int, start: int, end: int): (r: bool)
    ensures r ==> start < end
  {
    start < k <= end
  }

  /** The ring-aware `(start, end]` on a ring of `size` points, where `start == end`
      denotes the whole ring. The source does not use it; it is the reference
      the plain test is compared with. */
  predicate InRingInterval(k: int, start: int, end: int, size: nat)
    requires size > 0
  {
    (start - end) % size == 0 || 0 < (k - start) % size <= (end - start) % size
  }

  /** Without wrap-around the plain test is the ring test. */
  lemma InBetweenAgreesWithoutWrap(k: int, start: int, end: int, size: nat)
    requires 0 <= start < end < size && 0 <= k < size
    ensures InBetween(k, start, end) <==> InRingInterval(k, start, end, size)
  {
    ModOneTurn(start - end, size);
    ModOneTurn(end - start, size);
    ModOneTurn(k - start, size);
  }

  /** Euclidean remainder of a value within one turn of the ring. */
  lemma ModOneTurn(x: int, size: int)
    requires size > 0 && -size <= x < size
    ensures x % size == if x < 0 then x + size else x
  {
  }

  /** The plain test is empty once `end <= start`, where the ring test is not:
      on an 8-point ring, 0 lies in the wrapped interval (7, 1]. */
  lemma InBetweenMissesWrap()
    ensures forall k, start, end :: end <= start ==> !InBetween(k, start, end)
    ensures InRingInterval(0, 7, 1, 8) && !InBetween(0, 7, 1)
  {
    assert (0 - 7) % 8 == 1;
  }

  // ------------------------------------------------------------------- notify

  /** `notify(c)`: adopt `c` as predecessor when there is none, or when
      `pred.id < c.id <= self.id`. */
  function Notify(n: Node, c: Ref): (r: Node)
    ensures r.id == n.id && r.successor == n.successor && r.finger == n.finger
    ensures r.(predecessor := n.predecessor) == n
    ensures (n.predecessor.None? || n.predecessor.value.id < c.id <= n.id) ==> r.predecessor == Some(c)
    ensures !(n.predecessor.None? || n.predecessor.value.id < c.id <= n.id) ==> r == n
  {
    if n.predecessor.None? || InBetween(c.id, n.predecessor.value.id, n.id)
    then n.(predecessor := Some(c))
    else n
  }

  /** Notifying with the same peer twice changes nothing the second time. */
  lemma NotifyIdempotent(n: Node, c: Ref)
    ensures Notify(Notify(n, c), c) == Notify(n, c)
  {
  }

  /** Once the recorded predecessor's id is not below the node's own id (the
      wrapped case of a real ring), no notification can ever replace it. */
  lemma NotifyStuckAfterWrap(n: Node, c: Ref)
    requires n.predecessor.Some? && n.predecessor.value.id >= n.id
    ensures Notify(n, c) == n
  {
  }

  // --------------------------------------------------- closest_preceding_finger

  /** Scans `finger[i-1], finger[i-2], ..., finger[0]` for the first entry whose id
      lies in `(selfId, target]`, and answers its index. */
  function ScanFingers(selfId: int, finger: seq<Ref>, target: int, i: nat): (r: Option<nat>)
    requires i <= |finger|
    ensures r.None? <==> forall j :: 0 <= j < i ==> !InBetween(finger[j].id, selfId, target)
    ensures r.Some? ==> r.value < i && InBetween(finger[r.value].id, selfId, target)
    ensures r.Some? ==> forall j :: r.value < j < i ==> !InBetween(finger[j].id, selfId, target)
    decreases i
  {
    if i == 0 then None
    else if InBetween(finger[i - 1].id, selfId, target) then Some(i - 1)
    else ScanFingers(selfId, finger, target, i - 1)
  }

  /** `closest_preceding_finger(target)` of a node with id `selfId` and finger table
      `finger`: the highest-index finger with id in `(selfId, target]`, or `None`
      when the loop falls off its end. */
  function ClosestPrecedingFinger(selfId: int, finger: seq<Ref>, target: int): (r: Option<Ref>)
    ensures r.None? <==> forall j :: 0 <= j < |finger| ==> !InBetween(finger[j].id, selfId, target)
    ensures r.Some? ==> selfId < r.value.id <= target
    ensures r.Some? ==> exists j :: (0 <= j < |finger| && finger[j] == r.value &&
      forall j' :: j < j' < |finger| ==> !InBetween(finger[j'].id, selfId, target))
  {
    match ScanFingers(selfId, finger, target, |finger|)
    case None => None
    case Some(j) => Some(finger[j])
  }

  // ---------------------------------------------------------- ring snapshot

  /** What a remote node would report about itself. */
  datatype PeerState = PeerState(
    ip: string,
    port: int,
    successor: Ref,
    predecessor: Option<Ref>,
    finger: seq<Ref>)

  /** Remote node states by id. */
  type Ring = map<nat, PeerState>

  /** The node a walk stands on: the local node, or a reference to a remote one. */
  datatype Hop = Local | Remote(peer: Ref)

  function HopRef(n: Node, cur: Hop): Ref {
    match cur
    case Local => n.ref
    case Remote(r) => r
  }

  /** `node.id`: the local node's own id, or the id stored in the reference. */
  function HopId(n: Node, cur: Hop): int {
    match cur
    case Local => n.id
    case Remote(r) => r.id
  }

  /** The successor and finger table the walk reads at `cur`; `None` where the
      reference's `successor` property answers `None`. */
  function HopView(n: Node, ring: Ring, cur: Hop): Option<(Ref, seq<Ref>)> {
    match cur
    case Local => Some((n.successor, n.finger))
    case Remote(r) => if r.id in ring then Some((ring[r.id].successor, ring[r.id].finger)) else None
  }

  /** The failures the ring code runs into; each is an exception in the source. */
  datatype ChordError =
    | MalformedFrame        // unpacking an empty list of frame parts
    | WrongSubsystem        // the first frame part is not `Chord`
    | MissingArgument       // indexing a body part that is not there
    | NotifyArity           // NOTIFY's `len(body) == 2` assertion
    | UnsupportedOperation  // an unknown opcode
    | PortOverflow          // `port.to_bytes()` on a port outside [0, 256)
    | NoClosestFinger       // using the `None` that closest_preceding_finger fell off with
    | UnreachablePeer       // using the `None` a remote reference answered with

  function LastHop(cur: Hop, hops: seq<Ref>): Hop {
    if hops == [] then cur else Remote(hops[|hops| - 1])
  }

  /** The `find_predecessor` loop started at `cur`. On success it answers the
      remote references it moved to, in order. Every hop goes to a strictly
      larger id that does not pass the target, so the walk ends; the equal-id
      `break` of the source can never be taken. */
  function Walk(n: Node, ring: Ring, target: int, cur: Hop): (r: Result<seq<Ref>, ChordError>)
    ensures r.Success? ==> forall i :: 0 <= i < |r.value| ==> HopId(n, cur) < r.value[i].id <= target
    ensures r.Success? ==> forall i, j :: 0 <= i < j < |r.value| ==> r.value[i].id < r.value[j].id
    ensures r.Success? ==> var last := LastHop(cur, r.value);
      HopView(n, ring, last).Some? && HopId(n, last) < target <= HopView(n, ring, last).value.0.id
    decreases target - HopId(n, cur)
  {
    match HopView(n, ring, cur)
    case None => Failure(UnreachablePeer)
    case Some((succ, finger)) =>
      if HopId(n, cur) < target <= succ.id then Success([])
      else
        match ClosestPrecedingFinger(HopId(n, cur), finger, target)
        case None => Failure(NoClosestFinger)
        case Some(next) =>
          if HopId(n, cur) == next.id then assert false; Success([])
          else
            match Walk(n, ring, target, Remote(next))
            case Failure(e) => Failure(e)
            case Success(rest) =>
              PrependHop(HopId(n, cur), next, rest, target);
              assert LastHop(cur, [next] + rest) == LastHop(Remote(next), rest);
              Success([next] + rest)
  }

  /** A hop in front of a walk that starts after it keeps the walk rising. */
  lemma PrependHop(lo: int, next: Ref, rest: seq<Ref>, target: int)
    requires lo < next.id <= target
    requires forall i :: 0 <= i < |rest| ==> next.id < rest[i].id <= target
    requires forall i, j :: 0 <= i < j < |rest| ==> rest[i].id < rest[j].id
    ensures forall i :: 0 <= i < |[next] + rest| ==> lo < ([next] + rest)[i].id <= target
    ensures forall i, j :: 0 <= i < j < |[next] + rest| ==> ([next] + rest)[i].id < ([next] + rest)[j].id
  {
    var s := [next] + rest;
    assert forall i :: 1 <= i < |s| ==> s[i] == rest[i - 1];
  }

  /** `find_predecessor(target)`: the walk from the local node, answered as a
      fresh reference built from the final node's ip and port. */
  function FindPredecessor(h: Sha1, n: Node, ring: Ring, target: int): (r: Result<Ref, ChordError>)
    ensures r.Success? <==> Walk(n, ring, target, Local).Success?
    ensures r.Success? ==> var last := HopRef(n, LastHop(Local, Walk(n, ring, target, Local).value));
      r.value.ip == last.ip && r.value.port == last.port && RefOk(h, r.value) &&
      (RefOk(h, last) ==> r.value == last)
  {
    var hops :- Walk(n, ring, target, Local);
    var last := HopRef(n, LastHop(Local, hops));
    Success(MakeRef(h, last.ip, last.port))
  }

  /** `find_successor(target)`: the successor the found predecessor reports. The
      found predecessor is a plain reference, so this always goes through the
      snapshot, even when it is the local node. */
  function FindSuccessor(h: Sha1, n: Node, ring: Ring, target: int): (r: Result<Ref, ChordError>)
    ensures r.Success? ==> (FindPredecessor(h, n, ring, target).Success? &&
      FindPredecessor(h, n, ring, target).value.id in ring &&
      r.value == ring[FindPredecessor(h, n, ring, target).value.id].successor)
    ensures FindPredecessor(h, n, ring, target).Failure? ==>
      r == Failure(FindPredecessor(h, n, ring, target).error)
    ensures FindPredecessor(h, n, ring, target).Success? ==>
      var p := FindPredecessor(h, n, ring, target).value;
      (p.id in ring ==> r == Success(ring[p.id].successor)) &&
      (p.id !in ring ==> r == Failure(UnreachablePeer))
  {
    var p :- FindPredecessor(h, n, ring, target);
    if p.id in ring then Success(ring[p.id].successor) else Failure(UnreachablePeer)
  }

  // ------------------------------------------------------------- consequences

  /** A successful lookup ends on a node whose id is below the target and whose
      successor's id is not: `node.id < target <= node.successor.id`. */
  lemma FindPredecessorBrackets(h: Sha1, n: Node, ring: Ring, target: int)
    requires FindPredecessor(h, n, ring, target).Success?
    ensures var hops := Walk(n, ring, target, Local).value;
      var last := LastHop(Local, hops);
      HopId(n, last) < target <= HopView(n, ring, last).value.0.id &&
      (hops != [] ==> n.id < HopId(n, last) <= target)
  {
  }

  /** Every reference in the local finger table and in the snapshot's finger
      tables carries the id of its own address. */
  ghost predicate FingersOk(h: Sha1, n: Node, ring: Ring) {
    && (forall j :: 0 <= j < |n.finger| ==> RefOk(h, n.finger[j]))
    && (forall id, j :: id in ring && 0 <= j < |ring[id].finger| ==> RefOk(h, ring[id].finger[j]))
  }

  /** A walk only moves to references read from finger tables. */
  lemma {:induction false} WalkHopsOk(h: Sha1, n: Node, ring: Ring, target: int, cur: Hop)
    requires FingersOk(h, n, ring)
    ensures Walk(n, ring, target, cur).Success? ==>
      forall i :: 0 <= i < |Walk(n, ring, target, cur).value| ==> RefOk(h, Walk(n, ring, target, cur).value[i])
    decreases target - HopId(n, cur)
  {
    match HopView(n, ring, cur)
    case None =>
    case Some((succ, finger)) =>
      if !(HopId(n, cur) < target <= succ.id) {
        match ClosestPrecedingFinger(HopId(n, cur), finger, target)
        case None =>
        case Some(next) =>
          if HopId(n, cur) != next.id {
            ViewFingersOk(h, n, ring, cur);
            WalkHopsOk(h, n, ring, target, Remote(next));
            WalkHopsCons(h, next, Walk(n, ring, target, Remote(next)));
          }
      }
  }

  lemma ViewFingersOk(h: Sha1, n: Node, ring: Ring, cur: Hop)
    requires FingersOk(h, n, ring) && HopView(n, ring, cur).Some?
    ensures forall j :: 0 <= j < |HopView(n, ring, cur).value.1| ==> RefOk(h, HopView(n, ring, cur).value.1[j])
  {
  }

  lemma WalkHopsCons(h: Sha1, next: Ref, w: Result<seq<Ref>, ChordError>)
    requires RefOk(h, next)
    requires w.Success? ==> forall i :: 0 <= i < |w.value| ==> RefOk(h, w.value[i])
    ensures w.Success? ==> forall i :: 0 <= i < |[next] + w.value| ==> RefOk(h, ([next] + w.value)[i])
  {
    if w.Success? {
      var s := [next] + w.value;
      forall i | 0 <= i < |s| ensures RefOk(h, s[i]) {
        if i > 0 {
          assert s[i] == w.value[i - 1];
        }
      }
    }
  }

  /** With a snapshot whose finger references are well formed and whose entry
      for the local node agrees with it, `find_successor` answers a node at or
      after the target, and the predecessor it went through lies before it:
      `pred.id < target <= succ.id`. */
  lemma FindSuccessorBrackets(h: Sha1, n: Node, ring: Ring, target: int)
    requires NodeOk(h, n) && FingersOk(h, n, ring)
    requires n.id in ring ==> ring[n.id].successor == n.successor
    requires FindSuccessor(h, n, ring, target).Success?
    ensures FindPredecessor(h, n, ring, target).value.id < target <= FindSuccessor(h, n, ring, target).value.id
  {
    var hops := Walk(n, ring, target, Local).value;
    WalkHopsOk(h, n, ring, target, Local);
    if hops != [] {
      assert RefOk(h, hops[|hops| - 1]);
    }
  }

  /** With plain comparisons no lookup can start for a target at or below the
      node's own id: it ends on the `None` of closest_preceding_finger. */
  lemma LookupBelowSelfFails(h: Sha1, n: Node, ring: Ring, target: int)
    requires target <= n.id
    ensures FindPredecessor(h, n, ring, target) == Failure(NoClosestFinger)
    ensures FindSuccessor(h, n, ring, target) == Failure(NoClosestFinger)
  {
  }

  /** A fresh node is a single-node ring: every lookup falls off
      closest_preceding_finger and fails, whatever the snapshot says. */
  lemma {:induction false} SingleNodeRingFails(h: Sha1, ip: string, port: int, m: int, ring: Ring, target: int)
    ensures FindPredecessor(h, NewNode(h, ip, port, m), ring, target) == Failure(NoClosestFinger)
    ensures FindSuccessor(h, NewNode(h, ip, port, m), ring, target) == Failure(NoClosestFinger)
    ensures ClosestPrecedingFinger(NewNode(h, ip, port, m).id, NewNode(h, ip, port, m).finger, target).None?
  {
    var n := NewNode(h, ip, port, m);
    assert forall j :: 0 <= j < |n.finger| ==> !InBetween(n.finger[j].id, n.id, target);
  }

  /** With the reference stubs as written (no remote node answers), a lookup
      succeeds only when the local node already brackets the target, and
      `find_successor` never succeeds. */
  lemma StubsAsWritten(h: Sha1, n: Node, target: int)
    ensures FindPredecessor(h, n, map[], target).Success? ==> n.id < target <= n.successor.id
    ensures FindSuccessor(h, n, map[], target).Failure?
  {
    var r: Ring := map[];
    if FindPredecessor(h, n, r, target).Success? {
      var hops := Walk(n, r, target, Local).value;
      // A hop to a remote peer would have to read it from the empty snapshot.
      assert hops == [];
    }
  }

  /** Ids are not reduced modulo 2^m: with a digest of 2^160 - 1 an 8-bit ring
      holds a node whose id is far outside `[0, 2^8)`. */
  lemma IdNotReducedModRing()
    ensures var h: Sha1 := (data: seq<byte>) => DigestBound - 1;
      NewNode(h, "10.0.0.1", DefaultPort, 8).id >= 256
  {
  }
}

=== FILE: chord_dispatch.dfy ===
/** One step of the Chord request server: a received list of frame parts and the
    node state go in; the state after the request and either the response frame
    parts or the exception the loop catches come out. Sending the response and
    the surrounding `while True` loop are not part of this model. */
module ChordDispatch {
  import opened Wrappers
  import opened Encoding
  import opened Chord

  // The wire constants, as the bytes of their ASCII names.
  const ChordTag: seq<byte> := [0x43, 0x68, 0x6F, 0x72, 0x64]                         // "Chord"
  const FindSuccessorOp: seq<byte> := [0x46, 0x69, 0x6E, 0x64, 0x5F, 0x53]            // "Find_S"
  const FindPredecessorOp: seq<byte> := [0x46, 0x69, 0x6E, 0x64, 0x5F, 0x50]          // "Find_P"
  const GetSuccessorOp: seq<byte> := [0x47, 0x65, 0x74, 0x5F, 0x53]                   // "Get_S"
  const GetPredecessorOp: seq<byte> := [0x47, 0x65, 0x74, 0x5F, 0x50]                 // "Get_P"
  const NotifyOp: seq<byte> := [0x4E, 0x6F, 0x74, 0x69, 0x66, 0x79]                   // "Notify"
  const PingOp: seq<byte> := [0x50, 0x69, 0x6E, 0x67]                                 // "Ping"
  const ClosestPrecedingFingerOp: seq<byte> :=
    [0x43, 0x6C, 0x6F, 0x73, 0x65, 0x73, 0x74, 0x5F, 0x50, 0x46]                       // "Closest_PF"

  const Opcodes: set<seq<byte>> := {FindSuccessorOp, FindPredecessorOp, GetSuccessorOp,
    GetPredecessorOp, NotifyOp, PingOp, ClosestPrecedingFingerOp}

  /** The seven opcodes are distinct byte strings, so dispatch by comparison is
      unambiguous. */
  lemma OpcodesDistinct()
    ensures |Opcodes| == 7
  {
  }

  /** A frame addressed to the Chord subsystem with opcode `op`. */
  predicate IsRequest(message: seq<seq<byte>>, op: seq<byte>) {
    |message| >= 2 && message[0] == ChordTag && message[1] == op
  }

  /** `ref.to_zmq_multipart()` inside the handler, where the overflow raises. */
  function Encode(r: Ref): (parts: Result<seq<seq<byte>>, ChordError>)
    ensures parts.Success? <==> 0 <= r.port < 256
    ensures parts.Failure? ==> parts.error == PortOverflow
    ensures parts.Success? ==> (|parts.value| == 2 && parts.value[0] == Utf8Encode(r.ip) &&
      FromBytesBE(parts.value[1]) == r.port && parts.value[1] == [r.port as byte])
  {
    match ToZmqMultipart(r)
    case None => Failure(PortOverflow)
    case Some(parts) => Success(parts)
  }

  /** The receiving end can read an encoded reference back: an ASCII address
      decodes from the first part and the port from the second. */
  lemma EncodeDecodes(r: Ref)
    requires IsAscii(r.ip) && 0 <= r.port < 256
    ensures Encode(r).Success?
    ensures AsciiDecode(Encode(r).value[0]) == Some(r.ip)
    ensures FromBytesBE(Encode(r).value[1]) == r.port
  {
    AsciiRoundTrip(r.ip);
  }

  /** Two references with the same encoding have the same ASCII address and port. */
  lemma EncodeInjective(r: Ref, q: Ref)
    requires IsAscii(r.ip) && IsAscii(q.ip)
    requires Encode(r).Success? && Encode(r) == Encode(q)
    ensures r.ip == q.ip && r.port == q.port
  {
    EncodeDecodes(r);
    EncodeDecodes(q);
  }

  /** The body of the `try` in `start_server`, up to the computed response. */
  function Respond(h: Sha1, n: Node, ring: Ring, message: seq<seq<byte>>): (r: Result<seq<seq<byte>>, ChordError>)
    ensures |message| == 0 ==> r == Failure(MalformedFrame)
    ensures |message| > 0 && message[0] != ChordTag ==> r == Failure(WrongSubsystem)
    ensures message == [ChordTag] ==> r == Failure(MalformedFrame)
    ensures |message| >= 2 && message[0] == ChordTag && message[1] !in Opcodes ==>
      r == Failure(UnsupportedOperation)
    ensures IsRequest(message, PingOp) ==> r == Success([[]])
    ensures IsRequest(message, NotifyOp) ==>
      r.Failure? && r.error == (if |message| == 4 then MissingArgument else NotifyArity)
    ensures IsRequest(message, GetSuccessorOp) ==> r == Encode(n.successor)
    ensures IsRequest(message, GetPredecessorOp) ==>
      r == Encode(if n.predecessor.Some? then n.predecessor.value else n.ref)
    ensures |message| == 2 ==>
      (IsRequest(message, FindSuccessorOp) || IsRequest(message, FindPredecessorOp) ||
       IsRequest(message, ClosestPrecedingFingerOp)) ==> r == Failure(MissingArgument)
    ensures IsRequest(message, FindSuccessorOp) && |message| > 2 ==>
      (match FindSuccessor(h, n, ring, FromBytesBE(message[2]))
       case Success(s) => r == Encode(s)
       case Failure(e) => r == Failure(e))
    ensures IsRequest(message, FindPredecessorOp) && |message| > 2 ==>
      (match FindPredecessor(h, n, ring, FromBytesBE(message[2]))
       case Success(p) => r == Encode(p)
       case Failure(e) => r == Failure(e))
    ensures IsRequest(message, ClosestPrecedingFingerOp) && |message| > 2 ==>
      var f := ClosestPrecedingFinger(n.id, n.finger, FromBytesBE(message[2]));
      (f.None? ==> r == Failure(NoClosestFinger)) && (f.Some? ==> r == Encode(f.value))
  {
    if |message| == 0 then Failure(MalformedFrame)
    else if message[0] != ChordTag then Failure(WrongSubsystem)
    else if |message| == 1 then Failure(MalformedFrame)
    else
      var op, body := message[1], message[2..];
      if op == FindSuccessorOp then
        if |body| == 0 then Failure(MissingArgument)
        else
          var s :- FindSuccessor(h, n, ring, FromBytesBE(body[0]));
          Encode(s)
      else if op == FindPredecessorOp then
        if |body| == 0 then Failure(MissingArgument)
        else
          var p :- FindPredecessor(h, n, ring, FromBytesBE(body[0]));
          Encode(p)
      else if op == GetSuccessorOp then
        Encode(n.successor)
      else if op == GetPredecessorOp then
        Encode(if n.predecessor.Some? then n.predecessor.value else n.ref)
      else if op == NotifyOp then
        // `assert len(body) == 2`, then `body[2]`: no NOTIFY gets past both
        if |body| != 2 then Failure(NotifyArity) else Failure(MissingArgument)
      else if op == PingOp then
        Success([[]])
      else if op == ClosestPrecedingFingerOp then
        if |body| == 0 then Failure(MissingArgument)
        else
          match ClosestPrecedingFinger(n.id, n.finger, FromBytesBE(body[0]))
          case None => Failure(NoClosestFinger)
          case Some(f) => Encode(f)
      else Failure(UnsupportedOperation)
  }

  datatype Reply = Reply(state: Node, response: Result<seq<seq<byte>>, ChordError>)

  /** `body[i]`, or `None` where indexing raises `IndexError`. */
  function Index(body: seq<seq<byte>>, i: int): (r: Option<seq<byte>>)
    ensures r.Some? <==> 0 <= i < |body|
    ensures r.Some? ==> r.value == body[i]
  {
    if 0 <= i < |body| then Some(body[i]) else None
  }

  /** The address text of `ChordNodeReference(body[0], …)`: one character per byte. */
  function BytesAsText(bs: seq<byte>): (s: string)
    ensures |s| == |bs| && forall i :: 0 <= i < |bs| ==> s[i] as int == bs[i]
  {
    seq(|bs|, i requires 0 <= i < |bs| => bs[i] as char)
  }

  /** The NOTIFY branch in source order: the arity assertion, the read of
      `body[2]`, then `notify` with the reference built from the body, which
      leaves no response to send. */
  function HandleNotify(h: Sha1, n: Node, body: seq<seq<byte>>): (r: Reply)
    ensures r.state == n
    ensures r.response == Failure(if |body| == 2 then MissingArgument else NotifyArity)
  {
    if |body| != 2 then Reply(n, Failure(NotifyArity))
    else
      var ip := body[0];
      match Index(body, 2)
      case None => Reply(n, Failure(MissingArgument))
      case Some(portBytes) =>
        Reply(Notify(n, MakeRef(h, BytesAsText(ip), FromBytesBE(portBytes))), Success([]))
  }

  /** One dispatch step: NOTIFY may change the predecessor, every other request
      only reads the node. */
  function Dispatch(h: Sha1, n: Node, ring: Ring, message: seq<seq<byte>>): (r: Reply)
    ensures r.response == Respond(h, n, ring, message)
    ensures !IsRequest(message, NotifyOp) ==> r.state == n
  {
    if IsRequest(message, NotifyOp) then HandleNotify(h, n, message[2..])
    else Reply(n, Respond(h, n, ring, message))
  }

  /** No request changes the node: NOTIFY, the only one that would, raises
      before it reaches `notify` whatever its body. */
  lemma DispatchKeepsState(h: Sha1, n: Node, ring: Ring, message: seq<seq<byte>>)
    ensures Dispatch(h, n, ring, message).state == n
  {
  }

  /** A node on the default port 8001 cannot answer GET_S or GET_P about itself:
      the one-byte port encoding overflows. */
  lemma DefaultPortCannotAnswer(h: Sha1, ip: string, m: int, message: seq<seq<byte>>)
    requires IsRequest(message, GetSuccessorOp) || IsRequest(message, GetPredecessorOp)
    ensures Dispatch(h, NewNode(h, ip, DefaultPort, m), map[], message).response == Failure(PortOverflow)
  {
    OpcodesDistinct();
  }

  /** A fresh node answers CLOSEST_PRECEDING_FINGER with an error for every id. */
  lemma FreshNodeHasNoClosestFinger(h: Sha1, ip: string, port: int, m: int, ring: Ring, message: seq<seq<byte>>)
    requires IsRequest(message, ClosestPrecedingFingerOp) && |message| > 2
    ensures Dispatch(h, NewNode(h, ip, port, m), ring, message).response == Failure(NoClosestFinger)
  {
    SingleNodeRingFails(h, ip, port, m, ring, FromBytesBE(message[2]));
  }
}

=== FILE: cli.dfy ===
/** The command-line client's argument checks: tags are at most 20 characters
    long, and every path names an existing regular file. Each command runs its
    checks in a fixed order and stops at the first that fails, after printing
    that check's errors. The file system is given as the set of existing paths
    and the set of regular files among them; paths are strings. */
module CliApp {
  const MaxTagLength: int := 20

  datatype CliError =
    | TagTooLong(tag: string)
    | PathMissing(path: string)
    | NotAFile(path: string)

  datatype FileSystem = FileSystem(existing: set<string>, files: set<string>)

  /** The errors `validate_tags` collects: one per over-long tag, in order. */
  function TagErrors(tags: seq<string>): (errors: seq<CliError>)
    ensures |errors| <= |tags|
    ensures forall e :: e in errors ==> e.TagTooLong? && e.tag in tags && |e.tag| > MaxTagLength
    ensures forall t :: t in tags && |t| > MaxTagLength ==> TagTooLong(t) in errors
  {
    if tags == [] then []
    else (if |tags[0]| > MaxTagLength then [TagTooLong(tags[0])] else []) + TagErrors(tags[1..])
  }

  /** `validate_tags`: true when no error was collected. */
  function ValidateTags(tags: seq<string>): (r: bool)
    ensures r <==> forall i :: 0 <= i < |tags| ==> |tags[i]| <= MaxTagLength
  {
    ValidateTagsIff(tags);
    TagErrors(tags) == []
  }

  /** Tags are valid exactly when none is longer than 20 characters; so the
      empty list is valid. */
  lemma ValidateTagsIff(tags: seq<string>)
    ensures TagErrors(tags) == [] <==> forall i :: 0 <= i < |tags| ==> |tags[i]| <= MaxTagLength
    ensures TagErrors([]) == []
  {
    if TagErrors(tags) != [] {
      var e := TagErrors(tags)[0];
      assert e in TagErrors(tags);
    }
  }

  /** Errors are collected tag by tag: the errors of two lists one after the
      other are the errors of each, in order. */
  lemma {:induction false} TagErrorsAppend(a: seq<string>, b: seq<string>)
    ensures TagErrors(a + b) == TagErrors(a) + TagErrors(b)
  {
    if a == [] {
      assert a + b == b;
    } else {
      assert (a + b)[0] == a[0];
      assert (a + b)[1..] == a[1..] + b;
      TagErrorsAppend(a[1..], b);
      var head := if |a[0]| > MaxTagLength then [TagTooLong(a[0])] else [];
      assert head + (TagErrors(a[1..]) + TagErrors(b)) == (head + TagErrors(a[1..])) + TagErrors(b);
    }
  }

  /** The error for one path: a missing path gets only the missing-path error. */
  function PathError(fs: FileSystem, path: string): (errors: seq<CliError>)
    ensures path !in fs.existing ==> errors == [PathMissing(path)]
    ensures path in fs.existing && path !in fs.files ==> errors == [NotAFile(path)]
    ensures path in fs.existing && path in fs.files ==> errors == []
  {
    if path !in fs.existing then [PathMissing(path)]
    else if path !in fs.files then [NotAFile(path)]
    else []
  }

  /** The errors `validate_files` collects, in input order. */
  function FileErrors(fs: FileSystem, paths: seq<string>): (errors: seq<CliError>)
    ensures |errors| <= |paths|
    ensures forall e :: e in errors ==> !e.TagTooLong? && e.path in paths
    ensures forall e :: e in errors && e.PathMissing? ==> e.path !in fs.existing
    ensures forall e :: e in errors && e.NotAFile? ==> e.path in fs.existing && e.path !in fs.files
    ensures forall p :: p in paths && p !in fs.existing ==> PathMissing(p) in errors && NotAFile(p) !in errors
    ensures forall p :: p in paths && p in fs.existing && p !in fs.files ==> NotAFile(p) in errors
  {
    if paths == [] then []
    else PathError(fs, paths[0]) + FileErrors(fs, paths[1..])
  }

  /** `validate_files`: true when no error was collected. */
  function ValidateFiles(fs: FileSystem, paths: seq<string>): (r: bool)
    ensures r <==> forall i :: 0 <= i < |paths| ==> paths[i] in fs.files && paths[i] in fs.existing
  {
    ValidateFilesIff(fs, paths);
    FileErrors(fs, paths) == []
  }

  /** Paths are valid exactly when each exists and is a regular file. */
  lemma ValidateFilesIff(fs: FileSystem, paths: seq<string>)
    ensures FileErrors(fs, paths) == [] <==> forall i :: 0 <= i < |paths| ==> paths[i] in fs.files && paths[i] in fs.existing
  {
    if FileErrors(fs, paths) != [] {
      var e := FileErrors(fs, paths)[0];
      assert e in FileErrors(fs, paths);
    } else {
      forall i | 0 <= i < |paths| ensures paths[i] in fs.files && paths[i] in fs.existing {
        assert paths[i] in paths;
      }
    }
  }

  lemma {:induction false} FileErrorsAppend(fs: FileSystem, a: seq<string>, b: seq<string>)
    ensures FileErrors(fs, a + b) == FileErrors(fs, a) + FileErrors(fs, b)
  {
    if a == [] {
      assert a + b == b;
    } else {
      assert (a + b)[0] == a[0];
      assert (a + b)[1..] == a[1..] + b;
      FileErrorsAppend(fs, a[1..], b);
      var head := PathError(fs, a[0]);
      assert head + (FileErrors(fs, a[1..]) + FileErrors(fs, b)) == (head + FileErrors(fs, a[1..])) + FileErrors(fs, b);
    }
  }

  // ------------------------------------------------------------- commands

  datatype Command =
    | Add(files: seq<string>, tags: seq<string>)
    | AddFile(file: string, tags: seq<string>)
    | Delete(tagQuery: seq<string>)
    | DeleteTags(tagQuery: seq<string>, tagList: seq<string>)
    | List(tagQuery: seq<string>)
    | AddTags(tagQuery: seq<string>, tagList: seq<string>)

  /** A command either goes ahead or stops after printing one check's errors. */
  datatype Outcome = Proceeds | Stopped(printed: seq<CliError>)

  /** The checks a command runs, in order. */
  datatype Check = Files(paths: seq<string>) | Tags(tags: seq<string>)

  function Checks(cmd: Command): seq<Check> {
    match cmd
    case Add(files, tags) => [Files(files), Tags(tags)]
    case AddFile(file, tags) => [Files([file]), Tags(tags)]
    case Delete(q) => [Tags(q)]
    case DeleteTags(q, l) => [Tags(q), Tags(l)]
    case List(q) => [Tags(q)]
    case AddTags(q, l) => [Tags(q), Tags(l)]
  }

  function CheckErrors(fs: FileSystem, c: Check): seq<CliError> {
    match c
    case Files(paths) => FileErrors(fs, paths)
    case Tags(tags) => TagErrors(tags)
  }

  /** Run checks in order up to the first that reports errors. */
  function RunChecks(fs: FileSystem, checks: seq<Check>): (r: Outcome)
    ensures r.Proceeds? <==> forall i :: 0 <= i < |checks| ==> CheckErrors(fs, checks[i]) == []
    ensures r.Stopped? ==> exists i :: (0 <= i < |checks| &&
      (forall j :: 0 <= j < i ==> CheckErrors(fs, checks[j]) == []) &&
      r.printed == CheckErrors(fs, checks[i]) && r.printed != [])
  {
    if checks == [] then Proceeds
    else
      var errors := CheckErrors(fs, checks[0]);
      if errors != [] then Stopped(errors)
      else
        var rest := RunChecks(fs, checks[1..]);
        assert forall i :: 0 <= i < |checks| - 1 ==> checks[1..][i] == checks[i + 1];
        if rest.Stopped? then
          ghost var i :| 0 <= i < |checks[1..]| &&
            (forall j :: 0 <= j < i ==> CheckErrors(fs, checks[1..][j]) == []) &&
            rest.printed == CheckErrors(fs, checks[1..][i]) && rest.printed != [];
          assert CheckErrors(fs, checks[i + 1]) == rest.printed;
          rest
        else rest
  }

  /** Two checks: the second runs only when the first passes. */
  lemma RunTwo(fs: FileSystem, first: Check, second: Check)
    ensures RunChecks(fs, [first, second]) ==
      if CheckErrors(fs, first) != [] then Stopped(CheckErrors(fs, first))
      else if CheckErrors(fs, second) != [] then Stopped(CheckErrors(fs, second))
      else Proceeds
  {
    assert [first, second][1..] == [second];
    assert [second][1..] == [];
  }

  /** A command's validation step. */
  function Run(fs: FileSystem, cmd: Command): Outcome {
    RunChecks(fs, Checks(cmd))
  }

  /** `add` and `add-file` check the files first and, if any fails, never look
      at the tags: only file errors are printed. */
  lemma FilesBeforeTags(fs: FileSystem, files: seq<string>, file: string, tags: seq<string>)
    ensures !ValidateFiles(fs, files) ==> Run(fs, Add(files, tags)) == Stopped(FileErrors(fs, files))
    ensures ValidateFiles(fs, files) ==>
      Run(fs, Add(files, tags)) == (if ValidateTags(tags) then Proceeds else Stopped(TagErrors(tags)))
    ensures !ValidateFiles(fs, [file]) ==> Run(fs, AddFile(file, tags)) == Stopped(PathError(fs, file))
    ensures ValidateFiles(fs, [file]) ==>
      Run(fs, AddFile(file, tags)) == (if ValidateTags(tags) then Proceeds else Stopped(TagErrors(tags)))
  {
    AddChecks(fs, files, tags);
    AddFileChecks(fs, file, tags);
  }

  lemma AddChecks(fs: FileSystem, files: seq<string>, tags: seq<string>)
    ensures Run(fs, Add(files, tags)) ==
      if !ValidateFiles(fs, files) then Stopped(FileErrors(fs, files))
      else if ValidateTags(tags) then Proceeds else Stopped(TagErrors(tags))
  {
    RunTwo(fs, Files(files), Tags(tags));
  }

  lemma AddFileChecks(fs: FileSystem, file: string, tags: seq<string>)
    ensures Run(fs, AddFile(file, tags)) ==
      if PathError(fs, file) != [] then Stopped(PathError(fs, file))
      else if ValidateTags(tags) then Proceeds else Stopped(TagErrors(tags))
    ensures ValidateFiles(fs, [file]) <==> PathError(fs, file) == []
  {
    SingleFileErrors(fs, file);
    RunTwo(fs, Files([file]), Tags(tags));
  }

  lemma SingleFileErrors(fs: FileSystem, file: string)
    ensures FileErrors(fs, [file]) == PathError(fs, file)
  {
    assert [file][1..] == [];
    assert PathError(fs, file) + [] == PathError(fs, file);
  }

  /** `delete-tags` and `add-tags` check the query before the list; an
      over-long tag in either blocks the command. */
  lemma QueryBeforeList(fs: FileSystem, query: seq<string>, list: seq<string>)
    ensures !ValidateTags(query) ==>
      Run(fs, DeleteTags(query, list)) == Stopped(TagErrors(query)) &&
      Run(fs, AddTags(query, list)) == Stopped(TagErrors(query))
    ensures Run(fs, DeleteTags(query, list)) == Run(fs, AddTags(query, list))
    ensures Run(fs, AddTags(query, list)).Proceeds? <==> ValidateTags(query + list)
  {
    TwoTagChecks(fs, query, list);
    TagErrorsAppend(query, list);
  }

  lemma TwoTagChecks(fs: FileSystem, query: seq<string>, list: seq<string>)
    ensures Run(fs, DeleteTags(query, list)) == Run(fs, AddTags(query, list)) ==
      if TagErrors(query) != [] then Stopped(TagErrors(query))
      else if TagErrors(list) != [] then Stopped(TagErrors(list)) else Proceeds
  {
    RunTwo(fs, Tags(query), Tags(list));
  }

  /** The single-list commands go ahead exactly when their query is valid. */
  lemma SingleQueryCommands(fs: FileSystem, query: seq<string>)
    ensures Run(fs, Delete(query)).Proceeds? <==> ValidateTags(query)
    ensures Run(fs, List(query)) == Run(fs, Delete(query))
  {
    assert [Tags(query)][1..] == [];
  }
}

=== FILE: discovery.dfy ===
/** The discovery agent's peer table: pings received over multicast insert or
    refresh peers, a periodic sweep drops the expired ones, and every change is
    reported to the service watcher as a JOINED or LEFT message. The socket,
    the scheduler and the clock are left out; their effects arrive here as
    parameters (the parsed ping, the current time) and leave as message lists. */
module DiscoveryAgent {
  import opened Wrappers
  import opened OrderedDict
  import opened DnsRegistry
  import SA = ServiceAnnouncement

  /** `timedelta(seconds=3)`, in microseconds. */
  const DefaultExpirationWindow: int := 3_000_000

  /** A message on the pipe to the service watcher. */
  datatype Message = Joined(peer: Peer) | Left(peer: Peer)

  /** What `Peer.from_json(message.decode("utf-8"))` produced for one datagram. */
  datatype PingOutcome =
    | Parsed(peer: Peer)
    | ValidationFailed  // pydantic's `ValidationError`
    | OtherFailure      // any other exception, such as a bad UTF-8 sequence

  datatype AgentError = UnhandledError

  type Table = Dict<Uuid, Peer>

  /** Every entry is filed under its own peer's uuid, once. */
  ghost predicate TableOk(t: Table) {
    UniqueKeys(t) && forall i :: 0 <= i < |t| ==> t[i].0 == t[i].1.uuid
  }

  /** One ping as `check_for_peer_pings` handles it: a new uuid is inserted with
      its expiry set to `now + window` and announced as JOINED; a known uuid
      only has the stored peer's expiry refreshed; every failure is swallowed. */
  function OnPing(table: Table, ping: PingOutcome, now: int, window: int): (r: (Table, seq<Message>))
    ensures !ping.Parsed? ==> r == (table, [])
    ensures ping.Parsed? && !HasKey(table, ping.peer.uuid) ==> (
      var joined := ping.peer.(expirationTime := now + window);
      && r.0 == table + [(ping.peer.uuid, joined)]
      && r.1 == [Joined(joined)])
    ensures ping.Parsed? && HasKey(table, ping.peer.uuid) ==> (
      var stored := Get(table, ping.peer.uuid).value;
      && |r.0| == |table|
      && Get(r.0, ping.peer.uuid) == Some(stored.(expirationTime := now + window))
      && r.1 == [])
    ensures ping.Parsed? ==> forall u :: u != ping.peer.uuid ==> Get(r.0, u) == Get(table, u)
  {
    match ping
    case Parsed(peer) =>
      if HasKey(table, peer.uuid) then
        var entry := UpdateExpirationTime(Get(table, peer.uuid).value, now + window);
        GetPut(table, peer.uuid, entry, peer.uuid);
        PutOthers(table, peer.uuid, entry);
        (Put(table, peer.uuid, entry), [])
      else
        var entry := UpdateExpirationTime(peer, now + window);
        PutOthers(table, peer.uuid, entry);
        (Put(table, peer.uuid, entry), [Joined(entry)])
    case _ => (table, [])
  }

  /** `check_pings`: the same step, except that only validation errors are
      swallowed; any other error escapes to the caller. */
  function CheckPings(table: Table, ping: PingOutcome, now: int, window: int): (r: Result<(Table, seq<Message>), AgentError>)
    ensures r.Failure? <==> ping.OtherFailure?
    ensures r.Success? ==> r.value == OnPing(table, ping, now, window)
  {
    if ping.OtherFailure? then Failure(UnhandledError) else Success(OnPing(table, ping, now, window))
  }

  /** Pings keep the table keyed by uuid. */
  lemma OnPingKeepsTableOk(table: Table, ping: PingOutcome, now: int, window: int)
    requires TableOk(table)
    ensures TableOk(OnPing(table, ping, now, window).0)
  {
    if ping.Parsed? {
      var peer := ping.peer;
      var entry := match Get(table, peer.uuid)
        case Some(stored) => UpdateExpirationTime(stored, now + window)
        case None => UpdateExpirationTime(peer, now + window);
      PutUnique(table, peer.uuid, entry);
      var t := Put(table, peer.uuid, entry);
      assert t == OnPing(table, ping, now, window).0;
      if HasKey(table, peer.uuid) {
        PutKeepsKeys(table, peer.uuid, entry);
        forall i | 0 <= i < |t| ensures t[i].0 == t[i].1.uuid {
          assert t[i].0 == Keys(t)[i] == Keys(table)[i] == table[i].0;
          if t[i].0 == peer.uuid {
            GetPut(table, peer.uuid, entry, peer.uuid);
            assert Get(t, peer.uuid) == Some(t[i].1) by { FirstKeyWins(t, i); }
            var s := Get(table, peer.uuid).value;
            assert Get(table, peer.uuid) == Some(table[i].1) by { FirstKeyWins(table, i); }
          } else {
            GetPut(table, peer.uuid, entry, t[i].0);
            FirstKeyWins(t, i);
            FirstKeyWins(table, i);
          }
        }
      }
    }
  }

  /** With distinct keys, `Get` finds the entry at any index holding the key. */
  lemma {:induction false} FirstKeyWins(t: Table, i: nat)
    requires UniqueKeys(t) && i < |t|
    ensures Get(t, t[i].0) == Some(t[i].1)
  {
    if i > 0 {
      FirstKeyWins(t[1..], i - 1);
    }
  }

  /** The pings of one sender all carry the same uuid (`u`), so however many
      arrive, the table holds one entry for them. */
  lemma {:induction false} SameUuidPingsCollapse(table: Table, pings: seq<(PingOutcome, int)>, u: Uuid, window: int)
    requires |table| <= 1 && forall i :: 0 <= i < |table| ==> table[i].0 == u
    requires forall i :: 0 <= i < |pings| && pings[i].0.Parsed? ==> pings[i].0.peer.uuid == u
    ensures var t := ReceivePings(table, pings, window);
      |t| <= 1 && forall i :: 0 <= i < |t| ==> t[i].0 == u
    decreases |pings|
  {
    if pings != [] {
      var next := OnPing(table, pings[0].0, pings[0].1, window).0;
      if pings[0].0.Parsed? && !HasKey(table, u) {
        assert table == [];
      }
      assert |next| <= 1 && forall i :: 0 <= i < |next| ==> next[i].0 == u by {
        if pings[0].0.Parsed? && HasKey(table, u) {
          GetPut(table, u, next[0].1, u);
        }
      }
      SameUuidPingsCollapse(next, pings[1..], u, window);
    }
  }

  /** The table after a run of pings, each with its arrival time. */
  function ReceivePings(table: Table, pings: seq<(PingOutcome, int)>, window: int): Table
    decreases |pings|
  {
    if pings == [] then table
    else ReceivePings(OnPing(table, pings[0].0, pings[0].1, window).0, pings[1..], window)
  }

  // ------------------------------------------------------------ the sweep

  /** The loop of `remove_dead_peers` over a snapshot of the table's values:
      each expired peer is deleted by uuid and announced as LEFT. */
  function SweepLoop(table: Table, snapshot: seq<Peer>, now: int): (Table, seq<Message>)
    decreases |snapshot|
  {
    if snapshot == [] then (table, [])
    else if IsExpired(snapshot[0], now) then
      var rest := SweepLoop(Delete(table, snapshot[0].uuid), snapshot[1..], now);
      (rest.0, [Left(snapshot[0])] + rest.1)
    else SweepLoop(table, snapshot[1..], now)
  }

  /** The entries whose peer has not expired, in table order. */
  function Alive(t: Table, now: int): (r: Table)
    ensures forall e :: e in r <==> e in t && !IsExpired(e.1, now)
  {
    if t == [] then []
    else (if IsExpired(t[0].1, now) then [] else [t[0]]) + Alive(t[1..], now)
  }

  /** A LEFT message for each expired peer, in table order. */
  function Departures(t: Table, now: int): (r: seq<Message>)
    ensures forall m :: m in r ==> m.Left? && IsExpired(m.peer, now)
    ensures forall p: Peer :: Left(p) in r <==> exists i :: 0 <= i < |t| && t[i].1 == p && IsExpired(p, now)
    ensures |r| == |t| - |Alive(t, now)|
  {
    if t == [] then []
    else
      var rest := Departures(t[1..], now);
      assert forall i :: 1 <= i < |t| ==> t[i] == t[1..][i - 1];
      (if IsExpired(t[0].1, now) then [Left(t[0].1)] else []) + rest
  }

  /** `remove_dead_peers`: on a well-formed table the sweep keeps exactly the
      unexpired entries, in order, and emits one LEFT per removed peer, in order. */
  function RemoveDeadPeers(table: Table, now: int): (r: (Table, seq<Message>))
    ensures TableOk(table) ==> r.0 == Alive(table, now) && r.1 == Departures(table, now)
  {
    SweepFiltersWellFormed(table, now);
    SweepLoop(table, Values(table), now)
  }

  lemma SweepFiltersWellFormed(table: Table, now: int)
    ensures TableOk(table) ==>
      SweepLoop(table, Values(table), now) == (Alive(table, now), Departures(table, now))
  {
    if TableOk(table) {
      assert [] + table == table;
      SweepMatchesFilter([], table, now);
      assert [] + Alive(table, now) == Alive(table, now);
    }
  }

  /** The sweep over `prefix + t`, started at `t`'s values, keeps `prefix` and
      filters `t`. */
  lemma {:induction false} SweepMatchesFilter(prefix: Table, t: Table, now: int)
    requires UniqueKeys(prefix + t) && TableOk(t)
    ensures SweepLoop(prefix + t, Values(t), now) == (prefix + Alive(t, now), Departures(t, now))
    decreases |t|
  {
    if t == [] {
      assert prefix + [] == prefix;
    } else {
      ValuesStep(t);
      TailTableOk(t);
      if IsExpired(t[0].1, now) {
        SweepExpiredStep(prefix, t, now);
        SweepMatchesFilter(prefix, t[1..], now);
      } else {
        SweepKeptStep(prefix, t, now);
        SweepMatchesFilter(prefix + [t[0]], t[1..], now);
      }
    }
  }

  lemma ValuesStep(t: Table)
    requires t != []
    ensures Values(t)[0] == t[0].1 && Values(t)[1..] == Values(t[1..])
  {
  }

  /** An expired first entry is deleted from the table and reported. */
  lemma SweepExpiredStep(prefix: Table, t: Table, now: int)
    requires UniqueKeys(prefix + t) && TableOk(t) && t != [] && IsExpired(t[0].1, now)
    ensures UniqueKeys(prefix + t[1..])
    ensures Delete(prefix + t, t[0].1.uuid) == prefix + t[1..]
    ensures Alive(t, now) == Alive(t[1..], now)
    ensures Departures(t, now) == [Left(t[0].1)] + Departures(t[1..], now)
  {
    var k := t[0].0;
    DropFirstOfSuffix(prefix, t);
    DeleteAfter(prefix, t, k);
    DeleteAbsent(t[1..], k);
    assert Alive(t, now) == [] + Alive(t[1..], now);
  }

  /** An unexpired first entry stays, and the sweep moves past it. */
  lemma SweepKeptStep(prefix: Table, t: Table, now: int)
    requires t != [] && !IsExpired(t[0].1, now)
    ensures prefix + t == (prefix + [t[0]]) + t[1..]
    ensures (prefix + [t[0]]) + Alive(t[1..], now) == prefix + Alive(t, now)
    ensures Departures(t, now) == Departures(t[1..], now)
  {
    MoveFirst(prefix, t);
    AliveKeepsFirst(t, now);
    MoveFirst(prefix, [t[0]] + Alive(t[1..], now));
    assert Departures(t, now) == [] + Departures(t[1..], now);
  }

  lemma AliveKeepsFirst(t: Table, now: int)
    requires t != [] && !IsExpired(t[0].1, now)
    ensures Alive(t, now) == [t[0]] + Alive(t[1..], now)
  {
  }

  /** Moving the first entry of `t` onto the end of `prefix`. */
  lemma MoveFirst(prefix: Table, t: Table)
    requires t != []
    ensures prefix + t == (prefix + [t[0]]) + t[1..]
  {
    assert t == [t[0]] + t[1..];
  }

  lemma TailTableOk(t: Table)
    requires TableOk(t) && t != []
    ensures TableOk(t[1..])
  {
    assert forall i :: 0 <= i < |t[1..]| ==> t[1..][i] == t[i + 1];
  }

  /** In a table with distinct keys, the first key of a suffix occurs nowhere
      else, and dropping it keeps the keys distinct. */
  lemma DropFirstOfSuffix(prefix: Table, t: Table)
    requires UniqueKeys(prefix + t) && t != []
    ensures !HasKey(prefix, t[0].0) && !HasKey(t[1..], t[0].0)
    ensures UniqueKeys(prefix + t[1..])
  {
    var whole := prefix + t;
    var k := t[0].0;
    assert whole[|prefix|].0 == k;
    forall i | 0 <= i < |prefix| ensures Keys(prefix)[i] != k {
      assert whole[i] == prefix[i];
    }
    forall i | 0 <= i < |t[1..]| ensures Keys(t[1..])[i] != k {
      assert whole[|prefix| + 1 + i] == t[1..][i];
    }
    forall i, j | 0 <= i < j < |prefix + t[1..]| ensures (prefix + t[1..])[i].0 != (prefix + t[1..])[j].0 {
      var i' := if i < |prefix| then i else i + 1;
      var j' := if j < |prefix| then j else j + 1;
      assert (prefix + t[1..])[i] == whole[i'];
      assert (prefix + t[1..])[j] == whole[j'];
    }
  }

  /** The sweep leaves a well-formed table that holds no expired peer. */
  lemma RemoveDeadPeersKeepsTableOk(table: Table, now: int)
    requires TableOk(table)
    ensures TableOk(RemoveDeadPeers(table, now).0)
    ensures forall i :: 0 <= i < |RemoveDeadPeers(table, now).0| ==> !IsExpired(RemoveDeadPeers(table, now).0[i].1, now)
  {
    AliveKeepsTableOk(table, now);
  }

  lemma {:induction false} AliveKeepsTableOk(t: Table, now: int)
    requires TableOk(t)
    ensures TableOk(Alive(t, now))
  {
    if t != [] {
      assert forall i :: 0 <= i < |t[1..]| ==> t[1..][i] == t[i + 1];
      AliveKeepsTableOk(t[1..], now);
      var r := Alive(t, now);
      var rest := Alive(t[1..], now);
      if !IsExpired(t[0].1, now) {
        forall j | 0 < j < |r| ensures r[0].0 != r[j].0 {
          assert r[j] in rest;
          assert r[j] in t[1..];
        }
      }
    }
  }

  // ------------------------------------------------------- own announcements

  /** `create_peers_from_announcements`: one peer per announcement, in order.
      None is given a uuid, so all of them share the class default; their
      expiry defaults to the creation time. */
  function CreatePeers(announcements: seq<SA.Announcement>, classDefault: Uuid, now: int): (r: seq<Peer>)
    ensures |r| == |announcements|
    ensures forall i :: 0 <= i < |r| ==> r[i].service == announcements[i] && r[i].uuid == classDefault && r[i].expirationTime == now
  {
    if announcements == [] then []
    else [NewPeer(announcements[0], None, classDefault, now)] + CreatePeers(announcements[1..], classDefault, now)
  }

  /** `send_ping_info`: each own announcement's JSON, encoded, once, in list order.
      The peer's JSON text is given as `toJson`. */
  function SendPingInfo(own: seq<Peer>, toJson: Peer -> seq<int>): (sent: seq<seq<int>>)
    ensures |sent| == |own|
    ensures forall i :: 0 <= i < |own| ==> sent[i] == toJson(own[i])
  {
    if own == [] then [] else [toJson(own[0])] + SendPingInfo(own[1..], toJson)
  }

  /** A remote agent that hears every ping of an agent with several
      announcements files them all under one uuid: one table entry. */
  lemma OwnAnnouncementsCollapse(announcements: seq<SA.Announcement>, classDefault: Uuid, created: int, arrivals: seq<int>, window: int)
    requires |arrivals| == |announcements|
    ensures var own := CreatePeers(announcements, classDefault, created);
      var pings := seq(|own|, i requires 0 <= i < |own| => (Parsed(own[i]), arrivals[i]));
      |ReceivePings([], pings, window)| <= 1
  {
    var own := CreatePeers(announcements, classDefault, created);
    var pings := seq(|own|, i requires 0 <= i < |own| => (Parsed(own[i]), arrivals[i]));
    SameUuidPingsCollapse([], pings, classDefault, window);
  }
}

=== FILE: encoding.dfy ===
/** Byte-level encodings the source relies on: `str.encode()` (UTF-8), `str(int)`
    (decimal text), `int.to_bytes()` and `int.from_bytes()` with Python's defaults. */
module Encoding {
  import opened Wrappers

  type byte = b: int | 0 <= b < 256

  /** UTF-8 encoding (RFC 3629, section 3) of one Unicode scalar value. */
  function EncodeChar(c: char): (bs: seq<byte>)
    ensures 1 <= |bs| <= 4
    ensures |bs| == 1 <==> c as int < 0x80
    ensures |bs| == 1 ==> bs[0] == c as int
    ensures |bs| > 1 ==> forall i :: 1 <= i < |bs| ==> 0x80 <= bs[i] < 0xC0
  {
    var x := c as int;
    if x < 0x80 then [x]
    else if x < 0x800 then [0xC0 + x / 0x40, 0x80 + x % 0x40]
    else if x < 0x10000 then [0xE0 + x / 0x1000, 0x80 + (x / 0x40) % 0x40, 0x80 + x % 0x40]
    else [0xF0 + x / 0x40000, 0x80 + (x / 0x1000) % 0x40, 0x80 + (x / 0x40) % 0x40, 0x80 + x % 0x40]
  }

  /** `s.encode()`: the UTF-8 bytes of `s`. */
  function Utf8Encode(s: string): (bs: seq<byte>)
    ensures |bs| >= |s|
  {
    if s == [] then [] else EncodeChar(s[0]) + Utf8Encode(s[1..])
  }

  predicate IsAscii(s: string) {
    forall i :: 0 <= i < |s| ==> s[i] as int < 0x80
  }

  /** Reads bytes that are all below 0x80 back as the characters they encode. */
  function AsciiDecode(bs: seq<byte>): (r: Option<string>)
    ensures r.Some? ==> |r.value| == |bs| && IsAscii(r.value)
  {
    if forall i :: 0 <= i < |bs| ==> bs[i] < 0x80
    then Some(seq(|bs|, i requires 0 <= i < |bs| => bs[i] as char))
    else None
  }

  /** An ASCII string encodes to one byte per character, its code point. */
  lemma {:induction false} Utf8Ascii(s: string)
    requires IsAscii(s)
    ensures |Utf8Encode(s)| == |s|
    ensures forall i :: 0 <= i < |s| ==> Utf8Encode(s)[i] == s[i] as int
  {
    if s != [] {
      assert IsAscii(s[1..]) by {
        forall i | 0 <= i < |s[1..]| ensures s[1..][i] as int < 0x80 {
          assert s[1..][i] == s[i + 1];
        }
      }
      Utf8Ascii(s[1..]);
    }
  }

  /** Decoding the UTF-8 bytes of an ASCII string gives the string back. */
  lemma AsciiRoundTrip(s: string)
    requires IsAscii(s)
    ensures AsciiDecode(Utf8Encode(s)) == Some(s)
  {
    Utf8Ascii(s);
    var bs := Utf8Encode(s);
    var t := seq(|bs|, i requires 0 <= i < |bs| => bs[i] as char);
    assert t == s;
  }

  // ---------------------------------------------------------------- decimal text

  predicate IsDigit(c: char) { '0' <= c <= '9' }

  function DigitChar(d: nat): (c: char)
    requires d < 10
    ensures IsDigit(c)
  {
    ('0' as int + d) as char
  }

  function DigitValue(c: char): (d: nat)
    requires IsDigit(c)
    ensures d < 10
  {
    c as int - '0' as int
  }

  /** `str(n)` for `n >= 0`: the shortest decimal numeral. */
  function NatToDecimal(n: nat): (s: string)
    ensures |s| >= 1
    ensures forall i :: 0 <= i < |s| ==> IsDigit(s[i])
    ensures n > 0 ==> s[0] != '0'
  {
    if n < 10 then [DigitChar(n)] else NatToDecimal(n / 10) + [DigitChar(n % 10)]
  }

  /** `str(i)` for any Python int: a minus sign before negative numbers. */
  function IntToDecimal(i: int): (s: string)
    ensures |s| >= 1
  {
    if i < 0 then "-" + NatToDecimal(-i) else NatToDecimal(i)
  }

  predicate AllDigits(s: string) {
    forall i :: 0 <= i < |s| ==> IsDigit(s[i])
  }

  /** The value of a string of decimal digits, most significant first. */
  function DecimalValue(s: string): nat
    requires AllDigits(s)
  {
    if s == [] then 0 else DecimalValue(s[..|s| - 1]) * 10 + DigitValue(s[|s| - 1])
  }

  lemma {:induction false} DecimalRoundTrip(n: nat)
    ensures DecimalValue(NatToDecimal(n)) == n
  {
    var s := NatToDecimal(n);
    if n >= 10 {
      DecimalRoundTrip(n / 10);
      assert s[..|s| - 1] == NatToDecimal(n / 10);
    }
  }

  // ---------------------------------------------------------------- hexadecimal

  /** A lowercase hexadecimal digit. */
  function HexDigit(d: nat): (c: char)
    requires d < 16
  {
    if d < 10 then ('0' as int + d) as char else ('a' as int + d - 10) as char
  }

  predicate IsHex(c: char) {
    '0' <= c <= '9' || 'a' <= c <= 'f' || 'A' <= c <= 'F'
  }

  function HexValue(c: char): (d: nat)
    requires IsHex(c)
    ensures d < 16
  {
    if c <= '9' then c as int - '0' as int
    else if c <= 'F' then c as int - 'A' as int + 10
    else c as int - 'a' as int + 10
  }

  lemma HexDigitValue(d: nat)
    requires d < 16
    ensures IsHex(HexDigit(d)) && HexValue(HexDigit(d)) == d
  {
  }

  /** `n` as exactly `width` lowercase hex digits, most significant first,
      as `uuid.UUID.hex` writes a 128-bit value with width 32. */
  function HexFixed(n: nat, width: nat): (s: string)
    requires n < Pow16(width)
    ensures |s| == width
    ensures forall i :: 0 <= i < |s| ==> IsHex(s[i]) && !('A' <= s[i] <= 'F')
  {
    if width == 0 then "" else HexFixed(n / 16, width - 1) + [HexDigit(n % 16)]
  }

  function Pow16(width: nat): (p: nat)
    ensures p >= 1
  {
    if width == 0 then 1 else 16 * Pow16(width - 1)
  }

  /** The value of a string of hex digits, most significant first. */
  function HexStringValue(s: string): nat
    requires forall i :: 0 <= i < |s| ==> IsHex(s[i])
  {
    if s == [] then 0 else HexStringValue(s[..|s| - 1]) * 16 + HexValue(s[|s| - 1])
  }

  lemma {:induction false} HexFixedRoundTrip(n: nat, width: nat)
    requires n < Pow16(width)
    ensures HexStringValue(HexFixed(n, width)) == n
  {
    if width > 0 {
      var s := HexFixed(n, width);
      HexFixedRoundTrip(n / 16, width - 1);
      assert s[..|s| - 1] == HexFixed(n / 16, width - 1);
      HexDigitValue(n % 16);
    }
  }

  // ---------------------------------------------------------------- int <-> bytes

  /** `x.to_bytes()` with Python's defaults (length 1, big-endian, unsigned):
      `None` where Python raises `OverflowError`. */
  function ToBytesDefault(x: int): (r: Option<seq<byte>>)
    ensures r.Some? <==> 0 <= x < 256
    ensures r.Some? ==> |r.value| == 1 && FromBytesBE(r.value) == x
  {
    if 0 <= x < 256 then
      assert [x as byte][..0] == [];
      Some([x])
    else None
  }

  /** `int.from_bytes(bs)`: big-endian unsigned; the empty string is 0. */
  function FromBytesBE(bs: seq<byte>): nat {
    if bs == [] then 0 else FromBytesBE(bs[..|bs| - 1]) * 256 + bs[|bs| - 1]
  }

  /** Every int `to_bytes()` accepts comes back from `from_bytes` unchanged. */
  lemma ToBytesRoundTrip(x: int)
    requires ToBytesDefault(x).Some?
    ensures FromBytesBE(ToBytesDefault(x).value) == x
  {
    var bs := ToBytesDefault(x).value;
    assert bs[..0] == [];
  }
}

=== FILE: file_helper.dfy ===
/** Reading a file in chunks: single chunks by byte offset, runs of chunks,
    and chunks by index. The file is its contents as a byte sequence; its
    size is the length of that sequence. Opening, `stat` and timestamps are
    left out. */
module FileHelper {
  import opened Wrappers
  import opened Encoding
  import opened PySeq

  /** `1024**6`: sizes are below one exbibyte. */
  const MaxFileSize: int := 0x1000_0000_0000_0000

  /** `FileMetadata`; dates are microseconds since the epoch in UTC. */
  datatype FileMetadata = FileMetadata(size: int, creationDate: int, modificationDate: int)

  datatype ChunkError =
    | OffsetPastEnd     // the explicit exception for `offset > size`
    | NegativeSeek      // `seek` to a negative position raises `OSError`
    | ChunkOutOfRange   // the explicit exception for `chunk_index >= total_chunks`
    | ZeroChunkSize     // `size / 0` raises `ZeroDivisionError`
    | SizeOutOfRange    // the size validator of `FileMetadata`
    | InvalidReadLength // `read(n)` with `n < -1` raises `ValueError`

  /** `FileMetadata(size=…, …)`: the size field is validated as `0 <= size < 1024**6`. */
  function NewMetadata(size: int, created: int, modified: int): (r: Result<FileMetadata, ChunkError>)
    ensures r.Success? <==> 0 <= size < MaxFileSize
    ensures r.Success? ==> r.value == FileMetadata(size, created, modified)
  {
    if 0 <= size < MaxFileSize then Success(FileMetadata(size, created, modified)) else Failure(SizeOutOfRange)
  }

  function Min(a: int, b: int): int {
    if a <= b then a else b
  }

  /** `file.seek(pos); file.read(n)`: `n == -1` reads to the end, any
      smaller `n` is refused before anything is read, and reading at or past
      the end gives nothing. */
  function Read(file: seq<byte>, pos: nat, n: int): (r: Result<seq<byte>, ChunkError>)
    ensures r.Failure? <==> n < -1
    ensures r.Failure? ==> r.error == InvalidReadLength
    ensures pos >= |file| && n >= -1 ==> r == Success([])
    ensures pos <= |file| && n == -1 ==> r == Success(file[pos..])
    ensures pos <= |file| && n >= 0 ==> r == Success(file[pos..Min(|file|, pos + n)])
  {
    if n < -1 then Failure(InvalidReadLength)
    else if pos >= |file| then
      assert pos == |file| && n >= 0 ==> file[pos..Min(|file|, pos + n)] == [];
      assert pos == |file| ==> file[pos..] == [];
      Success([])
    else if n == -1 then Success(file[pos..])
    else Success(file[pos..Min(|file|, pos + n)])
  }

  /** `get_chunk(offset, chunk_size)`. */
  function GetChunk(file: seq<byte>, offset: int, chunkSize: int): (r: Result<seq<byte>, ChunkError>)
    ensures r == Failure(OffsetPastEnd) <==> offset > |file|
    ensures r == Failure(NegativeSeek) <==> offset < 0
    ensures 0 <= offset <= |file| && chunkSize >= 0 ==>
      r == Success(file[offset..Min(|file|, offset + chunkSize)])
    ensures 0 <= offset <= |file| && chunkSize == -1 ==> r == Success(file[offset..])
    ensures r == Failure(InvalidReadLength) <==> 0 <= offset <= |file| && chunkSize < -1
    ensures offset == |file| && chunkSize >= -1 ==> r == Success([])
  {
    if offset > |file| then Failure(OffsetPastEnd)
    else if offset < 0 then Failure(NegativeSeek)
    else Read(file, offset, chunkSize)
  }

  lemma MulMonotone(i: int, j: int, c: int)
    requires i <= j && c >= 0
    ensures i * c <= j * c
  {
    assert j * c - i * c == (j - i) * c;
  }

  /** The bytes of a list of chunks, one after another. */
  function Concat(chunks: seq<seq<byte>>): seq<byte> {
    if chunks == [] then [] else chunks[0] + Concat(chunks[1..])
  }

  /** `chunks` are consecutive pieces of the file starting at byte `pos`: each
      starts inside the file (or at its end) and runs for `chunk_size` bytes or
      up to the end. */
  predicate IsRun(file: seq<byte>, pos: int, chunkSize: int, chunks: seq<seq<byte>>)
    requires chunkSize >= 0
    decreases |chunks|
  {
    chunks == [] ||
    (0 <= pos <= |file| && chunks[0] == file[pos..Min(|file|, pos + chunkSize)] &&
     IsRun(file, pos + chunkSize, chunkSize, chunks[1..]))
  }

  /** Where a run of `k` chunks from `pos` ends. */
  function RunEnd(pos: int, chunkSize: int, k: nat): int
    decreases k
  {
    if k == 0 then pos else RunEnd(pos + chunkSize, chunkSize, k - 1)
  }

  lemma {:induction false} RunEndValue(pos: int, chunkSize: int, k: nat)
    ensures RunEnd(pos, chunkSize, k) == pos + k * chunkSize
    decreases k
  {
    if k > 0 {
      RunEndValue(pos + chunkSize, chunkSize, k - 1);
      assert (k - 1) * chunkSize + chunkSize == k * chunkSize;
    }
  }

  lemma {:induction false} IsRunAppend(file: seq<byte>, pos: int, chunkSize: int, chunks: seq<seq<byte>>, next: seq<byte>)
    requires chunkSize >= 0 && 0 <= pos
    requires IsRun(file, pos, chunkSize, chunks)
    requires var e := RunEnd(pos, chunkSize, |chunks|);
      0 <= e <= |file| && next == file[e..Min(|file|, e + chunkSize)]
    ensures IsRun(file, pos, chunkSize, chunks + [next])
    decreases |chunks|
  {
    if chunks == [] {
      assert [] + [next] == [next];
    } else {
      assert (chunks + [next])[1..] == chunks[1..] + [next];
      IsRunAppend(file, pos + chunkSize, chunkSize, chunks[1..], next);
    }
  }

  lemma {:induction false} RunEndAtLeast(pos: int, chunkSize: int, k: nat)
    requires chunkSize >= 0
    ensures RunEnd(pos, chunkSize, k) >= pos
    decreases k
  {
    if k > 0 {
      RunEndAtLeast(pos + chunkSize, chunkSize, k - 1);
    }
  }

  /** Chunk `i` of a run from `pos` starts at byte `pos + i*chunk_size`. */
  lemma {:induction false} IsRunIndex(file: seq<byte>, pos: int, chunkSize: int, chunks: seq<seq<byte>>)
    requires chunkSize >= 0 && IsRun(file, pos, chunkSize, chunks)
    ensures forall i :: 0 <= i < |chunks| ==> (
      && 0 <= pos + i * chunkSize <= |file|
      && chunks[i] == file[pos + i * chunkSize..Min(|file|, pos + i * chunkSize + chunkSize)])
  {
    forall i | 0 <= i < |chunks|
      ensures 0 <= pos + i * chunkSize <= |file|
      ensures chunks[i] == file[pos + i * chunkSize..Min(|file|, pos + i * chunkSize + chunkSize)]
    {
      IsRunAt(file, pos, chunkSize, chunks, i);
    }
  }

  /** One chunk of a run, found by walking `i` steps along it. */
  lemma {:induction false} IsRunAt(file: seq<byte>, pos: int, chunkSize: int, chunks: seq<seq<byte>>, i: nat)
    requires chunkSize >= 0 && IsRun(file, pos, chunkSize, chunks) && i < |chunks|
    ensures 0 <= pos + i * chunkSize <= |file|
    ensures chunks[i] == file[pos + i * chunkSize..Min(|file|, pos + i * chunkSize + chunkSize)]
    decreases i
  {
    if i > 0 {
      IsRunAt(file, pos + chunkSize, chunkSize, chunks[1..], i - 1);
      assert pos + i * chunkSize == pos + chunkSize + (i - 1) * chunkSize;
      assert chunks[i] == chunks[1..][i - 1];
    }
  }

  /** A run's chunks together are the file from its start to its end (or the file's end). */
  lemma {:induction false} IsRunConcat(file: seq<byte>, pos: int, chunkSize: int, chunks: seq<seq<byte>>)
    requires chunkSize >= 0 && 0 <= pos <= |file| && IsRun(file, pos, chunkSize, chunks)
    ensures RunEnd(pos, chunkSize, |chunks|) >= pos
    ensures Concat(chunks) == file[pos..Min(|file|, RunEnd(pos, chunkSize, |chunks|))]
    decreases |chunks|
  {
    if chunks != [] {
      var rest := chunks[1..];
      assert Concat(chunks) == chunks[0] + Concat(rest);
      assert RunEnd(pos, chunkSize, |chunks|) == RunEnd(pos + chunkSize, chunkSize, |rest|);
      RunEndAtLeast(pos, chunkSize, |chunks|);
      if rest != [] {
        IsRunConcat(file, pos + chunkSize, chunkSize, rest);
        assert chunks[0] == file[pos..pos + chunkSize];
      } else {
        assert Concat(rest) == [];
      }
    }
  }

  /** A chunk cut from the bytes read in one go is the same chunk of the file. */
  lemma FragmentSlice(file: seq<byte>, offset: int, whole: int, a: int, b: int)
    requires 0 <= offset && 0 <= a <= b <= whole
    requires offset + a <= |file|
    ensures Slice(Read(file, offset, whole).value, a, b) == file[offset + a..Min(|file|, offset + b)]
  {
    var m := Min(|file|, offset + whole);
    var fragment := Read(file, offset, whole).value;
    assert fragment == file[offset..m];
    if b <= |fragment| {
      SliceInRange(fragment, a, b);
      SliceOfSlice(file, offset, m, a, b);
    } else {
      SliceClamped(fragment, a, b);
      SliceOfSlice(file, offset, m, a, m - offset);
    }
  }

  lemma SliceOfSlice(s: seq<byte>, i: int, j: int, a: int, b: int)
    requires 0 <= i <= j <= |s| && 0 <= a <= b <= j - i
    ensures s[i..j][a..b] == s[i + a..i + b]
  {
    assert forall k :: 0 <= k < b - a ==> s[i..j][a..b][k] == s[i + a + k];
  }

  /** `get_chunks(offset, chunk_size, n_chunks)`. For a non-negative chunk
      size the chunks form a run from `offset`: chunk `i` is the file from
      byte `offset + i*chunk_size` for `chunk_size` bytes or up to the end,
      and together they are the file from `offset` to
      `offset + n_chunks*chunk_size` or the end. The loop stops only once a
      chunk would start past the end, so a run that reaches the end exactly
      carries a trailing empty chunk. The bytes are read in one go, so a
      product `n_chunks*chunk_size` below -1 is refused by `read`; every other
      offset inside the file succeeds. */
  method GetChunks(file: seq<byte>, offset: int, chunkSize: int, nChunks: int) returns (r: Result<seq<seq<byte>>, ChunkError>)
    ensures r == Failure(OffsetPastEnd) <==> offset > |file|
    ensures r == Failure(NegativeSeek) <==> offset < 0
    ensures r == Failure(InvalidReadLength) <==> 0 <= offset <= |file| && nChunks * chunkSize < -1
    ensures r.Success? <==> 0 <= offset <= |file| && nChunks * chunkSize >= -1
    ensures r.Success? ==> ChunksOk(file, offset, chunkSize, nChunks, r.value)
  {
    if offset > |file| {
      return Failure(OffsetPastEnd);
    }
    if offset < 0 {
      return Failure(NegativeSeek);
    }
    var read := Read(file, offset, nChunks * chunkSize);
    if read.Failure? {
      return Failure(read.error);
    }
    var fragment := read.value;
    var fragments: seq<seq<byte>> := [];
    var i := 0;
    while i < nChunks
      invariant 0 <= i && (nChunks >= 0 ==> i <= nChunks) && (nChunks < 0 ==> i == 0)
      invariant |fragments| == i
      invariant chunkSize >= 0 ==> IsRun(file, offset, chunkSize, fragments)
      invariant chunkSize > 0 && i > 0 ==> RunEnd(offset, chunkSize, i - 1) <= |file|
    {
      if offset + i * chunkSize > |file| {
        break;
      }
      var chunk := Slice(fragment, i * chunkSize, (i + 1) * chunkSize);
      if chunkSize >= 0 {
        LoopStep(file, offset, chunkSize, nChunks, fragments);
      }
      RunEndValue(offset, chunkSize, i);
      fragments := fragments + [chunk];
      i := i + 1;
    }
    if chunkSize > 0 && i > 0 {
      RunEndValue(offset, chunkSize, i - 1);
    }
    LoopExit(file, offset, chunkSize, nChunks, fragments);
    return Success(fragments);
  }

  /** One pass of the loop in `get_chunks`: the chunk cut from the bytes read
      in one go extends the run. */
  lemma LoopStep(file: seq<byte>, offset: int, chunkSize: int, n: int, chunks: seq<seq<byte>>)
    requires 0 <= offset <= |file| && chunkSize >= 0 && |chunks| < n
    requires IsRun(file, offset, chunkSize, chunks)
    requires offset + |chunks| * chunkSize <= |file|
    ensures IsRun(file, offset, chunkSize, chunks +
      [Slice(Read(file, offset, n * chunkSize).value, |chunks| * chunkSize, (|chunks| + 1) * chunkSize)])
  {
    var i := |chunks|;
    var a, b, w := i * chunkSize, (i + 1) * chunkSize, n * chunkSize;
    assert b == a + chunkSize;
    assert b <= w by { MulMonotone(i + 1, n, chunkSize); }
    RunEndValue(offset, chunkSize, i);
    assert 0 <= a by { MulMonotone(0, i, chunkSize); }
    FragmentSlice(file, offset, w, a, b);
    assert offset + b == offset + a + chunkSize;
    IsRunAppend(file, offset, chunkSize, chunks, Slice(Read(file, offset, w).value, a, b));
  }

  /** What `get_chunks` returns, for an offset inside the file. */
  ghost predicate ChunksOk(file: seq<byte>, offset: int, chunkSize: int, nChunks: int, chunks: seq<seq<byte>>) {
    && |chunks| <= (if nChunks < 0 then 0 else nChunks)
    && (chunkSize <= 0 ==> |chunks| == (if nChunks < 0 then 0 else nChunks))
    && (chunkSize > 0 && nChunks > 0 ==> |chunks| == Min(nChunks, (|file| - offset) / chunkSize + 1))
    && (chunkSize >= 0 ==> IsRun(file, offset, chunkSize, chunks))
    && (chunkSize >= 0 ==> forall i :: 0 <= i < |chunks| ==> (
      && 0 <= offset + i * chunkSize <= |file|
      && chunks[i] == file[offset + i * chunkSize..Min(|file|, offset + i * chunkSize + chunkSize)]))
    && (chunkSize >= 0 && nChunks >= 0 && 0 <= offset <= |file| ==>
      Concat(chunks) == file[offset..Min(|file|, offset + nChunks * chunkSize)])
  }

  /** The facts the loop of `get_chunks` leaves behind give its result. */
  lemma LoopExit(file: seq<byte>, offset: int, chunkSize: int, n: int, chunks: seq<seq<byte>>)
    requires 0 <= offset <= |file|
    requires |chunks| <= (if n < 0 then 0 else n)
    requires chunkSize >= 0 ==> IsRun(file, offset, chunkSize, chunks)
    requires |chunks| < n ==> offset + |chunks| * chunkSize > |file|
    requires chunkSize > 0 && |chunks| > 0 ==> offset + (|chunks| - 1) * chunkSize <= |file|
    ensures ChunksOk(file, offset, chunkSize, n, chunks)
  {
    LoopExitCount(file, offset, chunkSize, n, |chunks|);
    if chunkSize >= 0 {
      IsRunIndex(file, offset, chunkSize, chunks);
      if n >= 0 {
        LoopExitConcat(file, offset, chunkSize, n, chunks);
      }
    }
  }

  /** The number of chunks the loop of `get_chunks` leaves behind. */
  lemma LoopExitCount(file: seq<byte>, offset: int, chunkSize: int, n: int, i: nat)
    requires 0 <= offset <= |file|
    requires i <= (if n < 0 then 0 else n)
    requires i < n ==> offset + i * chunkSize > |file|
    requires chunkSize > 0 && i > 0 ==> offset + (i - 1) * chunkSize <= |file|
    ensures chunkSize <= 0 ==> i == (if n < 0 then 0 else n)
    ensures chunkSize > 0 && n > 0 ==> i == Min(n, (|file| - offset) / chunkSize + 1)
  {
    if chunkSize <= 0 {
      // No chunk can start past the end, so the loop ran to completion.
      MulMonotone(0, i, -chunkSize);
    }
    if chunkSize > 0 && n > 0 {
      ChunkCount(|file| - offset, chunkSize, n, i);
    }
  }

  lemma LoopExitConcat(file: seq<byte>, offset: int, chunkSize: int, n: int, chunks: seq<seq<byte>>)
    requires 0 <= offset <= |file| && chunkSize >= 0 && 0 <= |chunks| <= n
    requires IsRun(file, offset, chunkSize, chunks)
    requires |chunks| < n ==> offset + |chunks| * chunkSize > |file|
    ensures Concat(chunks) == file[offset..Min(|file|, offset + n * chunkSize)]
  {
    var i := |chunks|;
    IsRunConcat(file, offset, chunkSize, chunks);
    RunEndValue(offset, chunkSize, i);
    if i < n {
      MulMonotone(i, n, chunkSize);
      assert Min(|file|, offset + n * chunkSize) == |file| == Min(|file|, RunEnd(offset, chunkSize, i));
    }
  }

  /** No chunk of a run is longer than the chunk size, and one is empty
      exactly when it starts at the end of the file (or the size is zero). */
  lemma RunChunkSizes(file: seq<byte>, pos: int, chunkSize: int, chunks: seq<seq<byte>>)
    requires chunkSize >= 0 && IsRun(file, pos, chunkSize, chunks)
    ensures forall i :: 0 <= i < |chunks| ==> (
      && |chunks[i]| <= chunkSize
      && (chunks[i] == [] <==> pos + i * chunkSize == |file| || chunkSize == 0))
  {
    IsRunIndex(file, pos, chunkSize, chunks);
  }

  /** The loop of `get_chunks` runs `min(n, rest / chunk_size + 1)` times. */
  lemma ChunkCount(rest: int, chunkSize: int, n: int, i: int)
    requires rest >= 0 && chunkSize > 0 && 0 < n && 0 <= i <= n
    requires (i - 1) * chunkSize <= rest
    requires i < n ==> i * chunkSize > rest
    ensures i == Min(n, rest / chunkSize + 1)
  {
    var q := rest / chunkSize;
    assert q * chunkSize <= rest < (q + 1) * chunkSize;
    if i < n {
      if i <= q { MulMonotone(i, q, chunkSize); }
      if i - 1 > q { MulMonotone(q + 1, i - 1, chunkSize); }
    } else if q + 1 < n {
      MulMonotone(q + 1, i - 1, chunkSize);
    }
  }

  /** Python's `a // b` for `b != 0`: the quotient rounded towards minus infinity. */
  function FloorDiv(a: int, b: int): (q: int)
    requires b != 0
    ensures b > 0 ==> q * b <= a < (q + 1) * b
    ensures b < 0 ==> (q + 1) * b < a <= q * b
  {
    if b > 0 then a / b else (-a) / (-b)
  }

  /** `math.ceil(a / b)` on exact rationals. */
  function CeilDiv(a: int, b: int): (q: int)
    requires b != 0
    ensures b > 0 ==> (q - 1) * b < a <= q * b
    ensures b < 0 ==> q * b <= a < (q - 1) * b
  {
    -FloorDiv(-a, b)
  }

  /** `get_index_chunk(chunk_size, chunk_index)`: the number of chunks is
      `ceil(size / chunk_size)`; an index at or past it raises, and otherwise
      the chunk starts at byte `chunk_size * chunk_index`. A negative chunk
      size leaves only negative indices, which start past the end: `read`
      refuses a size below -1 and reads nothing for -1. */
  function GetIndexChunk(file: seq<byte>, chunkSize: int, index: int): (r: Result<seq<byte>, ChunkError>)
    ensures chunkSize == 0 <==> r == Failure(ZeroChunkSize)
    ensures chunkSize != 0 ==> (r == Failure(ChunkOutOfRange) <==> index >= CeilDiv(|file|, chunkSize))
    ensures chunkSize > 0 && index < 0 ==> r == Failure(NegativeSeek)
    ensures chunkSize > 0 && |file| == 0 ==> r.Failure?
    ensures chunkSize < -1 && index < CeilDiv(|file|, chunkSize) ==> r == Failure(InvalidReadLength)
    ensures chunkSize == -1 && index < CeilDiv(|file|, chunkSize) ==> r == Success([])
    ensures chunkSize > 0 && r.Success? ==> (
      && 0 <= chunkSize * index < |file|
      && r.value == file[chunkSize * index..Min(|file|, chunkSize * index + chunkSize)]
      && 0 < |r.value| <= chunkSize)
  {
    if chunkSize == 0 then Failure(ZeroChunkSize)
    else
      var total := CeilDiv(|file|, chunkSize);
      if index >= total then Failure(ChunkOutOfRange)
      else
        var pos := chunkSize * index;
        if pos < 0 then Failure(NegativeSeek)
        else
          assert chunkSize > 0 ==> pos < |file| by {
            if chunkSize > 0 { MulMonotone(index, total - 1, chunkSize); }
          }
          assert chunkSize == -1 ==> pos >= |file|;
          Read(file, pos, chunkSize)
  }

  /** Every chunk but the last is full: with a positive chunk size, an index
      below `ceil(size / chunk_size) - 1` yields exactly `chunk_size` bytes. */
  lemma OnlyLastChunkShort(file: seq<byte>, chunkSize: int, index: int)
    requires chunkSize > 0 && 0 <= index < CeilDiv(|file|, chunkSize) - 1
    ensures GetIndexChunk(file, chunkSize, index).Success?
    ensures |GetIndexChunk(file, chunkSize, index).value| == chunkSize
  {
    var total := CeilDiv(|file|, chunkSize);
    MulMonotone(index + 1, total - 1, chunkSize);
    assert chunkSize * index + chunkSize == (index + 1) * chunkSize;
  }

  /** A chunk by index is the chunk read by offset at `chunk_size * index`,
      which is chunk `index` of a run from the start of the file. */
  lemma IndexChunkIsOffsetChunk(file: seq<byte>, chunkSize: int, index: int)
    requires chunkSize > 0 && 0 <= index < CeilDiv(|file|, chunkSize)
    ensures GetIndexChunk(file, chunkSize, index) == GetChunk(file, chunkSize * index, chunkSize)
    ensures GetIndexChunk(file, chunkSize, index).Success?
  {
  }
}

=== FILE: mounts.dfy ===
/** The mount descriptions handed to the container engine: a bind mount of a
    host path onto a container path, writable, with the private SELinux
    label. The directory creation that precedes it is not part of this model. */
module PodmanActions {
  import opened OrderedDict

  datatype Mount = Mount(kind: string, readOnly: bool, relabel: string, source: string, target: string)

  /** The shared default template, copied for each entry. */
  predicate IsBindMount(m: Mount) {
    m.kind == "bind" && !m.readOnly && m.relabel == "Z"
  }

  function BindMount(source: string, target: string): (m: Mount)
    ensures IsBindMount(m) && m.source == source && m.target == target
  {
    Mount("bind", false, "Z", source, target)
  }

  /** `get_mounts`: the keys are container paths and the values host paths;
      one mount per entry, in the dictionary's order. */
  function GetMounts(bindings: Dict<string, string>): (r: seq<Mount>)
    ensures |r| == |bindings|
    ensures forall i :: 0 <= i < |r| ==> (IsBindMount(r[i]) &&
      r[i].source == bindings[i].1 && r[i].target == bindings[i].0)
  {
    if bindings == [] then []
    else [BindMount(bindings[0].1, bindings[0].0)] + GetMounts(bindings[1..])
  }

  /** `transform_bindings`: pairs of host and container path, one mount per
      pair, in order. */
  function TransformBindings(bindings: seq<(string, string)>): (r: seq<Mount>)
    ensures |r| == |bindings|
    ensures forall i :: 0 <= i < |r| ==> (IsBindMount(r[i]) &&
      r[i].source == bindings[i].0 && r[i].target == bindings[i].1)
  {
    if bindings == [] then []
    else [BindMount(bindings[0].0, bindings[0].1)] + TransformBindings(bindings[1..])
  }

  function Swap(d: Dict<string, string>): (r: seq<(string, string)>)
    ensures |r| == |d| && forall i :: 0 <= i < |r| ==> r[i] == (d[i].1, d[i].0)
  {
    if d == [] then [] else [(d[0].1, d[0].0)] + Swap(d[1..])
  }

  /** The two take their pairs in opposite orders and agree otherwise. */
  lemma {:induction false} GetMountsIsSwappedTransform(bindings: Dict<string, string>)
    ensures GetMounts(bindings) == TransformBindings(Swap(bindings))
  {
    if bindings != [] {
      GetMountsIsSwappedTransform(bindings[1..]);
      assert Swap(bindings)[1..] == Swap(bindings[1..]);
    }
  }

  /** The mounts of two dictionaries' entries, one after the other: each
      mount depends on its own entry only. */
  lemma {:induction false} GetMountsAppend(d1: Dict<string, string>, d2: Dict<string, string>)
    ensures GetMounts(d1 + d2) == GetMounts(d1) + GetMounts(d2)
  {
    if d1 != [] {
      assert (d1 + d2)[1..] == d1[1..] + d2;
      GetMountsAppend(d1[1..], d2);
    } else {
      assert d1 + d2 == d2;
    }
  }
}

=== FILE: path_grammar.dfy ===
/** The path and binding grammar of the container tooling. A path is an
    optional `.` or `~` followed by one or more segments, each a `/` and a
    non-empty run of characters other than `/` and `\`. A binding is a host
    path, a `:` and a container path. Since segments may contain `:`, a
    binding can split in several places; the regular-expression engine
    backtracks from the longest host path, so the match takes the last split
    at which both sides are paths. */
module PathGrammar {
  import opened Wrappers

  predicate SegmentChar(c: char) {
    c != '/' && c != '\\'
  }

  /** One or more segments. */
  predicate IsSegments(s: string)
    decreases |s|, 1
  {
    |s| >= 2 && s[0] == '/' && SegmentTail(s[1..])
  }

  /** The rest of a segment's run, then possibly further segments. */
  predicate SegmentTail(t: string)
    decreases |t|, 0
  {
    |t| >= 1 && SegmentChar(t[0]) &&
    (|t| == 1 || (if t[1] == '/' then IsSegments(t[1..]) else SegmentTail(t[1..])))
  }

  /** `[\.~]?(/[^/\\]+)+`. */
  predicate IsPath(s: string) {
    IsSegments(s) || (|s| >= 1 && (s[0] == '.' || s[0] == '~') && IsSegments(s[1..]))
  }

  /** The shape of a run of segments, stated without recursion: it starts with
      `/`, does not end with `/`, has no `\` and no two `/` in a row. */
  predicate SegmentsShape(s: string) {
    && |s| >= 2 && s[0] == '/' && s[|s| - 1] != '/'
    && (forall i :: 0 <= i < |s| ==> s[i] != '\\')
    && (forall i :: 0 <= i < |s| - 1 ==> !(s[i] == '/' && s[i + 1] == '/'))
  }

  predicate TailShape(t: string) {
    && |t| >= 1 && t[0] != '/' && t[|t| - 1] != '/'
    && (forall i :: 0 <= i < |t| ==> t[i] != '\\')
    && (forall i :: 0 <= i < |t| - 1 ==> !(t[i] == '/' && t[i + 1] == '/'))
  }

  lemma {:induction false} SegmentsIffShape(s: string)
    ensures IsSegments(s) <==> SegmentsShape(s)
    decreases |s|, 1
  {
    if |s| >= 2 && s[0] == '/' {
      TailIffShape(s[1..]);
      assert forall i :: 1 <= i < |s| ==> s[i] == s[1..][i - 1];
    }
  }

  lemma {:induction false} TailIffShape(t: string)
    ensures SegmentTail(t) <==> TailShape(t)
    decreases |t|, 0
  {
    if |t| >= 2 && SegmentChar(t[0]) {
      assert forall i :: 1 <= i < |t| ==> t[i] == t[1..][i - 1];
      if t[1] == '/' {
        SegmentsIffShape(t[1..]);
      } else {
        TailIffShape(t[1..]);
      }
    }
  }

  /** The path grammar without recursion: an optional `.` or `~`, then a run of
      segments of the shape above. Relative and empty paths are rejected. */
  lemma PathIffShape(s: string)
    ensures IsPath(s) <==> (SegmentsShape(s) || (|s| >= 1 && (s[0] == '.' || s[0] == '~') && SegmentsShape(s[1..])))
    ensures IsPath(s) ==> |s| >= 2 && (s[0] == '/' || s[1] == '/')
    ensures !IsPath("")
  {
    SegmentsIffShape(s);
    if |s| >= 1 {
      SegmentsIffShape(s[1..]);
    }
  }

  /** A single segment `/w`. */
  lemma OneSegment(w: string)
    requires SegmentWord(w)
    ensures IsSegments("/" + w)
  {
    var s := "/" + w;
    assert forall i :: 1 <= i < |s| ==> s[i] == w[i - 1];
    SegmentsIffShape(s);
  }

  /** Runs of segments concatenate. */
  lemma SegmentsConcat(a: string, b: string)
    requires IsSegments(a) && IsSegments(b)
    ensures IsSegments(a + b)
  {
    SegmentsIffShape(a);
    SegmentsIffShape(b);
    var s := a + b;
    assert forall i :: |a| <= i < |s| ==> s[i] == b[i - |a|];
    SegmentsIffShape(s);
  }

  /** A run of segments behind `.` or `~` is a path. */
  lemma MarkedPath(m: char, s: string)
    requires (m == '.' || m == '~') && IsSegments(s)
    ensures IsPath([m] + s)
  {
    assert ([m] + s)[1..] == s;
  }

  /** A segment's text: non-empty, without `/` or `\\`. */
  predicate SegmentWord(w: string) {
    |w| >= 1 && forall i :: 0 <= i < |w| ==> SegmentChar(w[i])
  }

  /** `w` has no `x` anywhere. */
  predicate Lacks(w: string, x: char) {
    forall i :: 0 <= i < |w| ==> w[i] != x
  }

  /** `/w1/w2…/wn`. */
  function Join(words: seq<string>): string {
    if words == [] then "" else "/" + words[0] + Join(words[1..])
  }

  /** Segment words joined by `/` form a run of segments. */
  lemma {:induction false} JoinSegments(words: seq<string>)
    requires |words| >= 1 && forall i :: 0 <= i < |words| ==> SegmentWord(words[i])
    ensures IsSegments(Join(words))
  {
    OneSegment(words[0]);
    if |words| > 1 {
      JoinSegments(words[1..]);
      SegmentsConcat("/" + words[0], Join(words[1..]));
      assert Join(words) == ("/" + words[0]) + Join(words[1..]);
    } else {
      assert Join(words) == "/" + words[0] + "";
      assert "/" + words[0] + "" == "/" + words[0];
    }
  }

  /** The same behind `.` or `~`. */
  lemma JoinedPath(m: char, words: seq<string>)
    requires m == '.' || m == '~'
    requires |words| >= 1 && forall i :: 0 <= i < |words| ==> SegmentWord(words[i])
    ensures IsPath([m] + Join(words))
  {
    JoinSegments(words);
    MarkedPath(m, Join(words));
  }

  /** A character other than `/` that no word contains is not in the joined text. */
  lemma {:induction false} JoinAvoids(words: seq<string>, x: char)
    requires x != '/' && forall i :: 0 <= i < |words| ==> Lacks(words[i], x)
    ensures Lacks(Join(words), x) && x !in Join(words)
  {
    if words != [] {
      JoinAvoids(words[1..], x);
      var s := Join(words);
      assert s == "/" + words[0] + Join(words[1..]);
      forall k | 0 <= k < |s| ensures s[k] != x {
        if 1 <= k < 1 + |words[0]| {
          assert s[k] == words[0][k - 1];
        } else if k > |words[0]| {
          assert s[k] == Join(words[1..])[k - 1 - |words[0]|];
        }
      }
    }
  }

  /** Joining one more word appends `/` and the word. */
  lemma {:induction false} JoinSnoc(words: seq<string>, w: string)
    ensures Join(words + [w]) == Join(words) + "/" + w
  {
    if words == [] {
      assert [] + [w] == [w];
      assert Join([w]) == "/" + w + Join([]);
    } else {
      assert (words + [w])[1..] == words[1..] + [w];
      JoinSnoc(words[1..], w);
    }
  }

  // ------------------------------------------------------------- bindings

  /** `s` splits at `e` into a host path, `:` and a container path. */
  predicate IsSplit(s: string, e: int) {
    0 <= e < |s| && s[e] == ':' && IsPath(s[..e]) && IsPath(s[e + 1..])
  }

  /** The last split below `hi`. */
  function LastSplit(s: string, hi: int): (r: Option<nat>)
    requires hi <= |s|
    ensures r.None? ==> forall e :: 0 <= e < hi ==> !IsSplit(s, e)
    ensures r.Some? ==> (r.value < hi && IsSplit(s, r.value) &&
      forall e :: r.value < e < hi ==> !IsSplit(s, e))
    decreases hi
  {
    if hi <= 0 then None
    else if IsSplit(s, hi - 1) then Some(hi - 1)
    else LastSplit(s, hi - 1)
  }

  /** `match_binding`: `re.fullmatch` of `(path):(path)`, as its groups 1 and 3. */
  function MatchBinding(s: string): (r: Option<(string, string)>)
    ensures r.None? <==> forall e :: 0 <= e < |s| ==> !IsSplit(s, e)
    ensures r.Some? ==> (
      && s == r.value.0 + ":" + r.value.1
      && IsPath(r.value.0) && IsPath(r.value.1)
      && forall e :: |r.value.0| < e < |s| ==> !IsSplit(s, e))
  {
    match LastSplit(s, |s|)
    case None => None
    case Some(e) =>
      assert s == s[..e] + ":" + s[e + 1..];
      Some((s[..e], s[e + 1..]))
  }

  /** Any host path and container path joined by `:` form a binding, and the
      host path the match reports is at least as long as the one joined. */
  lemma MatchBindingComplete(h: string, c: string)
    requires IsPath(h) && IsPath(c)
    ensures MatchBinding(h + ":" + c).Some?
    ensures |MatchBinding(h + ":" + c).value.0| >= |h|
  {
    var s := h + ":" + c;
    assert s[..|h|] == h && s[|h| + 1..] == c;
    assert IsSplit(s, |h|);
  }

  /** The match is unambiguous when the container path has no `:`: then it
      returns exactly the host and container paths joined. */
  lemma MatchBindingExact(h: string, c: string)
    requires IsPath(h) && IsPath(c)
    requires forall i :: 0 <= i < |c| ==> c[i] != ':'
    ensures MatchBinding(h + ":" + c) == Some((h, c))
  {
    var s := h + ":" + c;
    MatchBindingComplete(h, c);
    forall e | |h| < e < |s| ensures s[e] != ':' {
      assert s[e] == c[e - |h| - 1];
    }
    assert s[..|h|] == h && s[|h| + 1..] == c;
  }

  /** With a `:` inside a segment the host path takes the longest prefix:
      `/a:/b:/c` binds host `/a:/b` to container `/c`. */
  lemma LongestHostWins()
    ensures MatchBinding("/a:/b:/c") == Some(("/a:/b", "/c"))
  {
    var s := "/a:/b:/c";
    assert IsPath("/c") by { SegmentsIffShape("/c"); }
    assert IsPath("/a:/b") by { SegmentsIffShape("/a:/b"); }
    assert s[..5] == "/a:/b" && s[6..] == "/c";
    assert IsSplit(s, 5);
    forall e | 5 < e < |s| ensures !IsSplit(s, e) {
      assert s[e] != ':';
    }
    assert s == "/a:/b" + ":" + "/c";
  }

  /** Text without `:` is no binding. */
  lemma NoColonNoBinding(s: string)
    requires ':' !in s
    ensures MatchBinding(s) == None
  {
  }

  /** Text with exactly one `:` is a binding iff both sides are paths, and
      then it splits there. */
  lemma OneColonBinding(h: string, c: string)
    requires ':' !in h && ':' !in c
    ensures MatchBinding(h + ":" + c) == if IsPath(h) && IsPath(c) then Some((h, c)) else None
  {
    var s := h + ":" + c;
    assert s[..|h|] == h && s[|h| + 1..] == c;
    forall e | 0 <= e < |s| && e != |h| ensures s[e] != ':' {
      if e < |h| {
        assert s[e] == h[e];
      } else {
        assert s[e] == c[e - |h| - 1];
      }
    }
    if IsPath(h) && IsPath(c) {
      MatchBindingExact(h, c);
    }
  }

  /** A marked host and a container, each given by colon-free segment words,
      form a binding that splits at the colon between them. */
  lemma WordsBinding(m: char, hostWords: seq<string>, containerWords: seq<string>, h: string, c: string)
    requires m == '.' || m == '~'
    requires |hostWords| >= 1 && forall i :: 0 <= i < |hostWords| ==> SegmentWord(hostWords[i]) && Lacks(hostWords[i], ':')
    requires |containerWords| >= 1 &&
      forall i :: 0 <= i < |containerWords| ==> SegmentWord(containerWords[i]) && Lacks(containerWords[i], ':')
    requires h == [m] + Join(hostWords) && c == Join(containerWords)
    ensures MatchBinding(h + ":" + c) == Some((h, c))
  {
    JoinedPath(m, hostWords);
    JoinSegments(containerWords);
    JoinAvoids(hostWords, ':');
    JoinAvoids(containerWords, ':');
    OneColonBinding(h, c);
  }
}

=== FILE: pyseq.dfy ===
/** Python sequence slicing (`s[a:b]` with negative and out-of-range bounds). */
module PySeq {

  /** The position a Python slice bound `x` denotes in a sequence of length `len`:
      negative bounds count from the end, and every bound is clamped into `[0, len]`. */
  function Bound(len: nat, x: int): (r: nat)
    ensures r <= len
    ensures 0 <= x ==> r == if x <= len then x else len
    ensures x < 0 ==> r == if x + len < 0 then 0 else x + len
  {
    if x < 0 then (if x + len < 0 then 0 else x + len)
    else if x > len then len
    else x
  }

  /** `s[a:b]`: empty when the normalised bounds cross. */
  function Slice<T>(s: seq<T>, a: int, b: int): (r: seq<T>)
    ensures |r| <= |s|
  {
    var lo := Bound(|s|, a);
    var hi := Bound(|s|, b);
    if hi <= lo then [] else s[lo..hi]
  }

  /** `s[a:]`. */
  function SliceFrom<T>(s: seq<T>, a: int): (r: seq<T>)
    ensures |r| <= |s|
  {
    s[Bound(|s|, a)..]
  }

  /** For `k > 0`, `s[-k:]` is the last `min(k, |s|)` elements; `s[-0:]` is all of `s`. */
  lemma SuffixSlice<T>(s: seq<T>, k: int)
    requires k >= 0
    ensures k == 0 ==> SliceFrom(s, -k) == s
    ensures 0 < k <= |s| ==> SliceFrom(s, -k) == s[|s| - k..]
    ensures k > |s| ==> SliceFrom(s, -k) == s
  {
  }

  /** On in-range bounds with `a <= b`, the Python slice is Dafny's subsequence. */
  lemma SliceInRange<T>(s: seq<T>, a: int, b: int)
    requires 0 <= a <= b <= |s|
    ensures Slice(s, a, b) == s[a..b]
  {
  }

  /** A slice whose upper bound lies past the end stops at the end. */
  lemma SliceClamped<T>(s: seq<T>, a: int, b: int)
    requires 0 <= a <= |s| <= b
    ensures Slice(s, a, b) == s[a..]
  {
  }
}

/** A Python `dict` with its insertion order, as an association list with
    distinct keys: assignment to a present key keeps its position, a new key
    is appended, and deletion closes the gap. */
module OrderedDict {
  import opened Wrappers

  type Dict<K, V> = seq<(K, V)>

  ghost predicate UniqueKeys<K, V>(d: Dict<K, V>) {
    forall i, j :: 0 <= i < j < |d| ==> d[i].0 != d[j].0
  }

  function Keys<K, V>(d: Dict<K, V>): (ks: seq<K>)
    ensures |ks| == |d|
    ensures forall i :: 0 <= i < |d| ==> ks[i] == d[i].0
  {
    if d == [] then [] else [d[0].0] + Keys(d[1..])
  }

  function Values<K, V>(d: Dict<K, V>): (vs: seq<V>)
    ensures |vs| == |d|
    ensures forall i :: 0 <= i < |d| ==> vs[i] == d[i].1
  {
    if d == [] then [] else [d[0].1] + Values(d[1..])
  }

  predicate HasKey<K(==), V>(d: Dict<K, V>, k: K) {
    k in Keys(d)
  }

  /** `d.get(k)`: the value of the first entry with key `k`. */
  function Get<K(==), V>(d: Dict<K, V>, k: K): (r: Option<V>)
    ensures r.None? <==> !HasKey(d, k)
    ensures r.Some? ==> exists i :: 0 <= i < |d| && d[i] == (k, r.value)
  {
    if d == [] then None
    else if d[0].0 == k then Some(d[0].1)
    else Get(d[1..], k)
  }

  /** `d[k] = v`. */
  function Put<K(==), V>(d: Dict<K, V>, k: K, v: V): (r: Dict<K, V>)
    ensures HasKey(d, k) ==> |r| == |d|
    ensures !HasKey(d, k) ==> r == d + [(k, v)]
  {
    if d == [] then [(k, v)]
    else if d[0].0 == k then [(k, v)] + d[1..]
    else [d[0]] + Put(d[1..], k, v)
  }

  /** `del d[k]` when `k` is present (every entry with key `k` goes). */
  function Delete<K(==), V>(d: Dict<K, V>, k: K): (r: Dict<K, V>)
    ensures |r| <= |d|
  {
    if d == [] then []
    else if d[0].0 == k then Delete(d[1..], k)
    else [d[0]] + Delete(d[1..], k)
  }

  lemma {:induction false} PutKeepsKeys<K, V>(d: Dict<K, V>, k: K, v: V)
    requires HasKey(d, k)
    ensures Keys(Put(d, k, v)) == Keys(d)
  {
    if d[0].0 != k {
      assert Keys(d) == [d[0].0] + Keys(d[1..]);
      PutKeepsKeys(d[1..], k, v);
    }
  }

  lemma {:induction false} PutUnique<K, V>(d: Dict<K, V>, k: K, v: V)
    requires UniqueKeys(d)
    ensures UniqueKeys(Put(d, k, v))
  {
    if HasKey(d, k) {
      PutKeepsKeys(d, k, v);
      var r := Put(d, k, v);
      assert forall i :: 0 <= i < |r| ==> r[i].0 == Keys(r)[i] == Keys(d)[i] == d[i].0;
    } else {
      var r := Put(d, k, v);
      assert r == d + [(k, v)];
      forall i, j | 0 <= i < j < |r| ensures r[i].0 != r[j].0 {
        if j == |d| {
          assert d[i].0 == Keys(d)[i];
        }
      }
    }
  }

  lemma {:induction false} GetPut<K, V>(d: Dict<K, V>, k: K, v: V, k': K)
    ensures Get(Put(d, k, v), k) == Some(v)
    ensures k' != k ==> Get(Put(d, k, v), k') == Get(d, k')
  {
    if d != [] && d[0].0 != k {
      GetPut(d[1..], k, v, k');
    }
  }

  /** `d[k] = v` leaves every other key's value alone. */
  lemma PutOthers<K, V>(d: Dict<K, V>, k: K, v: V)
    ensures forall u :: u != k ==> Get(Put(d, k, v), u) == Get(d, u)
  {
    forall u | u != k ensures Get(Put(d, k, v), u) == Get(d, u) {
      GetPut(d, k, v, u);
    }
  }

  lemma {:induction false} GetDelete<K, V>(d: Dict<K, V>, k: K, k': K)
    ensures k' != k ==> Get(Delete(d, k), k') == Get(d, k')
  {
    if d != [] {
      GetDelete(d[1..], k, k');
    }
  }

  /** After `del d[k]` the key is gone. */
  lemma {:induction false} DeleteRemovesKey<K, V>(d: Dict<K, V>, k: K)
    ensures !HasKey(Delete(d, k), k)
  {
    if d != [] {
      DeleteRemovesKey(d[1..], k);
      if d[0].0 != k {
        assert Keys(Delete(d, k)) == [d[0].0] + Keys(Delete(d[1..], k));
      }
    }
  }

  /** Deleting an absent key changes nothing. */
  lemma {:induction false} DeleteAbsent<K, V>(d: Dict<K, V>, k: K)
    requires !HasKey(d, k)
    ensures Delete(d, k) == d
  {
    if d != [] {
      assert Keys(d) == [d[0].0] + Keys(d[1..]);
      DeleteAbsent(d[1..], k);
    }
  }

  /** Deletion passes over a prefix that lacks the key. */
  lemma {:induction false} DeleteAfter<K, V>(prefix: Dict<K, V>, d: Dict<K, V>, k: K)
    requires !HasKey(prefix, k)
    ensures Delete(prefix + d, k) == prefix + Delete(d, k)
  {
    if prefix == [] {
      assert [] + d == d;
      assert [] + Delete(d, k) == Delete(d, k);
    } else {
      var x := prefix[0];
      assert x.0 != k by {
        assert Keys(prefix)[0] == x.0;
      }
      assert !HasKey(prefix[1..], k) by {
        forall i | 0 <= i < |prefix[1..]| ensures Keys(prefix[1..])[i] != k {
          assert Keys(prefix[1..])[i] == Keys(prefix)[i + 1];
        }
      }
      calc {
        Delete(prefix + d, k);
        { assert (prefix + d)[0] == x; }
        [x] + Delete((prefix + d)[1..], k);
        { assert (prefix + d)[1..] == prefix[1..] + d; }
        [x] + Delete(prefix[1..] + d, k);
        { DeleteAfter(prefix[1..], d, k); }
        [x] + (prefix[1..] + Delete(d, k));
        prefix + Delete(d, k);
      }
    }
  }
}

=== FILE: registry.dfy ===
/** `Peer` and `PeerRegistry`: peers offering a service, kept per service name
    in bounded first-in-first-out lists. Time is an integer count of
    microseconds since the epoch in UTC. */
module DnsRegistry {
  import opened Wrappers
  import opened OrderedDict
  import opened PySeq
  import SA = ServiceAnnouncement

  /** A UUID4, as an opaque value. */
  type Uuid = nat

  datatype Peer = Peer(uuid: Uuid, service: SA.Announcement, expirationTime: int)

  /** The right-hand side of `peer == value`: a `Peer` or any other Python value. */
  datatype Comparand = PeerValue(peer: Peer) | OtherValue

  /** `Peer.__eq__`: peers are equal exactly when their uuids are. */
  function PeerEquals(p: Peer, v: Comparand): (r: bool)
    ensures r ==> v.PeerValue?
    ensures v.PeerValue? ==> (r <==> p.uuid == v.peer.uuid)
  {
    match v
    case PeerValue(q) => p.uuid == q.uuid
    case OtherValue => false
  }

  /** Equality ignores the service and the expiry, and is an equivalence on peers. */
  lemma PeerEqualityIsUuidEquality(p: Peer, q: Peer, r: Peer)
    ensures PeerEquals(p, PeerValue(q)) <==> p.uuid == q.uuid
    ensures !PeerEquals(p, OtherValue)
    ensures PeerEquals(p, PeerValue(p.(service := q.service, expirationTime := q.expirationTime)))
    ensures PeerEquals(p, PeerValue(q)) ==> PeerEquals(q, PeerValue(p))
    ensures PeerEquals(p, PeerValue(q)) && PeerEquals(q, PeerValue(r)) ==> PeerEquals(p, PeerValue(r))
  {
  }

  /** `Peer(service=s)` or `Peer(uuid=u, service=s)` created at `now`. Without an
      explicit uuid the peer takes `classDefault`, the one `uuid4()` evaluated
      when the class was defined; the expiry defaults to the creation time. */
  function NewPeer(service: SA.Announcement, uuid: Option<Uuid>, classDefault: Uuid, now: int): (p: Peer)
    ensures p.service == service && p.expirationTime == now
    ensures uuid.Some? ==> p.uuid == uuid.value
    ensures uuid.None? ==> p.uuid == classDefault
  {
    Peer(uuid.GetOr(classDefault), service, now)
  }

  /** All peers created without an explicit uuid compare equal to each other. */
  lemma DefaultUuidShared(s1: SA.Announcement, s2: SA.Announcement, classDefault: Uuid, t1: int, t2: int)
    ensures PeerEquals(NewPeer(s1, None, classDefault, t1), PeerValue(NewPeer(s2, None, classDefault, t2)))
  {
  }

  /** `is_expired` at time `now`: strictly after the expiry. */
  function IsExpired(p: Peer, now: int): (r: bool)
    ensures r <==> p.expirationTime < now
  {
    now > p.expirationTime
  }

  /** `update_expiration_time(t)`. */
  function UpdateExpirationTime(p: Peer, t: int): (r: Peer)
    ensures r.expirationTime == t
    ensures r.uuid == p.uuid && r.service == p.service
  {
    p.(expirationTime := t)
  }

  /** After its expiry is set to `t`, a peer is alive exactly up to and including `t`. */
  lemma ExpiryAfterUpdate(p: Peer, t: int, now: int)
    ensures IsExpired(UpdateExpirationTime(p, t), now) <==> now > t
  {
  }

  // -------------------------------------------------------------- the registry

  const DefaultMaxPeersPerService: int := 10

  datatype Registry = Registry(servicesAndPeers: Dict<string, seq<Peer>>, maxPeersPerService: int)

  datatype RegistryError =
    | MaxPeersOutOfRange  // the model validator's `0 < max < 50`
    | UnknownService      // `KeyError` in `remove_peer`
    | PeerNotListed       // `ValueError` from `list.remove`

  function ServicePeers(reg: Registry, service: string): seq<Peer> {
    Get(reg.servicesAndPeers, service).GetOr([])
  }

  /** Distinct service names, `0 < max < 50`, and no list longer than `max`. */
  ghost predicate Valid(reg: Registry) {
    && 0 < reg.maxPeersPerService < 50
    && UniqueKeys(reg.servicesAndPeers)
    && forall s :: |ServicePeers(reg, s)| <= reg.maxPeersPerService
  }

  /** `PeerRegistry(max_peers_per_service=max)` with no peers. */
  function NewRegistry(max: int): (r: Result<Registry, RegistryError>)
    ensures r.Success? <==> 0 < max < 50
    ensures r.Success? ==> Valid(r.value) && r.value.maxPeersPerService == max
    ensures r.Success? ==> forall s :: ServicePeers(r.value, s) == []
  {
    if 0 < max < 50 then Success(Registry([], max)) else Failure(MaxPeersOutOfRange)
  }

  lemma DefaultRegistryValid()
    ensures NewRegistry(DefaultMaxPeersPerService) == Success(Registry([], 10))
  {
  }

  /** The registry with `service`'s list set to `peers`. */
  function Replace(reg: Registry, service: string, peers: seq<Peer>): (r: Registry)
    ensures r.maxPeersPerService == reg.maxPeersPerService
    ensures Get(r.servicesAndPeers, service) == Some(peers)
    ensures forall s :: s != service ==> Get(r.servicesAndPeers, s) == Get(reg.servicesAndPeers, s)
  {
    var sp := Put(reg.servicesAndPeers, service, peers);
    GetPut(reg.servicesAndPeers, service, peers, service);
    forall s | s != service ensures Get(sp, s) == Get(reg.servicesAndPeers, s) {
      GetPut(reg.servicesAndPeers, service, peers, s);
    }
    Registry(sp, reg.maxPeersPerService)
  }

  lemma ReplaceKeepsValid(reg: Registry, service: string, peers: seq<Peer>)
    requires Valid(reg) && |peers| <= reg.maxPeersPerService
    ensures Valid(Replace(reg, service, peers))
  {
    PutUnique(reg.servicesAndPeers, service, peers);
    var r := Replace(reg, service, peers);
    forall s ensures |ServicePeers(r, s)| <= r.maxPeersPerService {
      if s != service {
        assert ServicePeers(r, s) == ServicePeers(reg, s);
      }
    }
  }

  /** `add_peer`: append to the peer's service list (created on first use) and,
      when the list has grown past the bound, drop its oldest entry. No
      deduplication takes place. */
  function AddPeer(reg: Registry, peer: Peer): (r: Registry)
    ensures r.maxPeersPerService == reg.maxPeersPerService
    ensures var before := ServicePeers(reg, peer.service.service);
      var grown := before + [peer];
      Get(r.servicesAndPeers, peer.service.service) ==
        Some(if |grown| > reg.maxPeersPerService then grown[1..] else grown)
    ensures forall s :: s != peer.service.service ==> Get(r.servicesAndPeers, s) == Get(reg.servicesAndPeers, s)
  {
    var key := peer.service.service;
    var grown := ServicePeers(reg, key) + [peer];
    Replace(reg, key, if |grown| > reg.maxPeersPerService then grown[1..] else grown)
  }

  /** Adding keeps every list within the bound. */
  lemma AddPeerKeepsValid(reg: Registry, peer: Peer)
    requires Valid(reg)
    ensures Valid(AddPeer(reg, peer))
  {
    var key := peer.service.service;
    var grown := ServicePeers(reg, key) + [peer];
    ReplaceKeepsValid(reg, key, if |grown| > reg.maxPeersPerService then grown[1..] else grown);
  }

  /** The list a peer lands in always ends with that peer, and grows by one
      unless it was already full. */
  lemma AddPeerAppends(reg: Registry, peer: Peer)
    requires Valid(reg)
    ensures var before := ServicePeers(reg, peer.service.service);
      var after := ServicePeers(AddPeer(reg, peer), peer.service.service);
      after[|after| - 1] == peer &&
      |after| == (if |before| < reg.maxPeersPerService then |before| + 1 else |before|)
  {
  }

  /** The index of the first entry of `peers` equal to `peer`, as `list.remove` finds it. */
  function FirstMatch(peers: seq<Peer>, peer: Peer): (r: Option<nat>)
    ensures r.None? <==> forall i :: 0 <= i < |peers| ==> !PeerEquals(peers[i], PeerValue(peer))
    ensures r.Some? ==> (
      && r.value < |peers|
      && PeerEquals(peers[r.value], PeerValue(peer))
      && forall j :: 0 <= j < r.value ==> !PeerEquals(peers[j], PeerValue(peer)))
  {
    if peers == [] then None
    else if PeerEquals(peers[0], PeerValue(peer)) then Some(0)
    else
      match FirstMatch(peers[1..], peer)
      case None => None
      case Some(i) => Some(i + 1)
  }

  /** `peers` without its first entry equal to `peer`; `None` if there is none. */
  function RemoveFirst(peers: seq<Peer>, peer: Peer): (r: Option<seq<Peer>>)
    ensures r.None? <==> forall i :: 0 <= i < |peers| ==> !PeerEquals(peers[i], PeerValue(peer))
    ensures r.Some? ==> |r.value| == |peers| - 1
    ensures r.Some? ==> exists i :: (
      && 0 <= i < |peers| && peers[i].uuid == peer.uuid
      && (forall j :: 0 <= j < i ==> peers[j].uuid != peer.uuid)
      && r.value == peers[..i] + peers[i + 1..])
  {
    match FirstMatch(peers, peer)
    case None => None
    case Some(i) => Some(peers[..i] + peers[i + 1..])
  }

  /** `remove_peer`: remove the first uuid-equal entry from the peer's service
      list. The service key stays, even when its list becomes empty. */
  function RemovePeer(reg: Registry, peer: Peer): (r: Result<Registry, RegistryError>)
    ensures !HasKey(reg.servicesAndPeers, peer.service.service) ==> r == Failure(UnknownService)
    ensures HasKey(reg.servicesAndPeers, peer.service.service) ==>
      var peers := ServicePeers(reg, peer.service.service);
      && (r == Failure(PeerNotListed) <==> RemoveFirst(peers, peer).None?)
      && (RemoveFirst(peers, peer).Some? ==> r.Success?)
      && (r.Success? ==> Get(r.value.servicesAndPeers, peer.service.service) == RemoveFirst(peers, peer))
    ensures r.Success? ==> (
      && r.value.maxPeersPerService == reg.maxPeersPerService
      && forall s :: s != peer.service.service ==> Get(r.value.servicesAndPeers, s) == Get(reg.servicesAndPeers, s))
  {
    match Get(reg.servicesAndPeers, peer.service.service)
    case None => Failure(UnknownService)
    case Some(peers) =>
      match RemoveFirst(peers, peer)
      case None => Failure(PeerNotListed)
      case Some(rest) => Success(Replace(reg, peer.service.service, rest))
  }

  /** Removing keeps every list within the bound. */
  lemma RemovePeerKeepsValid(reg: Registry, peer: Peer)
    requires Valid(reg) && RemovePeer(reg, peer).Success?
    ensures Valid(RemovePeer(reg, peer).value)
  {
    var peers := ServicePeers(reg, peer.service.service);
    ReplaceKeepsValid(reg, peer.service.service, RemoveFirst(peers, peer).value);
  }

  /** A peer just added can always be removed again, and when its list had
      room and held no uuid-equal entry, removing it gives the list back. */
  lemma AddThenRemove(reg: Registry, peer: Peer)
    requires Valid(reg)
    ensures RemovePeer(AddPeer(reg, peer), peer).Success?
    ensures var before := ServicePeers(reg, peer.service.service);
      (|before| < reg.maxPeersPerService && forall i :: 0 <= i < |before| ==> before[i].uuid != peer.uuid) ==>
      ServicePeers(RemovePeer(AddPeer(reg, peer), peer).value, peer.service.service) == before
  {
    var key := peer.service.service;
    var before := ServicePeers(reg, key);
    var after := ServicePeers(AddPeer(reg, peer), key);
    assert PeerEquals(after[|after| - 1], PeerValue(peer));
    if |before| < reg.maxPeersPerService && forall i :: 0 <= i < |before| ==> before[i].uuid != peer.uuid {
      assert after == before + [peer];
      RemoveFirstAppended(before, peer);
    }
  }

  /** Removing a peer just appended to a list without uuid-equal entries gives the list back. */
  lemma RemoveFirstAppended(before: seq<Peer>, peer: Peer)
    requires forall i :: 0 <= i < |before| ==> before[i].uuid != peer.uuid
    ensures RemoveFirst(before + [peer], peer) == Some(before)
  {
    var after := before + [peer];
    assert PeerEquals(after[|before|], PeerValue(peer));
    var i := FirstMatch(after, peer).value;
    assert i == |before|;
    assert after[..i] == before && after[i + 1..] == [];
    assert RemoveFirst(after, peer) == Some(after[..i] + after[i + 1..]);
    assert after[..i] + after[i + 1..] == before;
  }

  /** `get_peers(name, max_amount)`: `peers[-max_amount:]`. */
  function GetPeers(reg: Registry, service: string, maxAmount: int): (r: seq<Peer>)
    ensures var peers := ServicePeers(reg, service);
      && (maxAmount == 0 ==> r == peers)
      && (0 < maxAmount <= |peers| ==> r == peers[|peers| - maxAmount..])
      && (maxAmount > |peers| ==> r == peers)
      && (maxAmount < 0 ==> r == peers[if -maxAmount < |peers| then -maxAmount else |peers|..])
    ensures !HasKey(reg.servicesAndPeers, service) ==> r == []
  {
    var peers := ServicePeers(reg, service);
    if maxAmount >= 0 then
      SuffixSlice(peers, maxAmount);
      SliceFrom(peers, -maxAmount)
    else
      SliceFrom(peers, -maxAmount)
  }

  function Flatten(lists: seq<seq<Peer>>): seq<Peer> {
    if lists == [] then [] else lists[0] + Flatten(lists[1..])
  }

  function TotalLength(lists: seq<seq<Peer>>): nat {
    if lists == [] then 0 else |lists[0]| + TotalLength(lists[1..])
  }

  /** `get_all_peers`: every service's list, in dict order, one after another. */
  function GetAllPeers(reg: Registry): (r: seq<Peer>)
    ensures |r| == TotalLength(Values(reg.servicesAndPeers))
    ensures forall p :: p in r <==> exists i :: 0 <= i < |reg.servicesAndPeers| && p in reg.servicesAndPeers[i].1
    ensures var lists := Values(reg.servicesAndPeers);
      forall k :: 0 <= k < |lists| ==> (
        && TotalLength(lists[..k]) + |lists[k]| <= |r|
        && r[TotalLength(lists[..k])..TotalLength(lists[..k]) + |lists[k]|] == lists[k])
  {
    var lists := Values(reg.servicesAndPeers);
    FlattenLength(lists);
    FlattenMembers(lists);
    forall k | 0 <= k < |lists|
      ensures TotalLength(lists[..k]) + |lists[k]| <= |Flatten(lists)|
      ensures Flatten(lists)[TotalLength(lists[..k])..TotalLength(lists[..k]) + |lists[k]|] == lists[k]
    {
      FlattenBlock(lists, k);
    }
    Flatten(lists)
  }

  /** List `k` sits in the concatenation right after the lists before it. */
  lemma {:induction false} FlattenBlock(lists: seq<seq<Peer>>, k: nat)
    requires k < |lists|
    ensures TotalLength(lists[..k]) + |lists[k]| <= |Flatten(lists)|
    ensures Flatten(lists)[TotalLength(lists[..k])..TotalLength(lists[..k]) + |lists[k]|] == lists[k]
    decreases k
  {
    var rest := lists[1..];
    FlattenLength(rest);
    assert Flatten(lists) == lists[0] + Flatten(rest);
    if k == 0 {
      assert TotalLength(lists[..0]) == 0;
      assert Flatten(lists)[0..|lists[0]|] == lists[0];
    } else {
      FlattenBlock(rest, k - 1);
      assert lists[..k][1..] == rest[..k - 1];
      assert TotalLength(lists[..k]) == |lists[0]| + TotalLength(rest[..k - 1]);
      var a := TotalLength(rest[..k - 1]);
      ShiftSlice(lists[0], Flatten(rest), a, a + |rest[k - 1]|);
    }
  }

  lemma ShiftSlice(x: seq<Peer>, y: seq<Peer>, a: nat, b: nat)
    requires a <= b <= |y|
    ensures (x + y)[|x| + a..|x| + b] == y[a..b]
  {
    assert (x + y)[|x|..] == y;
    assert (x + y)[|x| + a..|x| + b] == (x + y)[|x|..][a..b];
  }

  lemma {:induction false} FlattenLength(lists: seq<seq<Peer>>)
    ensures |Flatten(lists)| == TotalLength(lists)
  {
    if lists != [] {
      FlattenLength(lists[1..]);
    }
  }

  lemma {:induction false} FlattenMembers(lists: seq<seq<Peer>>)
    ensures forall p :: p in Flatten(lists) <==> exists i :: 0 <= i < |lists| && p in lists[i]
  {
    if lists != [] {
      FlattenMembers(lists[1..]);
      forall p | p in Flatten(lists) ensures exists i :: 0 <= i < |lists| && p in lists[i] {
        assert Flatten(lists) == lists[0] + Flatten(lists[1..]);
        if p !in lists[0] {
          assert p in Flatten(lists[1..]);
          var i :| 0 <= i < |lists[1..]| && p in lists[1..][i];
          assert p in lists[i + 1];
        }
      }
      forall p, i | 0 <= i < |lists| && p in lists[i] ensures p in Flatten(lists) {
        if i > 0 {
          assert p in lists[1..][i - 1];
        }
      }
    }
  }
}

=== FILE: services.dfy ===
/** Container templates and the instances made from them. A template's
    volumes are validated bindings; an instance gets a generated name, and
    its mounts are the template's bindings with `@{name}` replaced by that
    name. */
module ServicesUtilities {
  import opened Wrappers
  import Encoding
  import Substitution
  import Validators
  import PodmanActions

  const MinBaseNameLength := 1
  const MaxBaseNameLength := 10

  datatype Template = Template(
    image: string,
    networks: seq<string>,
    ports: seq<int>,
    baseName: string,
    volumes: seq<(string, string)>)

  datatype TemplateError =
    | BaseNameLength(length: nat)
    | InvalidVolume(index: nat, error: Validators.ValidatorError)

  /** Each entry checked in order; the first failure is reported with its
      position. */
  function ValidateAll<T, U, E>(entries: seq<T>, check: T -> Result<U, E>): (r: Result<seq<U>, (nat, E)>)
    ensures r.Success? ==> (|r.value| == |entries| &&
      forall i :: 0 <= i < |entries| ==> check(entries[i]) == Success(r.value[i]))
    ensures r.Failure? ==> (
      && r.error.0 < |entries|
      && check(entries[r.error.0]) == Failure(r.error.1)
      && forall j :: 0 <= j < r.error.0 ==> check(entries[j]).Success?)
  {
    if entries == [] then Success([])
    else
      match check(entries[0])
      case Failure(e) => Failure((0, e))
      case Success(b) =>
        var rest := entries[1..];
        match ValidateAll(rest, check)
        case Failure(e) =>
          assert entries[e.0 + 1] == rest[e.0];
          assert forall j :: 1 <= j <= e.0 ==> entries[j] == rest[j - 1];
          Failure((e.0 + 1, e.1))
        case Success(bs) =>
          assert forall j :: 1 <= j < |entries| ==> entries[j] == rest[j - 1] && ([b] + bs)[j] == bs[j - 1];
          Success([b] + bs)
  }

  /** Building a `ContainerTemplate`: `networks`, `ports` and `volumes`
      default to empty lists, the base name has 1 to 10 characters, and
      every volume entry must be a valid binding. */
  function NewTemplate(
    image: string,
    networks: Option<seq<string>>,
    ports: Option<seq<int>>,
    baseName: string,
    volumes: Option<seq<Validators.Value>>,
    env: Validators.Environment): (r: Result<Template, TemplateError>)
    ensures r.Success? ==> (
      && MinBaseNameLength <= |r.value.baseName| <= MaxBaseNameLength
      && r.value.image == image && r.value.baseName == baseName
      && r.value.networks == (if networks.Some? then networks.value else [])
      && r.value.ports == (if ports.Some? then ports.value else []))
    ensures volumes.None? && r.Success? ==> r.value.volumes == []
    ensures volumes.Some? && r.Success? ==> (|r.value.volumes| == |volumes.value| &&
      forall i :: 0 <= i < |volumes.value| ==> Validators.ValidateBinding(volumes.value[i], env) == Success(r.value.volumes[i]))
    ensures volumes.Some? && r.Failure? && r.error.InvalidVolume? ==> (
      && r.error.index < |volumes.value|
      && Validators.ValidateBinding(volumes.value[r.error.index], env) == Failure(r.error.error)
      && forall j :: 0 <= j < r.error.index ==> Validators.ValidateBinding(volumes.value[j], env).Success?)
    ensures !(MinBaseNameLength <= |baseName| <= MaxBaseNameLength) ==> r == Failure(BaseNameLength(|baseName|))
    ensures MinBaseNameLength <= |baseName| <= MaxBaseNameLength && volumes.None? ==> r.Success?
    ensures MinBaseNameLength <= |baseName| <= MaxBaseNameLength ==> (
      var entries := if volumes.Some? then volumes.value else [];
      r.Success? <==> forall i :: 0 <= i < |entries| ==> Validators.ValidateBinding(entries[i], env).Success?)
    ensures r.Failure? && r.error.BaseNameLength? ==> !(MinBaseNameLength <= |baseName| <= MaxBaseNameLength)
    ensures r.Failure? && r.error.InvalidVolume? ==> volumes.Some?
  {
    if !(MinBaseNameLength <= |baseName| <= MaxBaseNameLength) then Failure(BaseNameLength(|baseName|))
    else
      var entries := if volumes.Some? then volumes.value else [];
      match ValidateAll(entries, v => Validators.ValidateBinding(v, env))
      case Failure(e) => Failure(InvalidVolume(e.0, e.1))
      case Success(bindings) =>
        Success(Template(image,
          if networks.Some? then networks.value else [],
          if ports.Some? then ports.value else [],
          baseName, bindings))
  }

  /** Two indices that are each the first failing entry are the same. */
  lemma FirstFailureUnique<T, U, E>(entries: seq<T>, check: T -> Result<U, E>, j: nat, k: nat)
    requires j < |entries| && check(entries[j]).Failure?
    requires forall i :: 0 <= i < j ==> check(entries[i]).Success?
    requires k < |entries| && check(entries[k]).Failure?
    requires forall i :: 0 <= i < k ==> check(entries[i]).Success?
    ensures j == k
  {
  }

  /** With a valid base name, the error names exactly the first volume
      entry that is no valid binding, whatever follows it. */
  lemma NewTemplateFirstInvalid(
    image: string,
    networks: Option<seq<string>>,
    ports: Option<seq<int>>,
    baseName: string,
    vs: seq<Validators.Value>,
    env: Validators.Environment,
    j: nat)
    requires MinBaseNameLength <= |baseName| <= MaxBaseNameLength
    requires j < |vs| && Validators.ValidateBinding(vs[j], env).Failure?
    requires forall i :: 0 <= i < j ==> Validators.ValidateBinding(vs[i], env).Success?
    ensures NewTemplate(image, networks, ports, baseName, Some(vs), env)
      == Failure(InvalidVolume(j, Validators.ValidateBinding(vs[j], env).error))
  {
    var r := NewTemplate(image, networks, ports, baseName, Some(vs), env);
    assert r.Failure? && r.error.InvalidVolume?;
    FirstFailureUnique(vs, v => Validators.ValidateBinding(v, env), j, r.error.index);
  }

  /** The rule of `expand_volume`: `name` is the container's name, any other
      variable stands for itself. It never fails. */
  function VolumeRule(containerName: string, variable: string): (r: Option<string>)
    ensures r.Some?
    ensures variable == "name" ==> r.value == containerName
    ensures variable != "name" ==> r.value == variable
  {
    Some(if variable == "name" then containerName else variable)
  }

  /** The volume rule as the callback handed to the substitution. */
  function VolumeRules(containerName: string): string -> Option<string> {
    v => VolumeRule(containerName, v)
  }

  /** One path with its variables expanded. */
  function ExpandPath(path: string, containerName: string): string {
    var r := Validators.ExpandVariables(path, VolumeRules(containerName));
    r.value
  }

  /** `expand_volume`: both paths of every binding expanded, count and order kept. */
  function ExpandVolume(volumes: seq<(string, string)>, containerName: string): (r: seq<(string, string)>)
    ensures |r| == |volumes|
    ensures forall i :: 0 <= i < |r| ==>
      r[i] == (ExpandPath(volumes[i].0, containerName), ExpandPath(volumes[i].1, containerName))
  {
    if volumes == [] then []
    else
      var head := (ExpandPath(volumes[0].0, containerName), ExpandPath(volumes[0].1, containerName));
      [head] + ExpandVolume(volumes[1..], containerName)
  }

  /** A path without `@{` is left alone. */
  lemma PlainPathKept(path: string, containerName: string)
    requires Substitution.NoOpener(path, '@')
    ensures ExpandPath(path, containerName) == path
  {
    Validators.ExpandVariablesFixed(path, VolumeRules(containerName));
  }

  /** `@{name}` becomes the container's name, and any other `@{v}` becomes
      the bare `v`: unknown variables are no error here. */
  lemma ReferenceExpanded(a: string, variable: string, b: string, containerName: string)
    requires '@' !in a && Substitution.IsName(variable) && Substitution.NoOpener(b, '@')
    ensures ExpandPath(a + Substitution.Reference('@', variable) + b, containerName) ==
      a + (if variable == "name" then containerName else variable) + b
  {
    var value := if variable == "name" then containerName else variable;
    Substitution.SubstituteOneReference(a, variable, b, '@', VolumeRules(containerName), value);
  }

  datatype Instance = Instance(
    name: string,
    image: string,
    networks: seq<string>,
    mounts: seq<PodmanActions.Mount>,
    ports: seq<int>)

  /** `from_template`, for the uuid `id` drawn for the instance. */
  function FromTemplate(t: Template, id: nat): (r: Instance)
    requires id < Encoding.Pow16(32)
    ensures r.name == Validators.GenerateName(t.baseName, id)
    ensures r.image == t.image && r.networks == t.networks && r.ports == t.ports
    ensures |r.mounts| == |t.volumes|
    ensures forall i :: 0 <= i < |r.mounts| ==> (
      && PodmanActions.IsBindMount(r.mounts[i])
      && r.mounts[i].source == ExpandPath(t.volumes[i].0, r.name)
      && r.mounts[i].target == ExpandPath(t.volumes[i].1, r.name))
  {
    var name := Validators.GenerateName(t.baseName, id);
    Instance(name, t.image, t.networks, PodmanActions.TransformBindings(ExpandVolume(t.volumes, name)), t.ports)
  }

  /** A template volume mentioning `@{name}` is mounted at the instance's own
      name, which starts with the base name and a `-`. */
  lemma MountNamesInstance(t: Template, id: nat, i: nat, a: string, b: string)
    requires id < Encoding.Pow16(32) && i < |t.volumes|
    requires t.volumes[i].0 == a + "@{name}" + b && '@' !in a && Substitution.NoOpener(b, '@')
    ensures FromTemplate(t, id).mounts[i].source == a + FromTemplate(t, id).name + b
    ensures FromTemplate(t, id).name[..|t.baseName| + 1] == t.baseName + "-"
  {
    var name := FromTemplate(t, id).name;
    NameReference();
    ReferenceExpanded(a, "name", b, name);
    NamePrefix(t.baseName, name);
  }

  lemma NameReference()
    ensures Substitution.IsName("name") && Substitution.Reference('@', "name") == "@{name}"
  {
  }

  /** A name made from `baseName` starts with it and a `-`. */
  lemma NamePrefix(baseName: string, name: string)
    requires |name| > |baseName| && name[..|baseName|] == baseName && name[|baseName|] == '-'
    ensures name[..|baseName| + 1] == baseName + "-"
  {
    assert name[..|baseName| + 1] == name[..|baseName|] + [name[|baseName|]];
  }
}

=== FILE: substitution.dfy ===
/** `re.sub` with the pattern `<sigil>\{([a-zA-Z_-]+\w*)\}` and a replacement
    function: the text is scanned left to right, each reference `<sigil>{NAME}`
    is replaced by the rule's value for NAME, the replacement text is not
    scanned again, and a rule that raises aborts the whole substitution.
    `\w` is taken over ASCII letters, digits and `_`, so `-` cannot follow a digit. */
module Substitution {
  import opened Wrappers

  predicate NameStart(c: char) {
    'a' <= c <= 'z' || 'A' <= c <= 'Z' || c == '_' || c == '-'
  }

  /** `[a-zA-Z_-]` or `\w`. */
  predicate NameChar(c: char) {
    NameStart(c) || '0' <= c <= '9'
  }

  /** `\w`. */
  predicate WordChar(c: char) {
    'a' <= c <= 'z' || 'A' <= c <= 'Z' || '0' <= c <= '9' || c == '_'
  }

  /** `[a-zA-Z_-]+\w*`: a run of name characters that starts with a letter,
      `_` or `-` and has no `-` after its first digit. */
  predicate IsName(n: string) {
    && |n| >= 1 && NameStart(n[0])
    && (forall i :: 0 <= i < |n| ==> NameChar(n[i]))
    && (forall i, j :: 0 <= i < j < |n| && '0' <= n[i] <= '9' ==> n[j] != '-')
  }

  /** The regular expression read literally: a non-empty `[a-zA-Z_-]` part
      followed by a `\w` part. */
  ghost predicate RegexName(n: string) {
    exists k :: SplitsAt(n, k)
  }

  /** `n[..k]` matches `[a-zA-Z_-]+` and `n[k..]` matches `\w*`. */
  predicate SplitsAt(n: string, k: int) {
    1 <= k <= |n| && (forall i :: 0 <= i < k ==> NameStart(n[i])) &&
      (forall i :: k <= i < |n| ==> WordChar(n[i]))
  }

  /** The index of the first digit, or the length when there is none. */
  function FirstDigit(n: string): (k: nat)
    ensures k <= |n|
    ensures forall i :: 0 <= i < k ==> !('0' <= n[i] <= '9')
    ensures k < |n| ==> '0' <= n[k] <= '9'
  {
    if n == [] || '0' <= n[0] <= '9' then 0 else 1 + FirstDigit(n[1..])
  }

  /** The name grammar and the regular expression accept the same texts. */
  lemma IsNameIffRegexName(n: string)
    ensures IsName(n) <==> RegexName(n)
  {
    if IsName(n) {
      var k := FirstDigit(n);
      forall i | k < i < |n|
        ensures WordChar(n[i])
      {
        assert n[i] != '-';
      }
      assert SplitsAt(n, k);
    }
  }

  /** A `-` after a digit ends the regular expression's match: such a run is no name. */
  lemma DashAfterDigitNoName()
    ensures !IsName("a1-b") && IsName("a-1b")
  {
    var bad := "a1-b";
    assert '0' <= bad[1] <= '9' && bad[2] == '-';
  }

  /** The text of a reference. */
  function Reference(sigil: char, name: string): string {
    [sigil, '{'] + name + "}"
  }

  /** The length of the longest run of name characters at the start of `t`. */
  function NameRun(t: string): (n: nat)
    ensures n <= |t|
    ensures forall i :: 0 <= i < n ==> NameChar(t[i])
    ensures n < |t| ==> !NameChar(t[n])
  {
    if t == [] || !NameChar(t[0]) then 0 else 1 + NameRun(t[1..])
  }

  /** The reference that starts `s`, if one does. */
  function MatchAt(s: string, sigil: char): (r: Option<string>)
    ensures r.Some? ==> (IsName(r.value) && |Reference(sigil, r.value)| <= |s| &&
      s[..|Reference(sigil, r.value)|] == Reference(sigil, r.value))
  {
    if |s| >= 3 && s[0] == sigil && s[1] == '{' then
      // `}` is no name character, so the group can only be the whole run
      var n := NameRun(s[2..]);
      if 2 + n < |s| && s[2 + n] == '}' && IsName(s[2..2 + n]) then
        assert s[..n + 3] == [sigil, '{'] + s[2..2 + n] + "}";
        Some(s[2..2 + n])
      else None
    else None
  }

  /** A reference at the start of the text is always found, with its name:
      names cannot contain `}`, so the match is unique. */
  lemma MatchAtComplete(sigil: char, name: string, rest: string)
    requires IsName(name)
    ensures MatchAt(Reference(sigil, name) + rest, sigil) == Some(name)
  {
    var s := Reference(sigil, name) + rest;
    assert s[2..][..|name|] == name;
    assert s[2 + |name|] == '}';
    NameRunOf(name, s[2..]);
    assert s[2..2 + |name|] == name;
  }

  lemma NameRunOf(name: string, t: string)
    requires |name| < |t| && t[..|name|] == name && !NameChar(t[|name|])
    requires forall i :: 0 <= i < |name| ==> NameChar(name[i])
    ensures NameRun(t) == |name|
  {
    assert forall i :: 0 <= i < |name| ==> t[i] == name[i];
  }

  datatype Token = Lit(c: char) | Var(name: string)

  /** The scan of `re.sub`: a reference where one starts, otherwise one literal character. */
  function Tokenize(s: string, sigil: char): (tokens: seq<Token>)
    ensures forall i :: 0 <= i < |tokens| && tokens[i].Var? ==> IsName(tokens[i].name)
    decreases |s|
  {
    if s == [] then []
    else match MatchAt(s, sigil)
      case Some(name) => [Var(name)] + Tokenize(s[|Reference(sigil, name)|..], sigil)
      case None => [Lit(s[0])] + Tokenize(s[1..], sigil)
  }

  /** The text the tokens were read from. */
  function Render(tokens: seq<Token>, sigil: char): string {
    if tokens == [] then ""
    else (match tokens[0] case Lit(c) => [c] case Var(n) => Reference(sigil, n)) + Render(tokens[1..], sigil)
  }

  /** Scanning loses nothing: the tokens render back to the text. */
  lemma {:induction false} RenderTokenize(s: string, sigil: char)
    ensures Render(Tokenize(s, sigil), sigil) == s
    decreases |s|
  {
    if s != [] {
      match MatchAt(s, sigil)
      case Some(name) =>
        var k := |Reference(sigil, name)|;
        RenderTokenize(s[k..], sigil);
        assert s == s[..k] + s[k..];
      case None =>
        RenderTokenize(s[1..], sigil);
        assert s == [s[0]] + s[1..];
    }
  }

  /** Text with no `<sigil>{` holds no reference. */
  predicate NoOpener(s: string, sigil: char) {
    forall i :: 0 <= i < |s| - 1 ==> !(s[i] == sigil && s[i + 1] == '{')
  }

  lemma WithoutSigil(s: string, sigil: char)
    requires sigil !in s
    ensures NoOpener(s, sigil)
  {
  }

  lemma {:induction false} TokenizeNoOpener(s: string, sigil: char)
    requires NoOpener(s, sigil)
    ensures forall i :: 0 <= i < |Tokenize(s, sigil)| ==> Tokenize(s, sigil)[i].Lit?
    ensures |Tokenize(s, sigil)| == |s|
    decreases |s|
  {
    if s != [] {
      assert MatchAt(s, sigil).None?;
      assert NoOpener(s[1..], sigil) by {
        assert forall i :: 0 <= i < |s[1..]| ==> s[1..][i] == s[i + 1];
      }
      TokenizeNoOpener(s[1..], sigil);
    }
  }

  datatype SubstError = RuleFailed(name: string)

  /** Replace each reference by the rule's value; the first reference whose
      rule fails (`None`) aborts the substitution. */
  function Expand(tokens: seq<Token>, rule: string -> Option<string>): (r: Result<string, SubstError>)
    ensures r.Failure? <==> exists i :: 0 <= i < |tokens| && tokens[i].Var? && rule(tokens[i].name).None?
    ensures r.Failure? ==> exists i :: (0 <= i < |tokens| && tokens[i].Var? && rule(tokens[i].name).None? &&
      r.error == RuleFailed(tokens[i].name) &&
      forall j :: 0 <= j < i && tokens[j].Var? ==> rule(tokens[j].name).Some?)
  {
    if tokens == [] then Success("")
    else
      var head: Result<string, SubstError> := match tokens[0]
        case Lit(c) => Success([c])
        case Var(n) => (match rule(n) case Some(v) => Success(v) case None => Failure(RuleFailed(n)));
      if head.Failure? then head
      else
        var rest := Expand(tokens[1..], rule);
        assert forall i :: 1 <= i < |tokens| ==> tokens[i] == tokens[1..][i - 1];
        if rest.Failure? then
          ghost var i :| 0 <= i < |tokens[1..]| && tokens[1..][i].Var? && rule(tokens[1..][i].name).None? &&
            rest.error == RuleFailed(tokens[1..][i].name) &&
            forall j :: 0 <= j < i && tokens[1..][j].Var? ==> rule(tokens[1..][j].name).Some?;
          assert tokens[i + 1] == tokens[1..][i];
          Failure(rest.error)
        else Success(head.value + rest.value)
  }

  /** `re.sub(<sigil>\{NAME\}, lambda m: rule(m.group(1)), s)`. A failure
      names a reference the rule rejects, and a rule that accepts every name
      never fails. */
  function Substitute(s: string, sigil: char, rule: string -> Option<string>): (r: Result<string, SubstError>)
    ensures r.Failure? ==> IsName(r.error.name) && rule(r.error.name).None?
    ensures (forall n :: IsName(n) ==> rule(n).Some?) ==> r.Success?
  {
    Expand(Tokenize(s, sigil), rule)
  }

  /** `p` in front of a successful result; a failure is passed on. */
  function Prepend(p: string, r: Result<string, SubstError>): Result<string, SubstError> {
    match r case Success(v) => Success(p + v) case Failure(e) => Failure(e)
  }

  lemma TokenizeLiteral(c: char, t: string, sigil: char)
    requires c != sigil
    ensures Tokenize([c] + t, sigil) == [Lit(c)] + Tokenize(t, sigil)
  {
    var s := [c] + t;
    assert s[0] == c && s[1..] == t;
  }

  lemma ExpandLiteral(c: char, tokens: seq<Token>, rule: string -> Option<string>)
    ensures Expand([Lit(c)] + tokens, rule) == Prepend([c], Expand(tokens, rule))
  {
    assert ([Lit(c)] + tokens)[1..] == tokens;
  }

  /** Text without the sigil is copied in front of the substituted rest. */
  lemma {:induction false} SubstituteLiteralPrefix(a: string, b: string, sigil: char, rule: string -> Option<string>)
    requires sigil !in a
    ensures Substitute(a + b, sigil, rule) == Prepend(a, Substitute(b, sigil, rule))
    decreases |a|
  {
    if a == [] {
      assert a + b == b;
      PrependNothing(Substitute(b, sigil, rule));
    } else {
      var rest := a[1..];
      assert a + b == [a[0]] + (rest + b);
      SubstituteChar(a[0], rest + b, sigil, rule);
      SubstituteLiteralPrefix(rest, b, sigil, rule);
      PrependTwice([a[0]], rest, Substitute(b, sigil, rule));
      assert [a[0]] + rest == a;
    }
  }

  lemma SubstituteChar(c: char, t: string, sigil: char, rule: string -> Option<string>)
    requires c != sigil
    ensures Substitute([c] + t, sigil, rule) == Prepend([c], Substitute(t, sigil, rule))
  {
    TokenizeLiteral(c, t, sigil);
    ExpandLiteral(c, Tokenize(t, sigil), rule);
  }

  lemma PrependNothing(r: Result<string, SubstError>)
    ensures Prepend("", r) == r
  {
    if r.Success? {
      assert "" + r.value == r.value;
    }
  }

  lemma PrependTwice(p: string, q: string, r: Result<string, SubstError>)
    ensures Prepend(p, Prepend(q, r)) == Prepend(p + q, r)
  {
    if r.Success? {
      assert p + (q + r.value) == (p + q) + r.value;
    }
  }

  /** A reference in front is replaced by the rule's value, or aborts. */
  lemma SubstituteReferencePrefix(name: string, b: string, sigil: char, rule: string -> Option<string>)
    requires IsName(name)
    ensures Substitute(Reference(sigil, name) + b, sigil, rule) ==
      (match rule(name)
       case None => Failure(RuleFailed(name))
       case Some(v) => Prepend(v, Substitute(b, sigil, rule)))
  {
    var s := Reference(sigil, name) + b;
    MatchAtComplete(sigil, name, b);
    assert s[|Reference(sigil, name)|..] == b;
    var tokens := Tokenize(s, sigil);
    assert tokens == [Var(name)] + Tokenize(b, sigil);
    assert tokens[1..] == Tokenize(b, sigil);
  }

  /** One reference between sigil-free text and text without `<sigil>{`:
      exactly that reference is replaced. */
  lemma SubstituteOneReference(a: string, name: string, b: string, sigil: char, rule: string -> Option<string>, v: string)
    requires sigil !in a && IsName(name) && NoOpener(b, sigil) && rule(name) == Some(v)
    ensures Substitute(a + Reference(sigil, name) + b, sigil, rule) == Success(a + v + b)
  {
    var reference := Reference(sigil, name);
    NoOpenerFixed(b, sigil, rule);
    SubstituteReferencePrefix(name, b, sigil, rule);
    SubstituteLiteralPrefix(a, reference + b, sigil, rule);
    assert a + reference + b == a + (reference + b);
    assert a + (v + b) == a + v + b;
  }

  /** Literal-only tokens expand to their own text. */
  lemma {:induction false} ExpandLiterals(tokens: seq<Token>, rule: string -> Option<string>, sigil: char)
    requires forall i :: 0 <= i < |tokens| ==> tokens[i].Lit?
    ensures Expand(tokens, rule) == Success(Render(tokens, sigil))
  {
    if tokens != [] {
      ExpandLiterals(tokens[1..], rule, sigil);
    }
  }

  /** Text without `<sigil>{` is a fixed point, whatever the rule. */
  lemma NoOpenerFixed(s: string, sigil: char, rule: string -> Option<string>)
    requires NoOpener(s, sigil)
    ensures Substitute(s, sigil, rule) == Success(s)
  {
    TokenizeNoOpener(s, sigil);
    ExpandLiterals(Tokenize(s, sigil), rule, sigil);
    RenderTokenize(s, sigil);
  }

  /** Where no reference starts, the first character is copied as it is. */
  lemma SubstituteUnmatched(s: string, sigil: char, rule: string -> Option<string>)
    requires s != [] && MatchAt(s, sigil).None?
    ensures Substitute(s, sigil, rule) == Prepend([s[0]], Substitute(s[1..], sigil, rule))
  {
    assert Tokenize(s, sigil) == [Lit(s[0])] + Tokenize(s[1..], sigil);
    ExpandLiteral(s[0], Tokenize(s[1..], sigil), rule);
  }

  /** A reference that is never closed is no reference: `<sigil>{NAME`
      at the end of the text is kept as it is. */
  lemma UnclosedReferenceKept(name: string, sigil: char, rule: string -> Option<string>)
    requires IsName(name) && sigil !in name && sigil != '{'
    ensures Substitute([sigil, '{'] + name, sigil, rule) == Success([sigil, '{'] + name)
  {
    var s := [sigil, '{'] + name;
    assert s[2..] == name;
    assert NameRun(name) == |name|;
    SubstituteUnmatched(s, sigil, rule);
    assert s[1..] == ['{'] + name;
    WithoutSigil(s[1..], sigil);
    NoOpenerFixed(s[1..], sigil, rule);
    assert [sigil] + s[1..] == s;
  }

  /** A closed run of name characters outside the grammar (`a1-b`) is no
      reference either: it is kept as it is, whatever the rule. */
  lemma NotANameKept(name: string, sigil: char, rule: string -> Option<string>)
    requires (forall i :: 0 <= i < |name| ==> NameChar(name[i])) && !IsName(name)
    requires !NameChar(sigil) && sigil != '{' && sigil != '}'
    ensures Substitute(Reference(sigil, name), sigil, rule) == Success(Reference(sigil, name))
  {
    var s := Reference(sigil, name);
    NotANameUnmatched(name, sigil);
    SubstituteUnmatched(s, sigil, rule);
    assert s[1..] == ['{'] + name + "}";
    assert sigil !in s[1..];
    WithoutSigil(s[1..], sigil);
    NoOpenerFixed(s[1..], sigil, rule);
    assert [sigil] + s[1..] == s;
  }

  lemma NotANameUnmatched(name: string, sigil: char)
    requires (forall i :: 0 <= i < |name| ==> NameChar(name[i])) && !IsName(name)
    ensures MatchAt(Reference(sigil, name), sigil).None?
  {
    var s := Reference(sigil, name);
    assert s[2..][..|name|] == name && s[2..][|name|] == '}';
    NameRunOf(name, s[2..]);
    assert s[2..2 + |name|] == name;
  }

  /** Substitution with a rule that gives each reference back unchanged is
      the identity: every other character is copied as it is. */
  lemma {:induction false} ExpandIdentity(tokens: seq<Token>, sigil: char)
    ensures Expand(tokens, n => Some(Reference(sigil, n))) == Success(Render(tokens, sigil))
  {
    if tokens != [] {
      ExpandIdentity(tokens[1..], sigil);
    }
  }

  lemma SubstituteIdentity(s: string, sigil: char)
    ensures Substitute(s, sigil, n => Some(Reference(sigil, n))) == Success(s)
  {
    ExpandIdentity(Tokenize(s, sigil), sigil);
    RenderTokenize(s, sigil);
  }
}

=== FILE: validators.dfy ===
/** The binding validators of the container tooling: the `@{…}` and `${…}`
    expansions, the binding check of volume entries, and name generation.
    The process environment is a map; a 128-bit uuid is a parameter. */
module Validators {
  import opened Wrappers
  import Encoding
  import PathGrammar
  import Substitution

  type Environment = map<string, string>

  /** The value of an expanded volume entry before validation: the entry may
      be something other than a string. */
  datatype Value = Str(s: string) | Other

  datatype ValidatorError =
    | UnknownVariable(name: string)
    | MissingEnvironment(name: string)
    | NotAString
    | NotABinding(binding: string)

  /** The built-in variable rule: only `name` is known. */
  function VariableRule(variable: string): (r: Option<string>)
    ensures r.Some? <==> variable == "name"
    ensures r.Some? ==> r.value == "container_1"
  {
    if variable == "name" then Some("container_1") else None
  }

  /** `os.getenv` followed by `assert res`: an unset and an empty variable
      both fail. */
  function EnvironmentRule(env: Environment, variable: string): (r: Option<string>)
    ensures r.Some? <==> variable in env && env[variable] != ""
    ensures r.Some? ==> r.value == env[variable]
  {
    if variable in env && env[variable] != "" then Some(env[variable]) else None
  }

  /** The environment rule as the callback handed to the substitution. */
  function Lookup(env: Environment): string -> Option<string> {
    v => EnvironmentRule(env, v)
  }

  /** `expand_variables`: each `@{NAME}` becomes `rule(NAME)`. */
  function ExpandVariables(content: string, rule: string -> Option<string>): (r: Result<string, ValidatorError>)
    ensures r.Failure? ==> (r.error.UnknownVariable? && Substitution.IsName(r.error.name) &&
      rule(r.error.name).None?)
    ensures (forall n :: Substitution.IsName(n) ==> rule(n).Some?) ==> r.Success?
    ensures var tokens := Substitution.Tokenize(content, '@');
      r.Success? <==> forall i :: 0 <= i < |tokens| && tokens[i].Var? ==> rule(tokens[i].name).Some?
  {
    match Substitution.Substitute(content, '@', rule)
    case Success(v) => Success(v)
    case Failure(e) => Failure(UnknownVariable(e.name))
  }

  /** `expand_environment`: each `${NAME}` becomes the variable's value. */
  function ExpandEnvironment(content: string, env: Environment): (r: Result<string, ValidatorError>)
    ensures r.Failure? ==> (r.error.MissingEnvironment? && Substitution.IsName(r.error.name) &&
      (r.error.name !in env || env[r.error.name] == ""))
    ensures var tokens := Substitution.Tokenize(content, '$');
      r.Success? <==> forall i :: 0 <= i < |tokens| && tokens[i].Var? ==>
        tokens[i].name in env && env[tokens[i].name] != ""
  {
    match Substitution.Substitute(content, '$', Lookup(env))
    case Success(v) => Success(v)
    case Failure(e) => Failure(MissingEnvironment(e.name))
  }

  /** `substitute`: variables first, then the environment over the result. */
  function Substitute(content: string, rule: string -> Option<string>, env: Environment): (r: Result<string, ValidatorError>)
    ensures ExpandVariables(content, rule).Failure? ==> r == ExpandVariables(content, rule)
    ensures ExpandVariables(content, rule).Success? ==> r == ExpandEnvironment(ExpandVariables(content, rule).value, env)
  {
    match ExpandVariables(content, rule)
    case Success(v) => ExpandEnvironment(v, env)
    case Failure(e) => Failure(e)
  }

  /** Text without `@{` is a fixed point of `expand_variables`. */
  lemma ExpandVariablesFixed(content: string, rule: string -> Option<string>)
    requires Substitution.NoOpener(content, '@')
    ensures ExpandVariables(content, rule) == Success(content)
  {
    Substitution.NoOpenerFixed(content, '@', rule);
  }

  /** Text without `${` is a fixed point of `expand_environment`. */
  lemma ExpandEnvironmentFixed(content: string, env: Environment)
    requires Substitution.NoOpener(content, '$')
    ensures ExpandEnvironment(content, env) == Success(content)
  {
    Substitution.NoOpenerFixed(content, '$', Lookup(env));
  }

  /** A reference on its own becomes the rule's value, or fails. */
  lemma ReferenceAlone(name: string, sigil: char, rule: string -> Option<string>)
    requires Substitution.IsName(name)
    ensures Substitution.Substitute(Substitution.Reference(sigil, name), sigil, rule) ==
      (match rule(name)
       case None => Failure(Substitution.RuleFailed(name))
       case Some(v) => Success(v))
  {
    var reference := Substitution.Reference(sigil, name);
    Substitution.SubstituteReferencePrefix(name, "", sigil, rule);
    assert reference + "" == reference;
    Substitution.NoOpenerFixed("", sigil, rule);
    if rule(name).Some? {
      assert rule(name).value + "" == rule(name).value;
    }
  }

  /** A variable's value is expanded again by the environment pass: an
      `@{x}` whose value is `${v}` ends as `v`'s value, or as the missing
      variable `v`. */
  lemma VariablesBeforeEnvironment(x: string, v: string, rule: string -> Option<string>, env: Environment)
    requires Substitution.IsName(x) && Substitution.IsName(v)
    requires rule(x) == Some(Substitution.Reference('$', v))
    ensures Substitute(Substitution.Reference('@', x), rule, env) ==
      if v in env && env[v] != "" then Success(env[v]) else Failure(MissingEnvironment(v))
  {
    ReferenceAlone(x, '@', rule);
    ReferenceAlone(v, '$', Lookup(env));
  }

  /** An environment value is not scanned for variables again: `${v}` ends
      as `v`'s value verbatim, whatever `@{…}` it holds. */
  lemma EnvironmentNotRescanned(v: string, rule: string -> Option<string>, env: Environment)
    requires Substitution.IsName(v) && v in env && env[v] != ""
    ensures Substitute(Substitution.Reference('$', v), rule, env) == Success(env[v])
  {
    var reference := Substitution.Reference('$', v);
    forall i | 0 <= i < |reference| ensures reference[i] != '@' {
      if 2 <= i < |reference| - 1 {
        assert reference[i] == v[i - 2];
        assert Substitution.NameChar(v[i - 2]);
      }
    }
    ExpandVariablesFixed(reference, rule);
    ReferenceAlone(v, '$', Lookup(env));
  }

  /** `validate_binding`: a string, expanded for the environment, matched as
      `host:container`; the two paths are returned. */
  function ValidateBinding(binding: Value, env: Environment): (r: Result<(string, string), ValidatorError>)
    ensures binding.Other? ==> r == Failure(NotAString)
    ensures binding.Str? && ExpandEnvironment(binding.s, env).Failure? ==> r == Failure(ExpandEnvironment(binding.s, env).error)
    ensures r.Success? ==> (
      && binding.Str?
      && ExpandEnvironment(binding.s, env) == Success(r.value.0 + ":" + r.value.1)
      && PathGrammar.IsPath(r.value.0) && PathGrammar.IsPath(r.value.1))
    ensures binding.Str? && ExpandEnvironment(binding.s, env).Success? ==> (
      var x := ExpandEnvironment(binding.s, env).value;
      (r.Failure? <==> forall e :: 0 <= e < |x| ==> !PathGrammar.IsSplit(x, e)) &&
      (r.Failure? ==> r.error == NotABinding(x)))
  {
    match binding
    case Other => Failure(NotAString)
    case Str(s) =>
      match ExpandEnvironment(s, env)
      case Failure(e) => Failure(e)
      case Success(x) =>
        match PathGrammar.MatchBinding(x)
        case None => Failure(NotABinding(x))
        case Some(hc) => Success(hc)
  }

  /** Only `${…}` is expanded: a binding without `${` is matched as written,
      so any `@{…}` in it is returned verbatim. */
  lemma ValidateBindingKeepsVariables(s: string, env: Environment)
    requires Substitution.NoOpener(s, '$')
    ensures ValidateBinding(Str(s), env) ==
      match PathGrammar.MatchBinding(s) case None => Failure(NotABinding(s)) case Some(hc) => Success(hc)
  {
    ExpandEnvironmentFixed(s, env);
  }

  /** So a binding without `${` whose container path has no `:` comes back
      as the two paths joined, whatever `@{…}` they hold. */
  lemma PathsReturnedVerbatim(h: string, c: string, env: Environment)
    requires PathGrammar.IsPath(h) && PathGrammar.IsPath(c) && ':' !in c
    requires '$' !in h && '$' !in c
    ensures ValidateBinding(Str(h + ":" + c), env) == Success((h, c))
  {
    var s := h + ":" + c;
    Substitution.WithoutSigil(s, '$');
    ValidateBindingKeepsVariables(s, env);
    PathGrammar.MatchBindingExact(h, c);
  }

  /** `generate_name`: the base name, `-`, and the uuid as 32 lowercase hex digits. */
  function GenerateName(baseName: string, id: nat): (r: string)
    requires id < Encoding.Pow16(32)
    ensures |r| == |baseName| + 33 && r[..|baseName|] == baseName && r[|baseName|] == '-'
    ensures forall i :: |baseName| < i < |r| ==> Encoding.IsHex(r[i]) && !('A' <= r[i] <= 'F')
  {
    baseName + "-" + Encoding.HexFixed(id, 32)
  }

  /** The uuid can be read back from the generated name. */
  lemma GenerateNameRecoversId(baseName: string, id: nat)
    requires id < Encoding.Pow16(32)
    ensures Encoding.HexStringValue(GenerateName(baseName, id)[|baseName| + 1..]) == id
  {
    assert GenerateName(baseName, id)[|baseName| + 1..] == Encoding.HexFixed(id, 32);
    Encoding.HexFixedRoundTrip(id, 32);
  }

  /** Different uuids give different names for the same base name. */
  lemma GenerateNameInjective(baseName: string, id1: nat, id2: nat)
    requires id1 < Encoding.Pow16(32) && id2 < Encoding.Pow16(32)
    ensures GenerateName(baseName, id1) == GenerateName(baseName, id2) <==> id1 == id2
  {
    if GenerateName(baseName, id1) == GenerateName(baseName, id2) {
      GenerateNameRecoversId(baseName, id1);
      GenerateNameRecoversId(baseName, id2);
    }
  }
}

=== FILE: wrappers.dfy ===
/** Failure-compatible wrappers used throughout the model: `Option` for Python's
    `Optional`/`None` and `Result` for a value or a raised exception. */
module Wrappers {

  datatype Option<+T> = None | Some(value: T) {
    predicate IsFailure() { None? }

    function PropagateFailure<U>(): Option<U>
      requires None?
    {
      None
    }

    function Extract(): T
      requires Some?
    {
      value
    }

    function GetOr(default: T): T {
      match this
      case Some(v) => v
      case None => default
    }
  }

  datatype Result<+R, +E> = Success(value: R) | Failure(error: E) {
    predicate IsFailure() { Failure? }

    function PropagateFailure<U>(): Result<U, E>
      requires Failure?
    {
      Failure(error)
    }

    function Extract(): R
      requires Success?
    {
      value
    }
  }
}
